=== FILE: README.md ===
# LearnSpark core, modelled in Dafny

LearnSpark is a last-minute exam-preparation app. The learner types an exam goal, the time available and what they already know. A language model drafts a study plan of prioritised modules, and the app repairs and stores it. Opening a module fetches videos and articles chosen by a search chain and a model-based relevance filter. A tutor chat is scoped to the active module. Practice questions are scored, a progress panel totals completion and study time, and a countdown runs to the deadline.

This project models that core in Dafny, one module per source file:

| Dafny module | file | source | flavour |
|---|---|---|---|
| `Base`, `Patterns` | base.dfy, patterns.dfy | string helpers; the duration regular expressions of components/StudyProgress.tsx and components/CountdownTimer.tsx | pure |
| `Domain` | domain.dfy | the records of lib/context.tsx | values |
| `AppContext` | context.dfy | lib/context.tsx: the shared session state, as class `Session` with setters | imperative |
| `Gemini` | gemini.dfy | lib/gemini.ts: JSON extraction, plan repair and normalisation, tutor prompt and history | pure |
| `ChatTutor` | chat_tutor.dfy | pages/api/chat-tutor.ts | mixed |
| `FetchModuleResources` | fetch_module_resources.dfy | pages/api/fetch-module-resources.ts | mixed |
| `FullPlan` | full_plan.dfy | pages/api/generate-full-plan.ts | pure |
| `PracticeApi` | practice_api.dfy | pages/api/generate-practice-questions.ts | pure |
| `GoalInput` | goal_input.dfy | components/GoalInput.tsx, class `GoalForm` | mixed |
| `ModuleResources` | module_resources.dfy | components/ModuleResources.tsx | mixed |
| `ModuleItem` | module_item.dfy | components/ModuleItem.tsx, class `ModuleItemView` | mixed |
| `Practice` | practice.dfy | components/PracticeQuestions.tsx, class `PracticePanel` | mixed |
| `StudyProgress` | study_progress.dfy | components/StudyProgress.tsx | pure, with one loop |
| `Countdown` | countdown.dfy | components/CountdownTimer.tsx, class `CountdownTimer` | imperative |

Outside inputs are parameters of the model:
- the model's replies and what `JSON.parse` makes of a text;
- the replies of the HTTP routes and of the search providers;
- the clock (`now`, in milliseconds);
- the random suffixes of generated ids;
- the credentials that are configured.

React state becomes class fields, and each handler becomes a method. The method's `ensures` ties the new state to a specification function, and the properties are proved about those functions. A missing JSON string field is the empty string. Where the source reads the field through a `||` default this is exact; where it interpolates the raw field into a template, the two differ (see "## Left out").

### Behaviour of the code worth noting

- Durations in the countdown are matched case-sensitively: "2 Days" falls back to 24 hours (`Countdown.CapitalisedUnitIgnored`).
- The countdown stores a fresh end time every time it is mounted or its constraint changes, so a reload restarts the deadline from the full constraint.
- Pausing leaves the stored end time where it was. After a resume, the countdown runs to that end while it is still ahead. Only an end already in the past is recomputed from the face.
- The model's selection of resources is served whole, however many items it picks. Only the fallback path takes the first two candidates.
- The fallback articles always point at "https://example.com": the candidates carry `url`, but the fallback reads `link`.
- With fewer than three keywords, the synthetic search results interpolate `undefined` into the titles of the missing positions.
- A model error in plan generation is re-thrown and the route answers 500. The three-module fallback plan is made by the goal form, and only for an answer that lacks a plan or its modules.
- The exam-plan generator and the goal form default priorities differently, at positions 1 and 3 (`GoalInput.PriorityDefaultsDiffer`).
- The request the module list sends to the resource route carries `keywords` and no description, so the route always rejects it with 400. Resources are only ever loaded by the resources panel (`ModuleItem.ItemRequestRejected`, `ModuleItem.ModuleItemView.HandleModuleClickServed`).
- Practice questions from the route are numbered from 0, while the panel's own sample questions are numbered from 1 (`Practice.ServedFallbackIsSampleRenumbered`).
- The chat window sends only the learner's and the tutor's messages, never the system prompt (components/ChatWindow.tsx:43-46). The tutor therefore prepends the system prompt on every turn, in every mode. It is left out only when the first message of the history is a tutor reply that happens to contain the phrase "learning companion AI" (`Gemini.MarkedPromptNotRepeated`). The document and generic prompts contain that phrase; the module-mode prompt does not.

## Model

| member | source | states |
|---|---|---|
| AppContext.CurrentChatMessages | lib/context.tsx:156-159 | the current history is the active module's history when a module with a non-empty id is active, and empty otherwise |
| AppContext.MessageIdInjective | lib/context.tsx:200-207 | two message ids `<timestamp>-<suffix>` are equal only when both the timestamps and the random suffixes are |
| AppContext.AppendMessageFilesUnderActive | lib/context.tsx:199-223 | with a module active, the message is appended to that module's history (created when missing), every other history is unchanged, and the legacy list also gets it |
| AppContext.AppendMessageWithoutActive | lib/context.tsx:199-223 | without an active module no history changes and the current history stays empty; the legacy list still gets the message |
| AppContext.ClearCurrent | lib/context.tsx:225-233 | only the active module's history is emptied (nothing without one); the current history is then empty and the legacy list is kept |
| AppContext.ClearLegacy | lib/context.tsx:235-238 | the legacy list is emptied; module histories and the current history are kept |
| AppContext.SetStatus | lib/context.tsx:244-249 | same length and order; modules with the id get the status, every other field and module is unchanged |
| AppContext.FindById | lib/context.tsx:258 | a found module is in the list and has the id; none found means no module has it |
| AppContext.ApplyModuleStatusWithoutPlan | lib/context.tsx:241-242 | without a plan the update changes nothing |
| AppContext.ApplyModuleStatusKeepsPlan | lib/context.tsx:244-254 | the plan keeps its title and its modules in number and order, only the status of modules with the id changes, chats untouched |
| AppContext.ApplyModuleStatusActivates | lib/context.tsx:256-260 | setting a module of the plan active makes the updated module, with status active, the active module; other statuses leave the active module alone |
| AppContext.Session.constructor | lib/context.tsx:119-154 | the session starts empty: no goal, plan, active module, chats or resources, nothing loading |
| AppContext.Session.SetUserGoal | lib/context.tsx:121 | only the goal changes |
| AppContext.Session.SetUserKnowledge | lib/context.tsx:122 | only the knowledge text changes |
| AppContext.Session.SetLearningPlan | lib/context.tsx:128-133 | only the plan changes, to (a copy of) the given plan |
| AppContext.Session.SetActiveModule | lib/context.tsx:142 | only the active module changes |
| AppContext.Session.SetModuleResources | lib/context.tsx:152 | only the resource list changes |
| AppContext.Session.SetLoadingResources | lib/context.tsx:153 | only the loading flag changes |
| AppContext.Session.SetGeneratingPlan | lib/context.tsx:145 | only the plan-generation flag changes |
| AppContext.Session.SetActiveResource | lib/context.tsx:154 | only the active resource changes |
| AppContext.Session.AddChatMessage | lib/context.tsx:199-223 | the new state is `AppendMessage` of the old one, whose properties are the two lemmas above |
| AppContext.Session.ClearCurrentChatMessages | lib/context.tsx:225-233 | the new state is `ClearCurrent` of the old one |
| AppContext.Session.ClearChatMessages | lib/context.tsx:235-238 | the new state is `ClearLegacy` of the old one |
| AppContext.Session.UpdateModuleStatus | lib/context.tsx:240-261 | the new state is `ApplyModuleStatus` of the old one, whose properties are the three lemmas above |
| Domain.LearnKeywords | lib/gemini.ts:187-192 | the default keywords of a learning module: four entries, the first the bare module title |
| Domain.DefaultModuleId | lib/gemini.ts:180 | the generated module id `module-<index+1>-<now>` is never empty |
| Gemini.ExtractFencedJsonNoFence | lib/gemini.ts:76-80 | a reply with no backtick at all is handed to `JSON.parse` unchanged |
| Gemini.FenceCaptureOfBlock | lib/gemini.ts:76-77 | the lazy fence pattern captures exactly the body of the leftmost fenced block when that body holds no closing fence |
| Gemini.ExtractFencedJsonOfJsonBlock | lib/gemini.ts:76-80 | a reply holding a ```` ```json ```` block yields that block's body for parsing |
| Gemini.ExtractFencedJsonOfBareBlock | lib/gemini.ts:76-80 | without a ```` ```json ```` opener anywhere, the body of the first bare fenced block is parsed |
| Gemini.ExtractBraced | lib/gemini.ts:161-167 | the text parsed for a learning plan is either the whole reply or runs from a `{` to a `}` |
| Gemini.ExtractBracedOfObject | lib/gemini.ts:161-164 | an object wrapped in prose without braces is cut out exactly, from its first `{` to its last `}` |
| Gemini.ExamKeywords | lib/gemini.ts:93-98 | the default search keywords of an exam module: four, the first the module title |
| Gemini.RepairExamModule | lib/gemini.ts:85-99 | a repaired exam module keeps title, description and given fields; id, priority (critical, important, helpful by index), estimated time and keywords get their defaults only when missing; the first module is active, every other pending |
| Gemini.RepairExamModules | lib/gemini.ts:84-100 | the repair maps over the modules position by position, keeping their number |
| Gemini.ExamRepairShape | lib/gemini.ts:84-100 | after repair exactly the first module is active, none is completed, and every module has an id, a priority, an estimated time and keywords |
| Gemini.ExamRepairIdempotent | lib/gemini.ts:84-100 | repairing an already repaired plan again, at any later time, changes nothing |
| Gemini.ExamPrepPlan | lib/gemini.ts:69-110 | a model error is passed on; an unparsable extract fails with "Failed to generate a valid exam preparation plan"; a parsed plan keeps title and description and has its module array repaired |
| Gemini.NormalizeLearningModule | lib/gemini.ts:178-203 | a normalised learning module has a non-empty id and title (`Module <index+1>` by default), keeps the description, is pending, drops priority and time, and keeps a non-empty keyword array or gets the default one |
| Gemini.NormalizeLearningModules | lib/gemini.ts:177-204 | normalisation maps over the modules position by position, keeping their number |
| Gemini.LearningPlanOf | lib/gemini.ts:158-211 | a model error is passed on; an unparsable extract fails with "Failed to parse learning plan response"; a parsed plan succeeds with its `title`, else its `planTitle`, else the goal as title, its description, and its module array normalised (no modules when the reply has no array) |
| Gemini.LearningPlanShape | lib/gemini.ts:170-204 | the plan title falls back from `title` to `planTitle` to the goal; a plan without a module array has no modules; every module is pending with an id, a title and keywords |
| Gemini.LearningNormalizationIdempotent | lib/gemini.ts:177-204 | normalising already normalised modules again changes nothing |
| Gemini.SelectPrompt | lib/gemini.ts:232-298 | document mode wins over an active module, which wins over the generic prompt |
| Gemini.ResourceStatus | lib/gemini.ts:256-259 | a video is reported watched only when its flag is true and any other resource read only when its flag is true |
| Gemini.PromptMarked | lib/gemini.ts:309-316 | the document and generic prompts contain the marker phrase "learning companion AI" |
| Gemini.MapHistory | lib/gemini.ts:303-306 | the history keeps its length and texts, and a turn is a user turn exactly when its role was "user" |
| Gemini.FormatHistory | lib/gemini.ts:308-316 | the system prompt is prepended as a model turn exactly when the history is empty, opens with a user entry, or opens with an entry lacking the marker; the sent history always starts with a model turn |
| Gemini.MarkedPromptNotRepeated | lib/gemini.ts:309-316 | a history that already starts with a marked prompt from the model does not get the prompt again |
| ChatTutor.RequestingVideosIgnoresCase | pages/api/chat-tutor.ts:10-20 | the video-request test reads the message in lower case, so it gives the same answer for a message and its lower-case form |
| ChatTutor.VideosWordRedundant | pages/api/chat-tutor.ts:11-14 | the keyword "videos" adds nothing: any text containing it contains "video" |
| ChatTutor.VideoKeywords | pages/api/chat-tutor.ts:28-33 | four search keywords for a topic, the first the topic itself |
| ChatTutor.VideoKeywordsSameAsLearnKeywords | pages/api/chat-tutor.ts:28-33 | the tutor's video keywords are the learning-plan default keywords in another order |
| ChatTutor.VideoRequestAccepted | pages/api/chat-tutor.ts:35-46 | the tutor's request to the resource route is accepted exactly when the topic is non-empty |
| ChatTutor.VideosOf | pages/api/chat-tutor.ts:53 | each YouTube resource of the reply appears as often as it does there, and nothing else does; an all-video list is kept whole |
| ChatTutor.VideosOfAppend | pages/api/chat-tutor.ts:53 | filtering keeps the order: the videos of a concatenation are the videos of each part, in turn |
| ChatTutor.VideosOfOne | pages/api/chat-tutor.ts:53 | a single resource is kept exactly when its type is youtube |
| ChatTutor.FetchYouTubeVideos | pages/api/chat-tutor.ts:23-58 | `slice(0, 3)` of the reply's videos: a prefix of them, exactly three when there are that many, and all of them when there are fewer; a failed or missing reply gives none |
| ChatTutor.LinkLines | pages/api/chat-tutor.ts:80-82 | one numbered markdown link per video, in order |
| ChatTutor.LinkNumbersDistinct | pages/api/chat-tutor.ts:80-81 | two link lines at different positions never coincide, since their numbers differ |
| ChatTutor.ChatTutorRoute | pages/api/chat-tutor.ts:60-105 | 405 for a method other than POST; a video request about an active module that finds videos is answered with their links and without calling the tutor; otherwise the tutor is called with the defaulted request and its reply or error (message defaulting to "Failed to get tutor response", status 500) is returned |
| ChatTutor.AskTutor | pages/api/chat-tutor.ts:91-103 | the tutor call and how its success or failure becomes the response |
| ModuleItem.ItemRequestRejected | components/ModuleItem.tsx:85-95 | the entry's request, which sends `keywords` and no description, never has the fields the resource route requires |
| ModuleItem.Activate | components/ModuleItem.tsx:64-69 | activating a module leaves resources, loading flag and chat histories alone |
| ModuleItem.ActivateKeepsStatus | components/ModuleItem.tsx:64-69 | a module that is not pending becomes active module unchanged and the plan is not touched |
| ModuleItem.ActivatePending | components/ModuleItem.tsx:64-69 | a pending module of the plan becomes the active module with status active, and so does its plan entry |
| ModuleItem.AfterItemFetch | components/ModuleItem.tsx:77-116 | without keywords the resources are emptied; with keywords loading ends false and the resources are replaced only by a successful reply that carries a list |
| ModuleItem.DisplayedPriority | components/ModuleItem.tsx:131-134 | a module without a priority is shown as helpful |
| ModuleItem.DisplayedTime | components/ModuleItem.tsx:174 | the shown time is never empty and is the module's own when it has one |
| ModuleItem.ModuleItemView.constructor | components/ModuleItem.tsx:31-36 | an entry is keyed by its module's id and starts collapsed with practice questions hidden |
| ModuleItem.ModuleItemView.FetchResources | components/ModuleItem.tsx:77-116 | sends the request for the rendered module exactly when it has keywords and leaves the session as `AfterItemFetch` says |
| ModuleItem.ModuleItemView.HandleModuleClick | components/ModuleItem.tsx:57-74 | every click toggles the entry; only a click on a collapsed entry activates the plan's current module with the entry's id and fetches for it, and a click on an expanded one changes nothing else; a module that is not pending leaves the plan untouched |
| ModuleItem.ReexpandKeepsCompleted | components/ModuleItem.tsx:57-74 | after a module is marked complete, the plan's entry for it is completed, and expanding it again leaves the plan as it is and makes that completed module the active one |
| ModuleItem.ModuleItemView.HandleModuleClickServed | components/ModuleItem.tsx:57-116 | wired to the resource route, a click never fills the resource list: it only empties it for a module without keywords |
| ModuleItem.ModuleItemView.TogglePracticeQuestions | components/ModuleItem.tsx:139-142 | flips whether the practice questions are shown and nothing else |
| ModuleItem.ModuleItemView.MarkComplete | components/ModuleItem.tsx:219-222 | the module's status becomes completed in the session, and the entry's module reads as completed from then on |
| FullPlan.ParamsOf | pages/api/generate-full-plan.ts:30-35 | the generator gets the exam goal, and the time constraint defaults to "24 hours" |
| FullPlan.ValidateModule | pages/api/generate-full-plan.ts:42-51 | validation fills a missing id and missing keywords and changes nothing else |
| FullPlan.ValidateModules | pages/api/generate-full-plan.ts:40-52 | validation maps over the modules position by position |
| FullPlan.ValidateModulesIdempotent | pages/api/generate-full-plan.ts:40-52 | validating twice is validating once |
| FullPlan.ValidateAfterExamRepair | pages/api/generate-full-plan.ts:40-52 | the route's validation never changes a plan the generator already repaired |
| FullPlan.GenerateFullPlan | pages/api/generate-full-plan.ts:9-59 | 405 for a method other than POST, 400 "Exam goal is required" without a goal; for a POST with a goal: success if and only if the generator returns a plan whose modules form an array, the served plan being the generator's with its modules validated, and otherwise a 500 carrying the generator's error (or "Failed to generate learning plan") or the `TypeError` of a missing or non-array module list |
| FullPlan.RejectsBeforeGeneration | pages/api/generate-full-plan.ts:13-22 | a rejected request gets the same answer whatever the model says, at any time |
| FullPlan.ServedPlanShape | pages/api/generate-full-plan.ts:30-54 | a served plan came from a parsed module array, keeps its titles and count, has exactly its first module active, none completed, and every module with id, priority, time and keywords |
| FetchModuleResources.MockYouTubeSearch | pages/api/fetch-module-resources.ts:44-90 | the synthetic video search gives three videos with the fixed ids, titled after the first three keywords |
| FetchModuleResources.MockWebSearch | pages/api/fetch-module-resources.ts:186-205 | the synthetic article search gives three articles with the fixed example urls, titled after the first three keywords |
| FetchModuleResources.YouTubeSearch | pages/api/fetch-module-resources.ts:9-41 | the provider's items when a key is configured and the answer is ok; `undefined` exactly for an ok answer without `items`; the synthetic set without a key, on a non-ok answer or on an exception |
| FetchModuleResources.RunChainThree | pages/api/fetch-module-resources.ts:110-177 | a chain of three providers ends where the first one that is configured and does not answer "not ok" ends it |
| FetchModuleResources.RunChainAppend | pages/api/fetch-module-resources.ts:110-177 | a later provider is consulted only when every earlier one was skipped or answered not ok |
| FetchModuleResources.WebSearch | pages/api/fetch-module-resources.ts:93-183 | the articles of the first configured provider that returns a list, in the order Google (key and engine id), Bing, Serper; otherwise, and as soon as one throws, the synthetic set |
| FetchModuleResources.ThrowStopsChain | pages/api/fetch-module-resources.ts:110-124 | an exception in the first provider, or an ok answer without its list, abandons the chain whatever the later providers would answer |
| FetchModuleResources.NoKeysNoProviders | pages/api/fetch-module-resources.ts:175-177 | with no search credentials no provider is asked |
| FetchModuleResources.Take | pages/api/fetch-module-resources.ts:310 | `slice(0, n)`: a prefix of length at most n, exactly n when there are that many, and the whole input when it is no longer than n |
| FetchModuleResources.FallbackVideos | pages/api/fetch-module-resources.ts:307-316 | when the model's selection fails, the first two candidates are kept with defaulted id and title and the fixed justification |
| FetchModuleResources.FallbackArticles | pages/api/fetch-module-resources.ts:329-338 | when the model's selection fails, the first two candidates are kept with the url "https://example.com" (the candidates carry no `link`), defaulted title and the fixed justification |
| FetchModuleResources.FormatVideos | pages/api/fetch-module-resources.ts:342-349 | each selected video becomes one unwatched YouTube resource carrying its id, title and justification |
| FetchModuleResources.FormatArticles | pages/api/fetch-module-resources.ts:351-358 | each selected article becomes one unread article resource carrying its url, title and justification |
| FetchModuleResources.MockResources | pages/api/fetch-module-resources.ts:370-390 | the last-resort list: one video then one article |
| FetchModuleResources.MockResourcesWellTyped | pages/api/fetch-module-resources.ts:372-389 | the last-resort list is well formed: a video with an id and unwatched, then an article with a url and unread |
| FetchModuleResources.ServedOrder | pages/api/fetch-module-resources.ts:361 | the served list is the selected videos, then the selected articles, in selection order, and is well formed |
| FetchModuleResources.FetchResources | pages/api/fetch-module-resources.ts:268-398 | 405 for a method other than POST; 400 without id, title, description or keyword list; 500 with the error's message exactly when a stage raises a `TypeError`; otherwise 200 with `Served`: the combined videos and articles, or the two mock resources when that list is empty |
| FetchModuleResources.CombinedFailsIff | pages/api/fetch-module-resources.ts:298-358 | building the list raises exactly when a selection parses to something other than an array, or the video selection fails while the video search returned `undefined` |
| FetchModuleResources.ServedWellTyped | pages/api/fetch-module-resources.ts:342-393 | the served list is non-empty and well formed (videos first, each with a video id and unwatched, then articles with a url and unread), with at most four entries when both selections fail |
| ModuleResources.EffectiveKeywords | components/ModuleResources.tsx:37-46 | the searched keywords are never empty: the module's own non-empty list, else the four derived from its title |
| ModuleResources.RequestForAccepted | components/ModuleResources.tsx:54-65 | the route accepts the panel's request exactly when the module has an id, a title and a description |
| ModuleResources.AfterLoad | components/ModuleResources.tsx:27-91 | without an active module nothing changes; otherwise no resource stays open, loading is over and the list is the reply's, empty on any failure |
| ModuleResources.LoadResources | components/ModuleResources.tsx:27-91 | sends the active module's request exactly when there is an active module and leaves the session as `AfterLoad` says |
| ModuleResources.LoadFromRoute | components/ModuleResources.tsx:50-87 | wired to the resource route, loading ends with no open resource and a well-formed list; the list is non-empty exactly when the module has id, title and description and the route does not raise |
| ModuleResources.ViewOf | components/ModuleResources.tsx:240-257 | nothing without an active module, then the spinner exactly while loading, then the empty notice exactly for an empty list, then the open resource exactly when one is open, else the list; each case stated as an if-and-only-if |
| ModuleResources.ViewAfterLoad | components/ModuleResources.tsx:74-86 | after a load the panel shows the list exactly when resources were kept and the empty notice otherwise |
| ModuleResources.SelectResource | components/ModuleResources.tsx:94-106 | the resource is opened and an AI message introducing it is added to the active module's chat |
| ModuleResources.LabelCheckedIffDisabled | components/ModuleResources.tsx:306-311 | the button label ends in a check mark exactly when the button is disabled |
| ModuleResources.MarkConsumed | components/ModuleResources.tsx:133-139 | a consumed resource has its button disabled: a video becomes watched, anything else read; the summary is replaced only when the summary call answered; nothing else changes |
| ModuleResources.MarkCompleted | components/ModuleResources.tsx:132-141 | exactly the resources with the given id are marked consumed, the others are kept, and the list keeps its length |
| ModuleResources.MarkCompletedDisables | components/ModuleResources.tsx:154-163 | after marking, every resource with that id is disabled and every other one is unchanged |
| ModuleResources.MarkCompletedIdempotent | components/ModuleResources.tsx:154-163 | marking again without a summary changes nothing |
| ModuleResources.CompleteResource | components/ModuleResources.tsx:109-173 | the resource is marked consumed in the list, a completion message is added to the chat, and the open resource stays open |
| ModuleResources.LetterInjective | components/ModuleResources.tsx:207 | different option positions get different letters |
| ModuleResources.OptionLines | components/ModuleResources.tsx:206-208 | one line per option, in order |
| ModuleResources.OnlyCorrectMarked | components/ModuleResources.tsx:207 | an option line carries the check mark exactly when it is the correct answer |
| ModuleResources.QuestionBody | components/ModuleResources.tsx:210 | each quiz question starts its markdown bold |
| ModuleResources.QuestionNumbersDistinct | components/ModuleResources.tsx:205-211 | two quiz questions at different positions never render the same, since their numbers differ |
| ModuleResources.AttachQuiz | components/ModuleResources.tsx:220-225 | exactly the resources with the given id get the quiz questions, the others are kept |
| ModuleResources.QuizAndCompletionIndependent | components/ModuleResources.tsx:132-225 | attaching a quiz and marking the same resource consumed commute |
| ModuleResources.AfterQuiz | components/ModuleResources.tsx:176-238 | the quiz is attached only when the quiz route answered with questions; otherwise the resources are unchanged |
| ModuleResources.PostQuiz | components/ModuleResources.tsx:213-227 | the quiz message is added to the chat and the questions are attached to the resource |
| ModuleResources.GenerateQuiz | components/ModuleResources.tsx:176-238 | the quiz is announced, then listed and attached when the quiz route answered with questions and replaced by an apology otherwise, as `AfterQuiz` says |
| Base.Percent | components/StudyProgress.tsx:72 | `Math.round(100 * part / whole)`: the nearest integer to the percentage, within 0..100 for a part of the whole, 100 for the whole and 0 for nothing |
| Patterns.MatchAt | components/StudyProgress.tsx:37 | a duration pattern matches at a position only where a digit run starts, and captures the number written there |
| Patterns.FirstMatch | components/StudyProgress.tsx:37 | `String.prototype.match` finds the leftmost position where the pattern matches, and none before it |
| Patterns.ReadCount | components/CountdownTimer.tsx:24 | a text opening with a number, one space and the unit is read as that number |
| Patterns.ReadRange | components/StudyProgress.tsx:37 | a text opening with `a-b`, one space and the unit is read as the range from a to b |
| StudyProgress.HourTextsInHalfHours | components/StudyProgress.tsx:36-45 | a text that mentions hours always counts a whole number of half-hours |
| StudyProgress.MinutesRead | components/StudyProgress.tsx:46-54 | "n minutes" counts n minutes |
| StudyProgress.MissingEstimateIsHalfHour | components/StudyProgress.tsx:33-34 | a module without an estimate counts 30 minutes |
| StudyProgress.HoursRead | components/StudyProgress.tsx:42-43 | "n hours" counts n hours |
| StudyProgress.HourRangeRead | components/StudyProgress.tsx:40-41 | "a-b hours" counts the average of a and b hours |
| StudyProgress.MinuteRangeRead | components/StudyProgress.tsx:50-51 | "a-b minutes" counts the average of a and b minutes |
| StudyProgress.HoursRangeAtStart | components/StudyProgress.tsx:36-41 | an hour range found at the start of the text is what the text counts |
| StudyProgress.MinuteRangeAtStart | components/StudyProgress.tsx:46-51 | a minute range found at the start of a text without hours is what the text counts |
| StudyProgress.TotalIsDonePlusOpen | components/StudyProgress.tsx:58-61 | the total time is the time of completed modules plus the time of the rest |
| StudyProgress.CountCompleted | components/StudyProgress.tsx:21 | the completed modules are at most all modules |
| StudyProgress.CountCritical | components/StudyProgress.tsx:24 | the critical modules are at most all modules |
| StudyProgress.CountCompletedCritical | components/StudyProgress.tsx:25 | the completed critical modules are at most the critical ones and at most the completed ones |
| StudyProgress.AllCompletedCounts | components/StudyProgress.tsx:21-61 | when every module is completed, all count as completed, all critical ones too, and no time remains |
| StudyProgress.CriticalPercentage | components/StudyProgress.tsx:73-75 | 100 when there is no critical module, else the rounded share of critical modules completed, never above 100 |
| StudyProgress.Tenths | components/StudyProgress.tsx:65-67 | half-minutes rounded to the nearest tenth of an hour, halves up |
| StudyProgress.SpentPlusRemainingNearTotal | components/StudyProgress.tsx:65-67 | the rounded time spent and rounded time remaining add up to the rounded total within a tenth of an hour |
| StudyProgress.NoProgressIsZeroTime | components/StudyProgress.tsx:9-17 | the empty-plan figures show zero hours spent and remaining, as a plan with no time would |
| StudyProgress.CalculateProgress | components/StudyProgress.tsx:8-79 | the fixed zero figures without modules; otherwise completed and total counts, the rounded completion percentage, the critical percentage, and the time spent and remaining from the completed and open modules; both percentages at most 100 |
| StudyProgress.FinishedPlanShowsFull | components/StudyProgress.tsx:20-78 | a plan with every module completed shows 100% overall, 100% critical and no time remaining |
| GoalInput.FallbackPlan | components/GoalInput.tsx:119-154 | the plan used when the answer has none holds three modules |
| GoalInput.DefaultMinutes | components/GoalInput.tsx:165 | the default estimate is 60 minutes less ten per position, never under 30 |
| GoalInput.ProcessModule | components/GoalInput.tsx:160-167 | a processed module keeps title, description and key concepts; id, priority (critical first, important up to index 2, then helpful), estimate and keywords (title, goal, "exam prep") are filled only when missing; the first module is active and every other pending |
| GoalInput.ProcessModules | components/GoalInput.tsx:160-167 | processing maps over the modules position by position |
| GoalInput.ProcessModulesShape | components/GoalInput.tsx:160-167 | after processing exactly the first module is active, none is completed, and every module has an id, a priority, an estimate and keywords |
| GoalInput.ProcessModulesIdempotent | components/GoalInput.tsx:160-167 | processing processed modules again, at any later time, changes nothing |
| GoalInput.PriorityDefaultsDiffer | components/GoalInput.tsx:164 | the form's default priority differs from the exam-plan generator's exactly at positions 1 and 3 |
| GoalInput.ProcessAfterExamRepair | components/GoalInput.tsx:160-167 | the form's processing never changes modules the exam-plan generator already repaired |
| GoalInput.ServedPlanKept | components/GoalInput.tsx:160-167 | every plan the generate-full-plan route serves passes the form's processing unchanged |
| GoalInput.UpdatedPlan | components/GoalInput.tsx:170-174 | the stored plan's title and description fall back to the goal-derived ones, and its modules are the processed ones |
| GoalInput.KnowledgeOutcome | components/GoalInput.tsx:106-221 | a non-ok answer fails with its status and text, an exception with its message or the default; every failure has a message, and a plan is stored only from an answer body; a body whose plan has a module array stores that plan with its title and description defaulted and its modules processed; a plan with a non-array module list fails with the `TypeError` of `.map` |
| GoalInput.FallbackOutcome | components/GoalInput.tsx:115-157 | an answer without a plan or without modules stores the fallback plan: Core Concepts (critical, active), Common Problems (important, pending), Advanced Topics (helpful, pending) |
| GoalInput.KnowledgeOutcomeShape | components/GoalInput.tsx:115-174 | a plan is stored if and only if the answer is a body whose plan does not carry a non-array module list; the stored modules keep the answer's number, order and titles, exactly the first is active, and each has an id and a priority |
| GoalInput.ServedPlanStored | components/GoalInput.tsx:159-174 | a plan the generate-full-plan route serves, handed to the form, is stored with its modules exactly as served |
| GoalInput.RequestOf | components/GoalInput.tsx:98-103 | the request's time constraint is the one typed, or "24 hours" |
| GoalInput.RequestAccepted | components/GoalInput.tsx:93-103 | the form's request reaches the generator with the typed time constraint or 24 hours, and passes the route's checks whenever a goal was typed |
| GoalInput.StoredPlanActivatesFirst | components/GoalInput.tsx:182-192 | a stored plan with modules makes its first module, which is active, the active module, and plan generation ends |
| GoalInput.GoalForm.constructor | components/GoalInput.tsx:15-23 | the form starts empty on step 1 without an error |
| GoalInput.GoalForm.EditGoal | components/GoalInput.tsx:300 | typing changes the goal and nothing else |
| GoalInput.GoalForm.EditTimeConstraint | components/GoalInput.tsx:349 | typing changes the time constraint and nothing else |
| GoalInput.GoalForm.EditKnowledge | components/GoalInput.tsx:406 | typing changes the prior knowledge and nothing else |
| GoalInput.GoalForm.SubmitGoal | components/GoalInput.tsx:45-56 | a blank goal shows the error and changes nothing else; otherwise the goal is stored in the session and the form moves to step 2 with no error |
| GoalInput.GoalForm.SubmitTimeConstraint | components/GoalInput.tsx:58-62 | the form moves to step 3 with no error |
| GoalInput.GoalForm.BackToGoal | components/GoalInput.tsx:366 | the back button returns to step 1 |
| GoalInput.GoalForm.BackToTimeConstraint | components/GoalInput.tsx:415 | the back button returns to step 2 |
| GoalInput.GoalForm.TryDemo | components/GoalInput.tsx:234-239 | the demo goal with 48 hours is filled in and stored, on step 2 |
| GoalInput.GoalForm.SubmitKnowledge | components/GoalInput.tsx:64-232 | the request built from the form is sent; the form shows the failure message or none and stays submitting; the session stores goal and knowledge, the plan and its first module when there is one, and ends plan generation |
| Countdown.CountTimesAtStart | components/CountdownTimer.tsx:23-38 | a count found at the start of the text is what it contributes, times the unit factor |
| Countdown.HoursRead | components/CountdownTimer.tsx:23-27 | "n hour…" gives n hours |
| Countdown.DaysRead | components/CountdownTimer.tsx:28-32 | "n day…" without an h after it gives 24 n hours |
| Countdown.WeeksRead | components/CountdownTimer.tsx:33-37 | "n week…" without an h or d after it gives 168 n hours |
| Countdown.CapitalisedUnitIgnored | components/CountdownTimer.tsx:21-38 | the units are matched case-sensitively: "n Days" falls back to 24 hours |
| Countdown.BreakdownNormal | components/CountdownTimer.tsx:41-45 | the broken-down clock has hours below 24 and minutes and seconds below 60 |
| Countdown.BreakdownSound | components/CountdownTimer.tsx:41-45 | the days, hours, minutes and seconds of a duration add back up to it |
| Countdown.BreakdownOfTotal | components/CountdownTimer.tsx:41-45 | breaking down the total of a normal clock gives that clock back |
| Countdown.BreakdownMs | components/CountdownTimer.tsx:89-92 | the millisecond breakdown of the interval equals the breakdown of the whole seconds |
| Countdown.FormatTime | components/CountdownTimer.tsx:101-103 | the padded text has at least two digits and reads back as the value; it is the plain number when that already has two digits, and "0" followed by the digit otherwise |
| Countdown.UrgencyBySeconds | components/CountdownTimer.tsx:149-158 | urgency is high under 3 hours left, medium under 12 and low otherwise |
| Countdown.UrgencyGrowsAsTimeRunsOut | components/CountdownTimer.tsx:149-158 | less time left never means lower urgency |
| Countdown.EndTime | components/CountdownTimer.tsx:60-73 | the end time the countdown runs to is never in the past |
| Countdown.RecomputedEndKeepsFace | components/CountdownTimer.tsx:63-73 | an end recomputed from the face shows that same face when read back at once |
| Countdown.RemainingNeverGrows | components/CountdownTimer.tsx:76-92 | for a fixed end, the time shown never grows as the clock advances |
| Countdown.CountdownTimer.constructor | components/CountdownTimer.tsx:9-53 | the timer starts running, not paused, showing the parsed limit, with the end stored at now plus the limit |
| Countdown.CountdownTimer.SetTimeConstraint | components/CountdownTimer.tsx:20-53 | a new constraint resets the face and the stored end and leaves running and paused alone |
| Countdown.CountdownTimer.Arm | components/CountdownTimer.tsx:56-74 | a running, unpaused timer starts ticking towards the stored end, re-stored from the face when missing or past; otherwise nothing starts |
| Countdown.CountdownTimer.Fire | components/CountdownTimer.tsx:75-95 | at or after the end the face is zero, the timer stops and reports time up; before it the face is the time left; the tick is then spent |
| Countdown.CountdownTimer.TogglePause | components/CountdownTimer.tsx:106-108 | pausing flips and stops the ticking, nothing else changes |
| Countdown.CountdownTimer.Reset | components/CountdownTimer.tsx:111-146 | the timer runs again unpaused with the parsed limit on its face and the end stored at now plus the limit |
| PracticeApi.CallFor | pages/api/generate-practice-questions.ts:13-25 | the count defaults to 5 and the key concepts to "Not specified"; title and description are passed on |
| PracticeApi.FallbackQuestions | pages/api/generate-practice-questions.ts:102-138 | three questions of four options each, the i-th answered by option i |
| PracticeApi.FallbackNamesModule | pages/api/generate-practice-questions.ts:105 | the first fallback question names the module |
| PracticeApi.FirstOpen | pages/api/generate-practice-questions.ts:81 | the leftmost position where `[`, white space and `{` open, and none before it |
| PracticeApi.LastClose | pages/api/generate-practice-questions.ts:81 | the rightmost position where `}`, white space and `]` close after the opening, and none after it |
| PracticeApi.ArrayMatch | pages/api/generate-practice-questions.ts:81 | a matched array runs from a `[` to a `]` |
| PracticeApi.ArrayMatchOfArray | pages/api/generate-practice-questions.ts:81 | an array of objects in prose without brackets is cut out exactly |
| PracticeApi.NoBracketNoArray | pages/api/generate-practice-questions.ts:81-86 | a reply without `[` has no array |
| PracticeApi.GeneratedQuestions | pages/api/generate-practice-questions.ts:75-98 | a model error or a reply without an array gives the fallback questions; a matched array gives what parsing it yields, or the fallback questions when it does not parse; anything other than the fallback came from parsing the matched array |
| PracticeApi.ArrayInProseParsed | pages/api/generate-practice-questions.ts:81-94 | an array in bracket-free prose is parsed on exactly that array |
| PracticeApi.ProseFallsBack | pages/api/generate-practice-questions.ts:81-86 | prose alone gives the fallback questions |
| PracticeApi.HandlePractice | pages/api/generate-practice-questions.ts:7-32 | 405 for a method other than POST, 400 "Missing required parameters" without module id or title, else 200 with the generated questions; no other failure |
| Practice.QuestionIdInjective | components/PracticeQuestions.tsx:52 | different positions give different question ids |
| Practice.Received | components/PracticeQuestions.tsx:49-53 | the received questions keep their number and order and are numbered by position |
| Practice.ReceivedIdsDistinct | components/PracticeQuestions.tsx:50-53 | no two received questions share an id |
| Practice.SampleQuestions | components/PracticeQuestions.tsx:100-139 | three unanswered questions numbered from 1, four options each, the i-th answered by option i |
| Practice.ServedFallbackIsSampleRenumbered | components/PracticeQuestions.tsx:100-139 | the route's fallback questions, once received, are the panel's sample questions numbered from 0 instead of 1 |
| Practice.Answered | components/PracticeQuestions.tsx:92 | the answered questions are at most all questions |
| Practice.CorrectCount | components/PracticeQuestions.tsx:95 | the correctly answered questions are at most the answered ones |
| Practice.Score | components/PracticeQuestions.tsx:91-97 | 0 when nothing is answered; otherwise the rounded percentage of answered questions answered right, at most 100, 100 when all are right, and at least 70 exactly when at least 69.5% are right |
| Practice.AnsweredAppend | components/PracticeQuestions.tsx:92-95 | answered and correct counts add up over concatenation |
| Practice.ScoreIgnoresUnanswered | components/PracticeQuestions.tsx:92-96 | an unanswered question does not change the score |
| Practice.PassMessageIffSeventy | components/PracticeQuestions.tsx:169-171 | the congratulation is shown exactly for a score of 70 or more |
| Practice.ThreeAnsweredPassOnlyAllRight | components/PracticeQuestions.tsx:91-171 | with three answered questions only all three right passes |
| Practice.Select | components/PracticeQuestions.tsx:72-76 | the questions with the given id get the answer and the others are unchanged |
| Practice.Cleared | components/PracticeQuestions.tsx:87 | every answer is removed and nothing else changes |
| Practice.ClearedUnanswered | components/PracticeQuestions.tsx:85-97 | after a reset nothing is answered and the score is 0 |
| Practice.SelectThenClear | components/PracticeQuestions.tsx:72-87 | a reset undoes any selection |
| Practice.SelectReceived | components/PracticeQuestions.tsx:50-76 | selecting a received question by its id answers exactly that question |
| Practice.PanelRequestAccepted | components/PracticeQuestions.tsx:29-41 | the panel's request is accepted by the route for a module with id and title, and asks for five questions |
| Practice.PracticePanel.constructor | components/PracticeQuestions.tsx:18-21 | the panel starts with no questions, not loading, no results and no error |
| Practice.PracticePanel.GenerateQuestions | components/PracticeQuestions.tsx:24-66 | sends the panel's request; a delivered question array is received with ids by position and no error; anything else shows the error and the sample questions; loading ends |
| Practice.PracticePanel.SelectAnswer | components/PracticeQuestions.tsx:69-77 | after submission answers are frozen; before it the selected question gets the answer |
| Practice.PracticePanel.Submit | components/PracticeQuestions.tsx:80-82 | results are shown and the questions are unchanged |
| Practice.PracticePanel.Reset | components/PracticeQuestions.tsx:85-88 | results are hidden and every answer cleared |
| Practice.PracticePanel.Banner | components/PracticeQuestions.tsx:141-173 | the score banner is shown exactly with the results on a panel that lists questions; it shows `Score(questions)` and its message, the pass message exactly when the score is at least 70 |

## Left out

- Prompt wording beyond the identifying lines of each prompt, and the console logging.
- The model calls, `JSON.parse`, `fetch` and `localStorage`: they are parameters. Only how each answer is used is modelled.
- Fields the code copies through untouched (`...module`, `...q`) beyond the modelled record fields. Questions are received unanswered.
- `ToLower` folds ASCII letters only; JavaScript's full Unicode case mapping is not modelled.
- `Math.round` on floating point is computed exactly on rationals (`Base.Percent`, `StudyProgress.Tenths`). Float rounding error at exact halves is not modelled.
- `parseInt` is unbounded: precision loss past 2^53 is not modelled.
- `Countdown.UrgencyOf` compares exact reals where the source uses floating point.
- ModuleResources.LetterInjective: `String.fromCharCode` is modelled only below the surrogate range, where it is injective.
- The optional `s` after each unit in the duration patterns never decides whether a match exists, and is left out.
- A keyword field that is truthy but not an array is carried through as the source does (`NonArray`); what the UI then does with it is not modelled.
- The routes pages/api/upload-document.ts, generate-summary.ts, generate-quiz.ts and generate-plan.ts are not part of this model: their answers are parameters (the summary and quiz outcomes). pages/index.tsx, components/ChatWindow.tsx, DocumentMode.tsx and ModuleList.tsx are not part of this model.
- `generateLearningPlan`'s prompt and its use by generate-plan.ts: only its parse and normalisation are modelled (`Gemini.LearningPlanOf`).
- Races between overlapping requests, unmounting, and React's batching of state updates. Each handler is one atomic method.
- The countdown's effects and interval: re-running the effect is the explicit call `Arm`, and one interval tick is `Fire`. Cleaning up the interval on every state change is modelled as `Fire` and `TogglePause` dropping the pending tick. `onTimeUp` is signalled by `Fire`'s result.
- Countdown.CountdownTimer.Reset: the source removes the stored end and then stores a new one; only the final stored value is modelled.
- A module without a title: the model reads the missing title as the empty string, so its default keywords are `["", " exam questions", …]` (`Gemini.ExamKeywords`) and `["", "learn ", …]` (`Domain.LearnKeywords`). The source interpolates the raw field and produces `undefined` and `"undefined exam questions"` (lib/gemini.ts:94-97) or `"learn undefined"` (lib/gemini.ts:188-191).
- FetchModuleResources.FetchResources: the model's selections are read as typed records whose `videoId`, `url`, `title` and `aiJustification` are present. A parsed pick that lacks one gives a resource without it in the source, and then `WellTyped` does not hold. The message of the runtime's `TypeError` is an input (`World.errorMessage`).
- FullPlan.GenerateFullPlan: a 500 arises only for a model error, a parse failure or a missing module list. The error messages of JavaScript `TypeError`s are modelled as fixed strings.
- GoalInput.GoalForm.SubmitKnowledge: does not model the three chat messages the handler posts (the learner's request, the waiting notice, and the success or error reply). Nor does it model the 500 ms timer that clears the generation flag a second time.
- Domain.Priority: holds only the three known priorities. The source keeps any truthy `priority` string a reply carries (lib/gemini.ts:90, components/GoalInput.tsx:164). An unknown one makes the `PRIORITY_STYLES` lookup in components/ModuleItem.tsx:132-133 give `undefined`, and reading `priorityStyle.bg` (line 156) then throws while rendering. The model cannot express such a priority.
- Each `Date.now()` call is one timestamp `now` per operation. The source reads the clock once per module without an id (lib/gemini.ts:87, lib/gemini.ts:180, components/GoalInput.tsx:124-162, pages/api/generate-full-plan.ts:44). Default ids within one plan therefore share a timestamp in `Gemini.NormalizeLearningModules`, `Gemini.RepairExamModules`, `FullPlan.ValidateModules`, `GoalInput.ProcessModules` and `GoalInput.FallbackPlan`.
- ModuleItem.ModuleItemView: an entry finds its module as the first one in the plan with its id. Two modules that share an id are two React entries under one key in the source, and that case is not modelled. A click on an entry whose module has left the plan cannot happen, because such an entry is not rendered (`Rendered`).
- File upload in the goal form (`handleFileUpload`) only sets display flags, and is not modelled.
- JSX rendering: the panels' views are modelled only where they decide something (`ModuleResources.ViewOf`, `Practice.PracticePanel.Banner`, `ModuleItem.DisplayedPriority`, `ModuleResources.LabelCheckedIffDisabled`).

=== FILE: base.dfy ===
/** Values shared by every part of the model: optional values, the shapes a
    JSON field can take when a generative model produced it, handler replies,
    and the string and number operations that the TypeScript code gets from
    its runtime (template interpolation of numbers, `includes`, `indexOf`,
    `toLowerCase`, `trim`, `parseInt`, `Math.round`, `join`). */
module Base {

  datatype Option<T> = None | Some(value: T)

  /** A list-valued JSON field: absent (or falsy), an array, or some other
      truthy value that is not an array. */
  datatype JsonList<T> = Missing | Items(items: seq<T>) | NonArray

  /** What an API route answers: status 200 with a body, or an error status
      with the `error` message of the JSON body. */
  datatype Http<T> = Ok(body: T) | Fail(code: nat, message: string)

  /** The outcome of a step that may throw: a value, or the message of the
      error it throws. */
  datatype Result<T> = Success(value: T) | Failure(error: string)

  /** JavaScript's `s || d` on a string: the empty string counts as absent. */
  function Or(s: string, d: string): string
  {
    if s != "" then s else d
  }

  /** `keywords[i]` interpolated into a template literal: past the end of the
      array JavaScript reads `undefined` and prints it as such. */
  function KeywordAt(keywords: seq<string>, i: nat): (r: string)
    ensures i < |keywords| ==> r == keywords[i]
    ensures i >= |keywords| ==> r == "undefined"
  {
    if i < |keywords| then keywords[i] else "undefined"
  }

  // ---------------------------------------------------------------------
  // Searching in strings

  ghost predicate OccursAt(s: string, sub: string, k: nat)
  {
    k + |sub| <= |s| && s[k..k + |sub|] == sub
  }

  /** `s.indexOf(sub, from)`: the first position at or after `from` where
      `sub` occurs. */
  function IndexOf(s: string, sub: string, from: nat): (r: Option<nat>)
    decreases |s| - from
    ensures r.Some? ==> from <= r.value && OccursAt(s, sub, r.value)
    ensures forall k :: from <= k && (r.None? || k < r.value) ==> !OccursAt(s, sub, k)
  {
    if from + |sub| > |s| then None
    else if s[from..from + |sub|] == sub then Some(from)
    else IndexOf(s, sub, from + 1)
  }

  /** The first occurrence from `from` on is at `p` when `sub` occurs at `p`
      and nowhere between. */
  lemma {:induction false} IndexOfIs(s: string, sub: string, from: nat, p: nat)
    requires from <= p && OccursAt(s, sub, p)
    requires forall k :: from <= k < p ==> !OccursAt(s, sub, k)
    ensures IndexOf(s, sub, from) == Some(p)
    decreases p - from
  {
    if from < p {
      assert !OccursAt(s, sub, from);
      IndexOfIs(s, sub, from + 1, p);
    }
  }

  /** `s.includes(sub)`. */
  predicate Contains(s: string, sub: string)
  {
    IndexOf(s, sub, 0).Some?
  }

  lemma ContainsIff(s: string, sub: string)
    ensures Contains(s, sub) <==> exists k :: OccursAt(s, sub, k)
  {
    if !Contains(s, sub) {
      forall k ensures !OccursAt(s, sub, k) {
        assert 0 <= k;
      }
    }
  }

  lemma OccursAtContains(s: string, sub: string, k: nat)
    requires OccursAt(s, sub, k)
    ensures Contains(s, sub)
  {
    ContainsIff(s, sub);
  }

  /** A string cannot contain a word whose first letter it never uses. */
  lemma {:induction false} NotContainsFirstCharAbsent(s: string, sub: string)
    requires |sub| > 0
    requires forall i :: 0 <= i < |s| ==> s[i] != sub[0]
    ensures !Contains(s, sub)
  {
    ContainsIff(s, sub);
    forall k: nat ensures !OccursAt(s, sub, k) {
      if k + |sub| <= |s| {
        assert s[k..k + |sub|][0] == s[k] != sub[0];
      }
    }
  }

  /** The last position of `c` in `s`. */
  function LastIndexOfChar(s: string, c: char): (r: Option<nat>)
    ensures r.Some? ==> r.value < |s| && s[r.value] == c
    ensures forall k :: 0 <= k < |s| && (r.None? || r.value < k) ==> s[k] != c
  {
    if |s| == 0 then None
    else if s[|s| - 1] == c then Some(|s| - 1)
    else LastIndexOfChar(s[..|s| - 1], c)
  }

  /** A string containing a word contains every prefix of the word. */
  lemma {:induction false} ContainsPrefixOfWord(s: string, word: string, pre: string)
    requires pre <= word && Contains(s, word)
    ensures Contains(s, pre)
  {
    var k := IndexOf(s, word, 0).value;
    assert s[k..k + |pre|] == word[..|pre|] == pre;
    OccursAtContains(s, pre, k);
  }

  /** A prefix is contained. */
  lemma PrefixContained(s: string, sub: string)
    requires sub <= s
    ensures Contains(s, sub)
  {
    assert s[0..|sub|] == sub;
    OccursAtContains(s, sub, 0);
  }

  /** Containment survives appending text on either side. */
  lemma {:induction false} ContainsInside(pre: string, mid: string, post: string, sub: string)
    requires Contains(mid, sub)
    ensures Contains(pre + mid + post, sub)
  {
    var k := IndexOf(mid, sub, 0).value;
    var s := pre + mid + post;
    assert s[|pre| + k..|pre| + k + |sub|] == mid[k..k + |sub|];
    OccursAtContains(s, sub, |pre| + k);
  }

  // ---------------------------------------------------------------------
  // Characters

  predicate IsDigit(c: char)
  {
    '0' <= c <= '9'
  }

  predicate AllDigits(s: string)
  {
    forall i :: 0 <= i < |s| ==> IsDigit(s[i])
  }

  /** The characters matched by `\s` in a JavaScript regular expression and
      removed by `String.prototype.trim`. */
  predicate IsSpace(c: char)
  {
    c == ' ' || c == '\t' || c == '\n' || c == '\r' || c == '\U{000B}' || c == '\U{000C}'
    || c == '\U{00A0}' || c == '\U{1680}' || ('\U{2000}' <= c <= '\U{200A}')
    || c == '\U{2028}' || c == '\U{2029}' || c == '\U{202F}' || c == '\U{205F}'
    || c == '\U{3000}' || c == '\U{FEFF}'
  }

  /** `s.trim()` is empty. */
  predicate IsBlank(s: string)
  {
    forall i :: 0 <= i < |s| ==> IsSpace(s[i])
  }

  function LowerChar(c: char): char
  {
    if 'A' <= c <= 'Z' then (c as int + 32) as char else c
  }

  /** `s.toLowerCase()` on the ASCII letters. */
  function ToLower(s: string): (r: string)
    ensures |r| == |s|
    ensures forall i :: 0 <= i < |s| ==> r[i] == LowerChar(s[i])
  {
    seq(|s|, i requires 0 <= i < |s| => LowerChar(s[i]))
  }

  lemma ToLowerIdempotent(s: string)
    ensures ToLower(ToLower(s)) == ToLower(s)
  {
  }

  // ---------------------------------------------------------------------
  // Decimal numbers

  function DigitChar(d: nat): (c: char)
    requires d < 10
    ensures IsDigit(c)
  {
    ('0' as int + d) as char
  }

  function DigitValue(c: char): nat
    requires IsDigit(c)
  {
    c as int - '0' as int
  }

  /** A number interpolated into a template literal: its decimal digits. */
  function NatToString(n: nat): (s: string)
    ensures |s| > 0 && AllDigits(s)
  {
    if n < 10 then [DigitChar(n)] else NatToString(n / 10) + [DigitChar(n % 10)]
  }

  /** `parseInt` of a run of decimal digits. */
  function DigitsValue(s: string): nat
    requires AllDigits(s)
  {
    if s == [] then 0 else DigitsValue(s[..|s| - 1]) * 10 + DigitValue(s[|s| - 1])
  }

  /** Reading back a printed number gives the number. */
  lemma {:induction false} DigitsValueOfNatToString(n: nat)
    ensures DigitsValue(NatToString(n)) == n
  {
    var s := NatToString(n);
    if n >= 10 {
      DigitsValueOfNatToString(n / 10);
      assert s[..|s| - 1] == NatToString(n / 10);
    }
  }

  /** Different numbers print differently. */
  lemma NatToStringInjective(m: nat, n: nat)
    requires NatToString(m) == NatToString(n)
    ensures m == n
  {
    DigitsValueOfNatToString(m);
    DigitsValueOfNatToString(n);
  }

  /** A printed number followed by a non-digit can be read back: the number
      and the text after it are determined. */
  lemma {:induction false} NumberPrefixInjective(m: nat, s1: string, n: nat, s2: string)
    requires NatToString(m) + s1 == NatToString(n) + s2
    requires |s1| > 0 && !IsDigit(s1[0]) && |s2| > 0 && !IsDigit(s2[0])
    ensures m == n && s1 == s2
  {
    var a, b := NatToString(m), NatToString(n);
    var x := a + s1;
    assert x[|a|] == s1[0] && x[|b|] == s2[0];
    assert forall k :: 0 <= k < |a| ==> x[k] == a[k] && IsDigit(x[k]);
    assert forall k :: 0 <= k < |b| ==> x[k] == b[k] && IsDigit(x[k]);
    assert |a| == |b|;
    assert a == x[..|a|] == b;
    NatToStringInjective(m, n);
    assert s1 == x[|a|..] == s2;
  }

  /** The same holds after a common prefix. */
  lemma PrefixedNumberInjective(pre: string, m: nat, s1: string, n: nat, s2: string)
    requires pre + NatToString(m) + s1 == pre + NatToString(n) + s2
    requires |s1| > 0 && !IsDigit(s1[0]) && |s2| > 0 && !IsDigit(s2[0])
    ensures m == n && s1 == s2
  {
    assert (pre + NatToString(m) + s1)[|pre|..] == NatToString(m) + s1;
    assert (pre + NatToString(n) + s2)[|pre|..] == NatToString(n) + s2;
    NumberPrefixInjective(m, s1, n, s2);
  }

  /** Multiplying by a positive number keeps `<=` both ways. */
  lemma MulCancel(a: int, b: int, w: int)
    requires w > 0 && a * w <= b * w
    ensures a <= b
  {
    assert (b - a) * w == b * w - a * w;
  }

  /** The division behind `Percent`: `n == d * q + m` with `0 <= m < d`,
      turned into the bounds on `2 * q * whole`. */
  lemma PercentDivision(part: nat, whole: nat)
    requires whole > 0
    ensures var r := (200 * part + whole) / (2 * whole);
      (2 * r - 1) * whole <= 200 * part < (2 * r + 1) * whole
  {
    var n, d := 200 * part + whole, 2 * whole;
    var r, m := n / d, n % d;
    assert n == d * r + m && 0 <= m < d;
    assert d * r == 2 * r * whole;
    assert (2 * r - 1) * whole == 2 * r * whole - whole;
    assert (2 * r + 1) * whole == 2 * r * whole + whole;
  }

  /** The rounded percentage stays within 0..100 for a part of the whole,
      and the extreme parts give exactly 0 and 100. */
  lemma PercentRange(part: nat, whole: nat, r: int)
    requires whole > 0 && (2 * r - 1) * whole <= 200 * part < (2 * r + 1) * whole
    ensures part <= whole ==> r <= 100
    ensures part == whole ==> r == 100
    ensures part == 0 ==> r == 0
  {
    if part <= whole {
      assert (2 * r - 1) * whole <= 200 * whole;
      MulCancel(2 * r - 1, 200, whole);
    }
    if part == whole {
      assert 199 * whole < (2 * r + 1) * whole;
      MulCancel(200, 2 * r + 1, whole);
    }
    if part == 0 {
      assert (2 * r - 1) * whole <= 0 * whole;
      MulCancel(2 * r - 1, 0, whole);
    }
  }

  /** `Math.round(100 * part / whole)` for `whole > 0`, computed exactly:
      the integer nearest to the percentage, halves rounded up. */
  function Percent(part: nat, whole: nat): (r: nat)
    requires whole > 0
    ensures (2 * r - 1) * whole <= 200 * part < (2 * r + 1) * whole
    ensures part <= whole ==> r <= 100
    ensures part == whole ==> r == 100
    ensures part == 0 ==> r == 0
  {
    var r := (200 * part + whole) / (2 * whole);
    PercentDivision(part, whole);
    PercentRange(part, whole, r);
    r
  }

  /** `parts.join(sep)`. */
  function Join(parts: seq<string>, sep: string): string
  {
    if |parts| == 0 then ""
    else if |parts| == 1 then parts[0]
    else parts[0] + sep + Join(parts[1..], sep)
  }
}

=== FILE: chat_tutor.dfy ===
/** The route pages/api/chat-tutor.ts: a message that asks for videos while
    a module is active is answered with up to three video links found by the
    fetch-module-resources route; everything else goes to the tutor model
    with the system prompt and history of lib/gemini.ts. The answers of the
    resource route and of the tutor model are inputs. */
module ChatTutor {
  import opened Base
  import opened Domain
  import Gemini
  import FetchModuleResources

  // ---------------------------------------------------------------------
  // Recognising a request for videos

  const VideoWords := ["youtube", "video", "videos", "watch"]
  const AskPhrases := ["show me", "give me", "can you", "i want", "get"]

  /** `text` contains one of `words`. */
  predicate ContainsAny(text: string, words: seq<string>)
  {
    exists i :: 0 <= i < |words| && Contains(text, words[i])
  }

  /** `isRequestingVideos`: the lower-cased message names videos and asks
      for something. */
  predicate IsRequestingVideos(message: string)
  {
    var lower := ToLower(message);
    ContainsAny(lower, VideoWords) && ContainsAny(lower, AskPhrases)
  }

  /** Case does not matter. */
  lemma RequestingVideosIgnoresCase(message: string)
    ensures IsRequestingVideos(ToLower(message)) == IsRequestingVideos(message)
  {
    ToLowerIdempotent(message);
  }

  /** "videos" adds nothing to the word list: any message containing it
      also contains "video". */
  lemma {:induction false} VideosWordRedundant(text: string)
    ensures ContainsAny(text, VideoWords) <==> ContainsAny(text, ["youtube", "video", "watch"])
  {
    var short := ["youtube", "video", "watch"];
    if ContainsAny(text, VideoWords) {
      var i :| 0 <= i < 4 && Contains(text, VideoWords[i]);
      if i == 2 {
        ContainsPrefixOfWord(text, "videos", "video");
        assert Contains(text, short[1]);
      } else {
        assert Contains(text, short[if i == 3 then 2 else i]);
      }
    }
    if ContainsAny(text, short) {
      var i :| 0 <= i < 3 && Contains(text, short[i]);
      assert Contains(text, VideoWords[if i == 2 then 3 else i]);
    }
  }

  // ---------------------------------------------------------------------
  // Asking for videos

  /** The search keywords for a topic. */
  function VideoKeywords(topic: string): (r: seq<string>)
    ensures |r| == 4 && r[0] == topic
  {
    [topic, topic + " tutorial", "learn " + topic, topic + " for beginners"]
  }

  /** They are the module-title keywords in another order. */
  lemma VideoKeywordsSameAsLearnKeywords(topic: string)
    ensures multiset(VideoKeywords(topic)) == multiset(LearnKeywords(topic))
  {
  }

  /** The request sent to the resource route. */
  function VideoRequest(topic: string): FetchModuleResources.ResourceRequest
  {
    FetchModuleResources.ResourceRequest("POST", "video-request", topic, "Learning about " + topic, Some(VideoKeywords(topic)))
  }

  /** The resource route accepts it exactly when the topic is not empty. */
  lemma VideoRequestAccepted(topic: string)
    ensures FetchModuleResources.HasRequiredFields(VideoRequest(topic)) <==> topic != ""
  {
  }

  /** The videos of a list, in order: each video as often as the list has
      it, and nothing else. The order is `VideosOfAppend`. */
  function VideosOf(rs: seq<Resource>): (r: seq<Resource>)
    ensures |r| <= |rs|
    ensures forall x :: multiset(r)[x] == if x.kind == YouTube then multiset(rs)[x] else 0
    ensures (forall i :: 0 <= i < |rs| ==> rs[i].kind == YouTube) ==> r == rs
  {
    if |rs| == 0 then []
    else
      assert rs == [rs[0]] + rs[1..];
      if rs[0].kind == YouTube then [rs[0]] + VideosOf(rs[1..])
      else VideosOf(rs[1..])
  }

  /** Filtering a concatenation filters each part and keeps them in order;
      with `VideosOfOne` this fixes the result entry by entry. */
  lemma {:induction false} VideosOfAppend(a: seq<Resource>, b: seq<Resource>)
    ensures VideosOf(a + b) == VideosOf(a) + VideosOf(b)
  {
    if |a| > 0 {
      assert (a + b)[0] == a[0];
      assert (a + b)[1..] == a[1..] + b;
      VideosOfAppend(a[1..], b);
    } else {
      assert a + b == b;
    }
  }

  /** One entry is kept exactly when it is a video. */
  lemma VideosOfOne(x: Resource)
    ensures VideosOf([x]) == if x.kind == YouTube then [x] else []
  {
    assert [x][1..] == [];
  }

  /** `fetchYouTubeVideos`: the first three videos of the route's answer;
      none when the call fails or is not ok. */
  function FetchYouTubeVideos(reply: Option<Http<seq<Resource>>>): (r: seq<Resource>)
    ensures |r| <= 3
    ensures forall x :: x in r ==> x.kind == YouTube
    ensures reply.Some? && reply.value.Ok? ==> r <= VideosOf(reply.value.body)
    ensures reply.Some? && reply.value.Ok? && |VideosOf(reply.value.body)| >= 3 ==> |r| == 3
    ensures reply.Some? && reply.value.Ok? && |VideosOf(reply.value.body)| < 3 ==> r == VideosOf(reply.value.body)
    ensures reply.None? || reply.value.Fail? ==> r == []
  {
    match reply
    case None => []
    case Some(Fail(_, _)) => []
    case Some(Ok(rs)) => FetchModuleResources.Take(VideosOf(rs), 3)
  }

  /** What a missing field reads as inside a template. */
  function Shown(s: Option<string>): string
  {
    if s.Some? then s.value else "undefined"
  }

  /** The markdown link for a video, after its number. */
  function LinkBody(v: Resource): (r: string)
    ensures |r| > 0 && r[0] == '.'
  {
    ". [" + v.title + "](https://www.youtube.com/watch?v=" + Shown(v.videoId) + ") - " + v.aiJustification
  }

  /** The numbered markdown link for the video at `index`. */
  function LinkLine(index: nat, v: Resource): string
  {
    NatToString(index + 1) + LinkBody(v)
  }

  function LinkLines(videos: seq<Resource>): (r: seq<string>)
    ensures |r| == |videos|
    ensures forall i :: 0 <= i < |videos| ==> r[i] == LinkLine(i, videos[i])
  {
    seq(|videos|, i requires 0 <= i < |videos| => LinkLine(i, videos[i]))
  }

  /** Each link carries its own number: the lines for two different
      positions never coincide. */
  lemma {:induction false} LinkNumbersDistinct(videos: seq<Resource>, i: nat, j: nat)
    requires i < |videos| && j < |videos| && LinkLines(videos)[i] == LinkLines(videos)[j]
    ensures i == j
  {
    NumberPrefixInjective(i + 1, LinkBody(videos[i]), j + 1, LinkBody(videos[j]));
  }

  /** The reply listing the videos found for a module. */
  function VideoAnswer(title: string, videos: seq<Resource>): string
  {
    "Here are some YouTube videos about " + title + " that might help you:\n\n" + Join(LinkLines(videos), "\n\n")
    + "\n\nYou can click on any of these links to watch the videos. Let me know if you have questions about the content!"
  }

  // ---------------------------------------------------------------------
  // The route

  datatype TutorRequest = TutorRequest(
    httpMethod: string,
    message: string,
    chatHistory: Option<seq<Gemini.HistoryEntry>>,
    activeModule: Option<Module>,
    isDocumentMode: bool,
    documentContent: string,
    activeResource: Option<Gemini.ResourceInfo>)

  /** What the tutor model is started with. */
  datatype TutorCall = TutorCall(message: string, history: seq<Gemini.Turn>, prompt: Gemini.SystemPrompt)

  function HistoryOrEmpty(h: Option<seq<Gemini.HistoryEntry>>): seq<Gemini.HistoryEntry>
  {
    if h.Some? then h.value else []
  }

  /** The video branch is taken for a video request while a module is
      active, and answers only when at least one video came back. */
  predicate AnswersWithVideos(req: TutorRequest, videoReply: Option<Http<seq<Resource>>>)
  {
    IsRequestingVideos(req.message) && req.activeModule.Some? && |FetchYouTubeVideos(videoReply)| > 0
  }

  /** The tutor call made for a request: the message as sent, the prompt
      chosen by precedence, and the history with the system prompt first
      when it is not there yet. */
  function TutorCallFor(req: TutorRequest): TutorCall
  {
    var prompt := Gemini.SelectPrompt(req.isDocumentMode, req.documentContent, req.activeModule, req.activeResource);
    var history := HistoryOrEmpty(req.chatHistory);
    var turns := Gemini.MapHistory(history);
    var formatted := if Gemini.NeedsSystemPrompt(history) then [Gemini.Turn(Gemini.ModelTurn, Gemini.PromptText(prompt))] + turns else turns;
    TutorCall(req.message, formatted, prompt)
  }

  /** The handler. `videoReply` is what the resource route answers to
      `VideoRequest(activeModule.title)`; `tutorReply` is the tutor model's
      answer, or the message of the error it throws. `call` is the tutor
      call made, if any. */
  method ChatTutorRoute(req: TutorRequest, videoReply: Option<Http<seq<Resource>>>, tutorReply: Result<string>)
    returns (r: Http<string>, call: Option<TutorCall>)
    ensures req.httpMethod != "POST" ==> r == Fail(405, "Method not allowed") && call.None?
    ensures req.httpMethod == "POST" && AnswersWithVideos(req, videoReply) ==>
      r == Ok(VideoAnswer(req.activeModule.value.title, FetchYouTubeVideos(videoReply))) && call.None?
    ensures req.httpMethod == "POST" && !AnswersWithVideos(req, videoReply) ==>
      && call == Some(TutorCallFor(req))
      && (tutorReply.Success? ==> r == Ok(tutorReply.value))
      && (tutorReply.Failure? ==> r == Fail(500, Or(tutorReply.error, "Failed to get tutor response")))
  {
    if req.httpMethod != "POST" {
      return Fail(405, "Method not allowed"), None;
    }
    if AnswersWithVideos(req, videoReply) {
      return Ok(VideoAnswer(req.activeModule.value.title, FetchYouTubeVideos(videoReply))), None;
    }
    r, call := AskTutor(req, tutorReply);
  }

  /** The tutor branch of the handler: the model is started with the
      selected prompt and formatted history, and its failure becomes a 500. */
  method AskTutor(req: TutorRequest, tutorReply: Result<string>) returns (r: Http<string>, call: Option<TutorCall>)
    ensures call == Some(TutorCallFor(req))
    ensures tutorReply.Success? ==> r == Ok(tutorReply.value)
    ensures tutorReply.Failure? ==> r == Fail(500, Or(tutorReply.error, "Failed to get tutor response"))
  {
    var history := HistoryOrEmpty(req.chatHistory);
    var prompt := Gemini.SelectPrompt(req.isDocumentMode, req.documentContent, req.activeModule, req.activeResource);
    var formatted := Gemini.FormatHistory(history, Gemini.PromptText(prompt));
    call := Some(TutorCall(req.message, formatted, prompt));
    match tutorReply {
      case Success(text) => r := Ok(text);
      case Failure(e) => r := Fail(500, Or(e, "Failed to get tutor response"));
    }
  }
}

=== FILE: context.dfy ===
/** The session state holder of lib/context.tsx: one chat history per module,
    a legacy flat chat list, the active module, the plan and the resource
    list of the active module. The transitions are functions on a
    `SessionState` value, proved about in lemmas; the class `Session` holds
    the same fields and its methods are tied to those functions. */
module AppContext {
  import opened Base
  import opened Domain

  datatype SessionState = SessionState(
    userGoal: string,
    userKnowledge: string,
    plan: Option<LearningPlan>,
    histories: map<string, seq<ChatMessage>>,
    legacy: seq<ChatMessage>,
    activeModule: Option<Module>,
    resources: seq<Resource>,
    loadingResources: bool,
    activeResource: Option<Resource>,
    generatingPlan: bool)

  /** The state before anything happened. */
  const Initial := SessionState("", "", None, map[], [], None, [], false, None, false)

  // ---------------------------------------------------------------------
  // Chat histories

  /** The key under which messages are filed: the active module's id, when a
      module is active and its id is not empty. */
  function ActiveKey(st: SessionState): Option<string>
  {
    if st.activeModule.Some? && st.activeModule.value.id != "" then Some(st.activeModule.value.id) else None
  }

  function HistoryOf(histories: map<string, seq<ChatMessage>>, key: string): seq<ChatMessage>
  {
    if key in histories then histories[key] else []
  }

  /** `currentChatMessages`: the active module's history, or nothing. */
  function CurrentChatMessages(st: SessionState): (r: seq<ChatMessage>)
    ensures ActiveKey(st).None? ==> r == []
    ensures ActiveKey(st).Some? ==> r == HistoryOf(st.histories, ActiveKey(st).value)
  {
    match ActiveKey(st)
    case None => []
    case Some(key) => if key in st.histories then st.histories[key] else []
  }

  /** The id `addChatMessage` gives a message: its creation time in
      milliseconds, a dash, and a random suffix. */
  function MessageId(timestamp: nat, suffix: string): string
  {
    NatToString(timestamp) + "-" + suffix
  }

  /** The message `addChatMessage` creates; the clock reading and the random
      suffix are parameters. */
  function NewMessage(role: Role, content: string, timestamp: nat, suffix: string): ChatMessage
  {
    ChatMessage(MessageId(timestamp, suffix), role, content, timestamp)
  }

  /** Two messages get the same id only when both their creation times and
      their suffixes agree, so messages created in the same millisecond are
      told apart by the suffix. */
  lemma {:induction false} MessageIdInjective(t1: nat, s1: string, t2: nat, s2: string)
    requires MessageId(t1, s1) == MessageId(t2, s2)
    ensures t1 == t2 && s1 == s2
  {
    assert MessageId(t1, s1) == NatToString(t1) + ("-" + s1);
    assert MessageId(t2, s2) == NatToString(t2) + ("-" + s2);
    NumberPrefixInjective(t1, "-" + s1, t2, "-" + s2);
    assert s1 == ("-" + s1)[1..];
  }

  /** `addChatMessage`: file the message under the active module, and always
      append it to the legacy list. */
  function AppendMessage(st: SessionState, m: ChatMessage): SessionState
  {
    var histories :=
      match ActiveKey(st)
      case None => st.histories
      case Some(key) => st.histories[key := HistoryOf(st.histories, key) + [m]];
    st.(histories := histories, legacy := st.legacy + [m])
  }

  /** With a module active, the message lands at the end of that module's
      history and every other module's history is kept as it was. */
  lemma AppendMessageFilesUnderActive(st: SessionState, m: ChatMessage)
    requires ActiveKey(st).Some?
    ensures var st' := AppendMessage(st, m);
      && CurrentChatMessages(st') == CurrentChatMessages(st) + [m]
      && st'.histories.Keys == st.histories.Keys + {ActiveKey(st).value}
      && (forall k :: k in st.histories && k != ActiveKey(st).value ==> st'.histories[k] == st.histories[k])
      && st'.legacy == st.legacy + [m]
  {
  }

  /** Without an active module (or with one whose id is empty) no module
      history changes, but the legacy list still grows. */
  lemma AppendMessageWithoutActive(st: SessionState, m: ChatMessage)
    requires ActiveKey(st).None?
    ensures AppendMessage(st, m).histories == st.histories
    ensures AppendMessage(st, m).legacy == st.legacy + [m]
    ensures CurrentChatMessages(AppendMessage(st, m)) == []
  {
  }

  /** `clearCurrentChatMessages`: empty the active module's history only. */
  function ClearCurrent(st: SessionState): (r: SessionState)
    ensures ActiveKey(st).None? ==> r == st
    ensures ActiveKey(st).Some? ==>
      r == st.(histories := st.histories[ActiveKey(st).value := []])
    ensures CurrentChatMessages(r) == []
    ensures r.legacy == st.legacy
  {
    match ActiveKey(st)
    case None => st
    case Some(key) => st.(histories := st.histories[key := []])
  }

  /** `clearChatMessages`: empty the legacy list, keep the module histories. */
  function ClearLegacy(st: SessionState): (r: SessionState)
    ensures r.legacy == [] && r.histories == st.histories
    ensures CurrentChatMessages(r) == CurrentChatMessages(st)
  {
    st.(legacy := [])
  }

  // ---------------------------------------------------------------------
  // Module status

  /** The modules with `status` set on those whose id is `id`. */
  function SetStatus(ms: seq<Module>, id: string, status: Status): (r: seq<Module>)
    ensures |r| == |ms|
    ensures forall i :: 0 <= i < |ms| ==> r[i].status == (if ms[i].id == id then status else ms[i].status)
    ensures forall i :: 0 <= i < |ms| ==> r[i].(status := ms[i].status) == ms[i]
  {
    seq(|ms|, i requires 0 <= i < |ms| => if ms[i].id == id then ms[i].(status := status) else ms[i])
  }

  /** `modules.find(m => m.id === id)`. */
  function FindById(ms: seq<Module>, id: string): (r: Option<Module>)
    ensures r.Some? ==> r.value in ms && r.value.id == id
    ensures r.None? ==> forall i :: 0 <= i < |ms| ==> ms[i].id != id
  {
    if |ms| == 0 then None
    else if ms[0].id == id then Some(ms[0])
    else FindById(ms[1..], id)
  }

  /** `updateModuleStatus`: nothing without a plan; otherwise the plan's
      modules get the new status by id, and setting `active` also makes the
      updated module the active one. */
  function ApplyModuleStatus(st: SessionState, id: string, status: Status): SessionState
  {
    if st.plan.None? then st
    else
      var ms := SetStatus(st.plan.value.modules, id, status);
      var st' := st.(plan := Some(st.plan.value.(modules := ms)));
      if status == Active && FindById(ms, id).Some? then st'.(activeModule := FindById(ms, id)) else st'
  }

  lemma ApplyModuleStatusWithoutPlan(st: SessionState, id: string, status: Status)
    requires st.plan.None?
    ensures ApplyModuleStatus(st, id, status) == st
  {
  }

  /** The plan keeps its modules in number and order, only the status of
      modules with a matching id changes, and the chat state is untouched. */
  lemma ApplyModuleStatusKeepsPlan(st: SessionState, id: string, status: Status)
    requires st.plan.Some?
    ensures var st' := ApplyModuleStatus(st, id, status);
      var ms, ms' := st.plan.value.modules, st'.plan.value.modules;
      && st'.plan.Some?
      && st'.plan.value.planTitle == st.plan.value.planTitle
      && |ms'| == |ms|
      && (forall i :: 0 <= i < |ms| ==> ms'[i].status == (if ms[i].id == id then status else ms[i].status))
      && (forall i :: 0 <= i < |ms| ==> ms'[i].(status := ms[i].status) == ms[i])
      && st'.histories == st.histories && st'.legacy == st.legacy
  {
  }

  /** Setting a present module `active` makes it the active module, with its
      new status; other statuses never touch the active module. */
  lemma {:induction false} ApplyModuleStatusActivates(st: SessionState, id: string, status: Status, j: nat)
    requires st.plan.Some? && j < |st.plan.value.modules| && st.plan.value.modules[j].id == id
    ensures var st' := ApplyModuleStatus(st, id, status);
      status == Active ==>
        && st'.activeModule.Some?
        && st'.activeModule.value.id == id
        && st'.activeModule.value.status == Active
        && st'.activeModule.value in st'.plan.value.modules
    ensures status != Active ==> ApplyModuleStatus(st, id, status).activeModule == st.activeModule
  {
    var ms := SetStatus(st.plan.value.modules, id, status);
    assert ms[j].id == id;
    var found := FindById(ms, id);
    assert found.Some?;
    var k :| 0 <= k < |ms| && ms[k] == found.value;
    assert ms[k].status == status;
  }

  // ---------------------------------------------------------------------
  // The state holder

  class Session {
    var userGoal: string
    var userKnowledge: string
    var plan: Option<LearningPlan>
    var histories: map<string, seq<ChatMessage>>
    var legacy: seq<ChatMessage>
    var activeModule: Option<Module>
    var resources: seq<Resource>
    var loadingResources: bool
    var activeResource: Option<Resource>
    var generatingPlan: bool

    function State(): SessionState
      reads this
    {
      SessionState(userGoal, userKnowledge, plan, histories, legacy, activeModule,
                   resources, loadingResources, activeResource, generatingPlan)
    }

    constructor ()
      ensures State() == Initial
    {
      userGoal, userKnowledge, plan := "", "", None;
      histories, legacy, activeModule := map[], [], None;
      resources, loadingResources, activeResource := [], false, None;
      generatingPlan := false;
    }

    method SetUserGoal(goal: string)
      modifies this
      ensures State() == old(State()).(userGoal := goal)
    {
      userGoal := goal;
    }

    method SetUserKnowledge(knowledge: string)
      modifies this
      ensures State() == old(State()).(userKnowledge := knowledge)
    {
      userKnowledge := knowledge;
    }

    /** `setLearningPlan` stores a deep copy, which as a value is the plan. */
    method SetLearningPlan(p: LearningPlan)
      modifies this
      ensures State() == old(State()).(plan := Some(p))
    {
      plan := Some(p);
    }

    method SetActiveModule(m: Option<Module>)
      modifies this
      ensures State() == old(State()).(activeModule := m)
    {
      activeModule := m;
    }

    method SetModuleResources(rs: seq<Resource>)
      modifies this
      ensures State() == old(State()).(resources := rs)
    {
      resources := rs;
    }

    method SetLoadingResources(b: bool)
      modifies this
      ensures State() == old(State()).(loadingResources := b)
    {
      loadingResources := b;
    }

    method SetGeneratingPlan(b: bool)
      modifies this
      ensures State() == old(State()).(generatingPlan := b)
    {
      generatingPlan := b;
    }

    method SetActiveResource(r: Option<Resource>)
      modifies this
      ensures State() == old(State()).(activeResource := r)
    {
      activeResource := r;
    }

    /** `addChatMessage`; the clock reading and the random suffix are
        parameters. */
    method AddChatMessage(role: Role, content: string, timestamp: nat, suffix: string)
      modifies this
      ensures State() == AppendMessage(old(State()), NewMessage(role, content, timestamp, suffix))
    {
      var m := NewMessage(role, content, timestamp, suffix);
      if activeModule.Some? && activeModule.value.id != "" {
        var key := activeModule.value.id;
        var history := if key in histories then histories[key] else [];
        histories := histories[key := history + [m]];
      }
      legacy := legacy + [m];
    }

    method ClearCurrentChatMessages()
      modifies this
      ensures State() == ClearCurrent(old(State()))
    {
      if activeModule.Some? && activeModule.value.id != "" {
        histories := histories[activeModule.value.id := []];
      }
    }

    method ClearChatMessages()
      modifies this
      ensures State() == ClearLegacy(old(State()))
    {
      legacy := [];
    }

    method UpdateModuleStatus(id: string, status: Status)
      modifies this
      ensures State() == ApplyModuleStatus(old(State()), id, status)
    {
      if plan.None? {
        return;
      }
      var updated := SetStatus(plan.value.modules, id, status);
      plan := Some(plan.value.(modules := updated));
      if status == Active {
        var found := FindById(updated, id);
        if found.Some? {
          activeModule := found;
        }
      }
    }
  }
}

=== FILE: countdown.dfy ===
/** components/CountdownTimer.tsx: the exam countdown. The time limit the
    learner typed ("3 days", "12 hours") is read as a number of hours, shown
    as days, hours, minutes and seconds, and counted down against an end time
    kept in local storage. The clock (`Date.now()`) is a parameter, the
    one-second interval is an explicit `Fire` call, and the stored end time is
    a field. */
module Countdown {
  import opened Base
  import opened Patterns

  // ---------------------------------------------------------------------
  // Reading the time limit

  /** `parseInt(match[1], 10) * factor` for the pattern `(\d+)\s*<unit>s?`;
      without a match the default of 24 hours stays. */
  function CountTimes(unit: string, text: string, factor: nat): nat
  {
    match FirstMatch(Count(unit), text, 0)
    case Some(found) => assert found.amount.Single?; found.amount.n * factor
    case None => 24
  }

  /** The time limit in hours: a text that mentions hours is read with the
      hour pattern only, else one that mentions days with the day pattern,
      else one that mentions weeks with the week pattern; anything else, and
      any text the chosen pattern does not match, is 24 hours. The words are
      matched case-sensitively. */
  function LimitHours(timeConstraint: string): nat
  {
    if Contains(timeConstraint, "hour") then CountTimes("hour", timeConstraint, 1)
    else if Contains(timeConstraint, "day") then CountTimes("day", timeConstraint, 24)
    else if Contains(timeConstraint, "week") then CountTimes("week", timeConstraint, 24 * 7)
    else 24
  }

  /** The time limit in seconds. */
  function LimitSeconds(timeConstraint: string): nat
  {
    LimitHours(timeConstraint) * 3600
  }

  /** The end time stored when the time limit is (re)read at `now`: the
      limit in milliseconds from then. */
  function LimitEnd(timeConstraint: string, now: int): int
  {
    now + 1000 * LimitSeconds(timeConstraint)
  }

  /** A pattern that matches at the very start decides the count. */
  lemma CountTimesAtStart(unit: string, text: string, factor: nat, n: nat)
    requires FirstMatch(Count(unit), text, 0) == Some(Found(0, Single(n)))
    ensures CountTimes(unit, text, factor) == n * factor
  {
  }

  /** Neither `lit` nor `rest` uses `c`, so their concatenation does not. */
  lemma Avoids(lit: string, rest: string, c: char)
    requires forall i :: 0 <= i < |lit| ==> lit[i] != c
    requires forall i :: 0 <= i < |rest| ==> rest[i] != c
    ensures forall i :: 0 <= i < |lit + rest| ==> (lit + rest)[i] != c
  {
    forall i | 0 <= i < |lit + rest| ensures (lit + rest)[i] != c {
      if i >= |lit| {
        assert (lit + rest)[i] == rest[i - |lit|];
      }
    }
  }

  /** "<n> hour…" is n hours, whatever follows: the hour pattern wins even
      when days or weeks are also mentioned. */
  lemma {:induction false} HoursRead(n: nat, rest: string)
    ensures LimitHours(NatToString(n) + " hour" + rest) == n
  {
    var text := NatToString(n) + " hour" + rest;
    assert text == NatToString(n) + " " + "hour" + rest;
    PrefixContained("hour", "hour");
    ContainsInside(NatToString(n) + " ", "hour", rest, "hour");
    ReadCount(Count("hour"), n, rest);
    CountTimesAtStart("hour", text, 1, n);
  }

  /** "<n> day…" is n days when nothing after it spells an `h`. */
  lemma {:induction false} DaysRead(n: nat, rest: string)
    requires forall i :: 0 <= i < |rest| ==> rest[i] != 'h'
    ensures LimitHours(NatToString(n) + " day" + rest) == 24 * n
  {
    var text := NatToString(n) + " day" + rest;
    assert text == NatToString(n) + (" day" + rest);
    Avoids(" day", rest, 'h');
    WordAbsentAfterNumber(n, " day" + rest, "hour");
    assert text == NatToString(n) + " " + "day" + rest;
    PrefixContained("day", "day");
    ContainsInside(NatToString(n) + " ", "day", rest, "day");
    ReadCount(Count("day"), n, rest);
    CountTimesAtStart("day", text, 24, n);
  }

  /** "<n> week…" is n weeks when nothing after it spells an `h` or a
      `d`. */
  lemma {:induction false} WeeksRead(n: nat, rest: string)
    requires forall i :: 0 <= i < |rest| ==> rest[i] != 'h' && rest[i] != 'd'
    ensures LimitHours(NatToString(n) + " week" + rest) == 24 * 7 * n
  {
    var text := NatToString(n) + " week" + rest;
    assert text == NatToString(n) + (" week" + rest);
    Avoids(" week", rest, 'h');
    Avoids(" week", rest, 'd');
    WordAbsentAfterNumber(n, " week" + rest, "hour");
    WordAbsentAfterNumber(n, " week" + rest, "day");
    assert text == NatToString(n) + " " + "week" + rest;
    PrefixContained("week", "week");
    ContainsInside(NatToString(n) + " ", "week", rest, "week");
    ReadCount(Count("week"), n, rest);
    CountTimesAtStart("week", text, 24 * 7, n);
  }

  /** Capitalised units are not recognised: "<n> Days" falls back to 24
      hours. */
  lemma {:induction false} CapitalisedUnitIgnored(n: nat)
    ensures LimitHours(NatToString(n) + " Days") == 24
  {
    WordAbsentAfterNumber(n, " Days", "hour");
    WordAbsentAfterNumber(n, " Days", "day");
    WordAbsentAfterNumber(n, " Days", "week");
  }

  // ---------------------------------------------------------------------
  // Days, hours, minutes and seconds

  /** The figures on the timer's face. */
  datatype Clock = Clock(days: nat, hours: nat, minutes: nat, seconds: nat)

  const Zero := Clock(0, 0, 0, 0)

  /** The seconds a face stands for. */
  function TotalSeconds(c: Clock): nat
  {
    c.days * 86400 + c.hours * 3600 + c.minutes * 60 + c.seconds
  }

  /** Each figure below days is within its unit. */
  predicate Normal(c: Clock)
  {
    c.hours < 24 && c.minutes < 60 && c.seconds < 60
  }

  lemma MulAtLeast(k: int, m: int)
    requires k >= 1 && m > 0
    ensures k * m >= m
  {
    assert k * m == (k - 1) * m + m;
  }

  /** Quotient and remainder are the only ones that fit. */
  lemma DivModUnique(n: int, m: int, q: int, r: int)
    requires m > 0 && 0 <= r < m && n == q * m + r
    ensures n / m == q && n % m == r
  {
    var q0, r0 := n / m, n % m;
    assert n == q0 * m + r0;
    assert (q - q0) * m == r0 - r;
    if q > q0 {
      MulAtLeast(q - q0, m);
    } else if q < q0 {
      MulAtLeast(q0 - q, m);
    }
  }

  /** Dividing by 1000 and then by `m` is dividing by `1000 * m`, and what
      `1000 * m` leaves over, divided by 1000, is what `m` leaves over. */
  lemma DivThousand(n: nat, m: nat)
    requires m > 0
    ensures n / (1000 * m) == (n / 1000) / m
    ensures (n % (1000 * m)) / 1000 == (n / 1000) % m
  {
    var s, r := n / 1000, n % 1000;
    var q, p := s / m, s % m;
    assert n == q * (1000 * m) + (p * 1000 + r);
    DivModUnique(n, 1000 * m, q, p * 1000 + r);
    DivModUnique(p * 1000 + r, 1000, p, r);
  }

  /** The face for `t` seconds, as the time limit is first shown. */
  function Breakdown(t: nat): Clock
  {
    Clock(t / 86400, (t % 86400) / 3600, (t % 3600) / 60, t % 60)
  }

  lemma BreakdownNormal(t: nat)
    ensures Normal(Breakdown(t))
  {
  }

  /** The face for `t` seconds is within its units and stands for exactly
      `t` seconds. */
  lemma {:induction false} BreakdownSound(t: nat)
    ensures Normal(Breakdown(t)) && TotalSeconds(Breakdown(t)) == t
  {
    var d, a := t / 86400, t % 86400;
    var h, b := a / 3600, a % 3600;
    var m, s := b / 60, b % 60;
    DivModUnique(t, 3600, d * 24 + h, b);
    DivModUnique(t, 60, d * 1440 + h * 60 + m, s);
  }

  /** A face within its units is the breakdown of its own total: the face
      and the number of seconds determine each other. */
  lemma {:induction false} BreakdownOfTotal(c: Clock)
    requires Normal(c)
    ensures Breakdown(TotalSeconds(c)) == c
  {
    var t := TotalSeconds(c);
    var below := c.hours * 3600 + c.minutes * 60 + c.seconds;
    DivModUnique(t, 86400, c.days, below);
    DivModUnique(below, 3600, c.hours, c.minutes * 60 + c.seconds);
    DivModUnique(t, 3600, c.days * 24 + c.hours, c.minutes * 60 + c.seconds);
    DivModUnique(c.minutes * 60 + c.seconds, 60, c.minutes, c.seconds);
    DivModUnique(t, 60, c.days * 1440 + c.hours * 60 + c.minutes, c.seconds);
  }

  /** The face for `diff` milliseconds left, as each tick computes it: the
      face for the whole seconds left. */
  function BreakdownMs(diff: nat): (c: Clock)
    ensures c == Breakdown(diff / 1000)
  {
    var x, y := diff % 86400000, diff % 3600000;
    DivThousand(diff, 86400);
    DivThousand(x, 3600);
    DivThousand(diff, 3600);
    DivThousand(y, 60);
    DivThousand(diff, 60);
    Clock(diff / 86400000, x / 3600000, y / 60000, (diff % 60000) / 1000)
  }

  /** `formatTime`: the figure with at least two digits. */
  function FormatTime(v: nat): (r: string)
    ensures |r| >= 2 && AllDigits(r) && DigitsValue(r) == v
    ensures |NatToString(v)| >= 2 ==> r == NatToString(v)
    ensures |NatToString(v)| < 2 ==> r == "0" + NatToString(v)
  {
    var s := NatToString(v);
    DigitsValueOfNatToString(v);
    LeadingZero(s);
    if |s| < 2 then "0" + s else s
  }

  /** A leading zero does not change the value. */
  lemma {:induction false} LeadingZero(s: string)
    requires AllDigits(s)
    ensures AllDigits("0" + s) && DigitsValue("0" + s) == DigitsValue(s)
    decreases |s|
  {
    if s != [] {
      LeadingZero(s[..|s| - 1]);
      assert ("0" + s)[..|s|] == "0" + s[..|s| - 1];
    }
  }

  // ---------------------------------------------------------------------
  // Urgency

  datatype Urgency = High | Medium | Low

  /** `getUrgencyLevel`: the hours left, minutes counted as fractions of an
      hour and seconds ignored, under 3 is high, under 12 medium. */
  function UrgencyOf(c: Clock): Urgency
  {
    var totalHours := (c.days * 24 + c.hours) as real + c.minutes as real / 60.0;
    if totalHours < 3.0 then High
    else if totalHours < 12.0 then Medium
    else Low
  }

  /** On a face that came from a number of seconds, the tiers change
      exactly at 3 and at 12 hours left. */
  lemma UrgencyBySeconds(t: nat)
    ensures UrgencyOf(Breakdown(t)) == if t < 3 * 3600 then High else if t < 12 * 3600 then Medium else Low
  {
    var c := Breakdown(t);
    BreakdownSound(t);
    var minutes := c.days * 1440 + c.hours * 60 + c.minutes;
    assert t == minutes * 60 + c.seconds;
    var totalHours := (c.days * 24 + c.hours) as real + c.minutes as real / 60.0;
    assert totalHours * 60.0 == minutes as real;
  }

  function Rank(u: Urgency): nat
  {
    match u
    case Low => 0
    case Medium => 1
    case High => 2
  }

  /** Less time left is never less urgent. */
  lemma UrgencyGrowsAsTimeRunsOut(t1: nat, t2: nat)
    requires t1 <= t2
    ensures Rank(UrgencyOf(Breakdown(t1))) >= Rank(UrgencyOf(Breakdown(t2)))
  {
    UrgencyBySeconds(t1);
    UrgencyBySeconds(t2);
  }

  // ---------------------------------------------------------------------
  // Counting down

  /** `Math.max(0, endTime - now)`. */
  function Left(endTime: int, now: int): nat
  {
    if endTime > now then endTime - now else 0
  }

  /** The end time the countdown effect counts towards: the stored one when
      there is one that is neither 0 nor past, else now plus the time the
      face shows. */
  function EndTime(stored: Option<int>, face: Clock, now: int): (e: int)
    ensures e >= now
  {
    if stored.Some? && stored.value != 0 && stored.value >= now then stored.value
    else now + 1000 * TotalSeconds(face)
  }

  /** When the end time is recomputed, a tick at that same instant shows the
      same face again: nothing is lost by recomputing. */
  lemma {:induction false} RecomputedEndKeepsFace(face: Clock, now: int)
    requires Normal(face)
    ensures BreakdownMs(Left(EndTime(None, face, now), now)) == face
  {
    assert Left(EndTime(None, face, now), now) / 1000 == TotalSeconds(face);
    BreakdownOfTotal(face);
  }

  /** The seconds shown never go up between two ticks towards the same end
      time. */
  lemma {:induction false} RemainingNeverGrows(endTime: int, t1: int, t2: int)
    requires t1 <= t2
    ensures TotalSeconds(BreakdownMs(Left(endTime, t2))) <= TotalSeconds(BreakdownMs(Left(endTime, t1)))
  {
    var d1, d2 := Left(endTime, t1), Left(endTime, t2);
    assert d2 <= d1;
    assert d2 / 1000 <= d1 / 1000;
    BreakdownSound(d1 / 1000);
    BreakdownSound(d2 / 1000);
  }

  /** The timer. `ticking` is the end time of the interval currently set
      up, if any: every change of the face, of `isRunning` or of `isPaused`
      tears the interval down, and `Arm` (the countdown effect) sets it up
      again. */
  class CountdownTimer {
    var timeConstraint: string
    var face: Clock
    var isRunning: bool
    var isPaused: bool
    var storedEnd: Option<int>
    var ticking: Option<int>

    /** The face is within its units, and an interval runs only while the
        timer runs and is not paused. */
    predicate Valid()
      reads this
    {
      Normal(face) && (ticking.Some? ==> isRunning && !isPaused)
    }

    /** Mounting: the time limit is read and shown, and its end time is
        stored. */
    constructor (timeConstraint: string, now: int)
      ensures Valid()
      ensures this.timeConstraint == timeConstraint && face == Breakdown(LimitSeconds(timeConstraint))
      ensures isRunning && !isPaused && ticking.None?
      ensures storedEnd == Some(LimitEnd(timeConstraint, now))
    {
      this.timeConstraint := timeConstraint;
      var total := LimitSeconds(timeConstraint);
      face := Breakdown(total);
      BreakdownNormal(total);
      storedEnd := Some(LimitEnd(timeConstraint, now));
      isRunning := true;
      isPaused := false;
      ticking := None;
    }

    /** A new time limit: it is read and shown, and its end time stored;
        running and pausing are left as they are. */
    method SetTimeConstraint(tc: string, now: int)
      requires Valid()
      modifies this
      ensures Valid()
      ensures timeConstraint == tc && face == Breakdown(LimitSeconds(tc))
      ensures storedEnd == Some(LimitEnd(tc, now)) && ticking.None?
      ensures isRunning == old(isRunning) && isPaused == old(isPaused)
    {
      timeConstraint := tc;
      var total := LimitSeconds(tc);
      face := Breakdown(total);
      BreakdownNormal(total);
      storedEnd := Some(LimitEnd(tc, now));
      ticking := None;
    }

    /** The countdown effect: nothing while stopped or paused; otherwise the
        end time is taken from storage, recomputed and stored when missing
        or past, and an interval is set up towards it. */
    method Arm(now: int)
      requires Valid()
      modifies this
      ensures Valid()
      ensures !old(isRunning) || old(isPaused) ==>
        ticking.None? && storedEnd == old(storedEnd)
      ensures old(isRunning) && !old(isPaused) ==>
        var e := EndTime(old(storedEnd), face, now);
        ticking == Some(e) && storedEnd == Some(e)
      ensures face == old(face) && isRunning == old(isRunning) && isPaused == old(isPaused)
      ensures timeConstraint == old(timeConstraint)
    {
      if !isRunning || isPaused {
        return;
      }
      var endTime := if storedEnd.Some? then storedEnd.value else 0;
      if endTime == 0 || endTime < now {
        endTime := now + TotalSeconds(face) * 1000;
        storedEnd := Some(endTime);
      }
      ticking := Some(endTime);
    }

    /** One tick of the interval at time `now`. At or after the end time
        the face goes to zero, the timer stops and `timeUp` says that
        `onTimeUp` is called; before it the face shows the whole seconds
        left. No interval, no effect: nothing ticks while the timer is
        stopped or paused. */
    method Fire(now: int) returns (timeUp: bool)
      requires Valid()
      modifies this
      ensures Valid()
      ensures old(ticking).None? ==>
        !timeUp && face == old(face) && isRunning == old(isRunning) && ticking.None?
      ensures old(ticking).Some? && old(ticking).value <= now ==>
        timeUp && face == Zero && !isRunning && ticking.None?
      ensures old(ticking).Some? && old(ticking).value > now ==>
        !timeUp && face == Breakdown((old(ticking).value - now) / 1000) && isRunning == old(isRunning) && ticking.None?
      ensures isPaused == old(isPaused) && storedEnd == old(storedEnd) && timeConstraint == old(timeConstraint)
    {
      timeUp := false;
      if ticking.None? {
        return;
      }
      var diff := Left(ticking.value, now);
      if diff <= 0 {
        face := Zero;
        isRunning := false;
        timeUp := true;
      } else {
        face := BreakdownMs(diff);
      }
      ticking := None;
    }

    /** `togglePause`: only the pause flag changes (and the interval is torn
        down with it). */
    method TogglePause()
      requires Valid()
      modifies this
      ensures Valid()
      ensures isPaused == !old(isPaused) && ticking.None?
      ensures face == old(face) && isRunning == old(isRunning) && storedEnd == old(storedEnd)
      ensures timeConstraint == old(timeConstraint)
    {
      isPaused := !isPaused;
      ticking := None;
    }

    /** `resetTimer`: running and not paused again, the time limit read
        afresh and shown, and a new end time stored. */
    method Reset(now: int)
      requires Valid()
      modifies this
      ensures Valid()
      ensures isRunning && !isPaused && ticking.None?
      ensures face == Breakdown(LimitSeconds(timeConstraint))
      ensures storedEnd == Some(LimitEnd(timeConstraint, now))
      ensures timeConstraint == old(timeConstraint)
    {
      isRunning := true;
      isPaused := false;
      var total := LimitSeconds(timeConstraint);
      face := Breakdown(total);
      BreakdownNormal(total);
      storedEnd := Some(LimitEnd(timeConstraint, now));
      ticking := None;
    }
  }
}

=== FILE: domain.dfy ===
/** The records the application passes around (the types declared at the top
    of lib/context.tsx). String fields that the generating model may leave out
    are plain strings, the empty string standing for an absent value, because
    every consumer reads them with JavaScript's `||`. */
module Domain {
  import opened Base

  datatype Status = Pending | Active | Completed

  datatype Priority = Critical | Important | Helpful

  /** One unit of a study plan. */
  datatype Module = Module(
    id: string,
    title: string,
    description: string,
    status: Status,
    priority: Option<Priority>,
    estimatedTime: string,
    keyConceptsPreview: string,
    keywords: JsonList<string>)

  /** A plan as the client keeps it: title, description, ordered modules. */
  datatype LearningPlan = LearningPlan(planTitle: string, description: string, modules: seq<Module>)

  /** A plan as a generation step hands it on: its `modules` field may be
      absent or not an array. */
  datatype PlanDraft = PlanDraft(planTitle: string, description: string, modules: JsonList<Module>)

  datatype Role = User | Ai

  datatype ChatMessage = ChatMessage(id: string, role: Role, content: string, timestamp: nat)

  datatype ResourceType = YouTube | Article

  datatype QuizQuestion = QuizQuestion(question: string, options: seq<string>, correctAnswer: int)

  /** A video or article attached to the active module. `watched` is set on
      videos and `read` on articles; the other flag stays absent. */
  datatype Resource = Resource(
    id: string,
    kind: ResourceType,
    title: string,
    url: Option<string>,
    videoId: Option<string>,
    aiJustification: string,
    watched: Option<bool>,
    read: Option<bool>,
    summary: Option<string>,
    quizQuestions: Option<seq<QuizQuestion>>)

  /** The four search keywords derived from a module title when a module
      has none: the title, "learn <title>", "<title> tutorial" and
      "<title> for beginners". */
  function LearnKeywords(title: string): (r: seq<string>)
    ensures |r| == 4 && r[0] == title
  {
    [title, "learn " + title, title + " tutorial", title + " for beginners"]
  }

  /** The id given to a module that has none: `module-<index+1>-<now>`. */
  function DefaultModuleId(index: nat, now: nat): (r: string)
    ensures r != ""
  {
    "module-" + NatToString(index + 1) + "-" + NatToString(now)
  }
}

=== FILE: fetch_module_resources.dfy ===
/** The route pages/api/fetch-module-resources.ts: it finds videos and
    articles for a module. Each search runs down a chain of providers that
    ends in a fixed synthetic set; the model's selection of the best
    candidates falls back to the first two; the picks become typed
    resources, and an empty result is replaced by one video and one
    article. A selection that is not a list, or a failed video selection
    over a search that came back `undefined`, raises a `TypeError` and the
    route answers 500. Provider answers and the model's selection are
    inputs. */
module FetchModuleResources {
  import opened Base
  import opened Domain

  // ---------------------------------------------------------------------
  // Candidates and provider answers

  /** A video search hit: its `id.videoId` and `snippet.title`. */
  datatype VideoCandidate = VideoCandidate(videoId: string, title: string)

  /** A web search hit as every provider normalises it. It has no `link`
      field. */
  datatype ArticleCandidate = ArticleCandidate(title: string, url: string, snippet: string)

  /** What a provider call comes to: a non-ok status, an exception (a
      failed request or an unreadable body), an ok answer whose body lacks
      the expected list, or a list. */
  datatype ProviderReply<T> = NotOk | Threw | OkWithoutList | Returned(items: seq<T>)

  /** Which search credentials are configured. */
  datatype SearchEnv = SearchEnv(youtubeKey: bool, googleKey: bool, googleEngineId: bool, bingKey: bool, serperKey: bool)

  // The fixed texts of the synthetic results.
  const EducationalVideo := " - Educational Video"
  const BeginnersTutorial := " Tutorial for Beginners"
  const GuideTitle := ": A Comprehensive Guide"
  const BasicsTitle := ": From Basics to Advanced Concepts"
  const PracticeTitle := "Practical Applications of "
  const GuideSnippet := "This article provides a comprehensive guide to "
  const GuideSnippetEnd := " and its applications."
  const BasicsSnippetEnd := " from the basics to advanced concepts in this detailed article."
  const PracticeSnippet := "Discover the practical applications of "
  const PracticeSnippetEnd := " in various fields."
  const ArticleUrl1 := "https://example.com/article1"
  const ArticleUrl2 := "https://example.com/article2"
  const ArticleUrl3 := "https://example.com/article3"
  const MockVideoJustification := "This is a mock video resource since no real resources were found."
  const MockArticleJustification := "This is a mock article resource since no real resources were found."
  const MockArticleUrl := "https://example.com/article"
  const MissingParameters := "Missing required parameters"
  const FetchFailed := "Failed to fetch module resources"

  const MockVideoIds := ["dQw4w9WgXcQ", "xvFZjo5PgG0", "jNQXAC9IVRw"]

  /** `mockYouTubeSearch`: three fixed videos titled after the first three
      keywords. */
  function MockYouTubeSearch(keywords: seq<string>): (r: seq<VideoCandidate>)
    ensures |r| == 3
    ensures forall i :: 0 <= i < 3 ==> r[i].videoId == MockVideoIds[i]
    ensures r[0].title == "Learn about " + KeywordAt(keywords, 0) + EducationalVideo
    ensures r[1].title == KeywordAt(keywords, 1) + BeginnersTutorial
    ensures r[2].title == "Advanced " + KeywordAt(keywords, 2) + " Techniques"
  {
    [VideoCandidate("dQw4w9WgXcQ", "Learn about " + KeywordAt(keywords, 0) + EducationalVideo),
     VideoCandidate("xvFZjo5PgG0", KeywordAt(keywords, 1) + BeginnersTutorial),
     VideoCandidate("jNQXAC9IVRw", "Advanced " + KeywordAt(keywords, 2) + " Techniques")]
  }

  /** `mockWebSearch`: three fixed articles titled after the first three
      keywords. */
  function MockWebSearch(keywords: seq<string>): (r: seq<ArticleCandidate>)
    ensures |r| == 3
    ensures r[0].url == ArticleUrl1 && r[1].url == ArticleUrl2
    ensures r[2].url == ArticleUrl3
    ensures r[0].title == "Understanding " + KeywordAt(keywords, 0) + GuideTitle
    ensures r[1].title == KeywordAt(keywords, 1) + BasicsTitle
    ensures r[2].title == PracticeTitle + KeywordAt(keywords, 2)
  {
    [ArticleCandidate("Understanding " + KeywordAt(keywords, 0) + GuideTitle,
                      ArticleUrl1,
                      GuideSnippet + KeywordAt(keywords, 0) + GuideSnippetEnd),
     ArticleCandidate(KeywordAt(keywords, 1) + BasicsTitle,
                      ArticleUrl2,
                      "Learn about " + KeywordAt(keywords, 1) + BasicsSnippetEnd),
     ArticleCandidate(PracticeTitle + KeywordAt(keywords, 2),
                      ArticleUrl3,
                      PracticeSnippet + KeywordAt(keywords, 2) + PracticeSnippetEnd)]
  }

  /** `youtubeSearch`: the provider's videos, or the synthetic set when no
      key is configured, the answer is not ok or the call throws. An ok
      answer without `items` is returned as it reads, `undefined`: `None`
      here. */
  function YouTubeSearch(hasKey: bool, reply: ProviderReply<VideoCandidate>, keywords: seq<string>)
    : (r: Option<seq<VideoCandidate>>)
    ensures hasKey && reply.Returned? ==> r == Some(reply.items)
    ensures r.None? <==> hasKey && reply.OkWithoutList?
    ensures !hasKey || reply.NotOk? || reply.Threw? ==> r == Some(MockYouTubeSearch(keywords))
  {
    if !hasKey then Some(MockYouTubeSearch(keywords))
    else match reply
      case Returned(items) => Some(items)
      case OkWithoutList => None
      case NotOk => Some(MockYouTubeSearch(keywords))
      case Threw => Some(MockYouTubeSearch(keywords))
  }

  /** One step of the article chain: whether the provider is configured and
      what it would answer. */
  datatype Attempt = Attempt(configured: bool, reply: ProviderReply<ArticleCandidate>)

  /** Where a chain of providers ends: a provider returned a list, one threw
      (which abandons the chain), or none returned. */
  datatype ChainEnd = Found(items: seq<ArticleCandidate>) | Aborted | Exhausted

  /** The providers are tried in order; an unconfigured one or a non-ok
      answer passes on to the next. An ok answer without its list throws
      when the route maps over the missing list. */
  function RunChain(attempts: seq<Attempt>): ChainEnd
  {
    if |attempts| == 0 then Exhausted
    else if !attempts[0].configured then RunChain(attempts[1..])
    else match attempts[0].reply
      case Returned(items) => Found(items)
      case Threw => Aborted
      case OkWithoutList => Aborted
      case NotOk => RunChain(attempts[1..])
  }

  /** One step of the chain, given where the rest of it ends. */
  function Step(a: Attempt, next: ChainEnd): ChainEnd
  {
    if !a.configured then next
    else match a.reply
      case Returned(items) => Found(items)
      case Threw => Aborted
      case OkWithoutList => Aborted
      case NotOk => next
  }

  lemma {:induction false} RunChainThree(a: Attempt, b: Attempt, c: Attempt)
    ensures RunChain([a, b, c]) == Step(a, Step(b, Step(c, Exhausted)))
  {
    assert RunChain([a, b, c]) == Step(a, RunChain([a, b, c][1..]));
    assert [a, b, c][1..] == [b, c];
    assert RunChain([b, c]) == Step(b, RunChain([b, c][1..]));
    assert [b, c][1..] == [c];
    assert RunChain([c]) == Step(c, RunChain([c][1..]));
    assert [c][1..] == [];
  }

  /** A later provider is consulted only when every earlier one was skipped
      or answered not ok. */
  lemma {:induction false} RunChainAppend(first: seq<Attempt>, rest: seq<Attempt>)
    ensures RunChain(first + rest) == if RunChain(first).Exhausted? then RunChain(rest) else RunChain(first)
  {
    if |first| > 0 {
      assert (first + rest)[1..] == first[1..] + rest;
      RunChainAppend(first[1..], rest);
    } else {
      assert first + rest == rest;
    }
  }

  /** The article chain: the first provider needs its key and its engine
      id, the other two their key. */
  function ArticleChain(env: SearchEnv, google: ProviderReply<ArticleCandidate>,
                        bing: ProviderReply<ArticleCandidate>, serper: ProviderReply<ArticleCandidate>): seq<Attempt>
  {
    [Attempt(env.googleKey && env.googleEngineId, google), Attempt(env.bingKey, bing), Attempt(env.serperKey, serper)]
  }

  /** `webSearch`: the first provider that returns a list, tried in order;
      the synthetic set when none does or as soon as one throws. */
  method WebSearch(env: SearchEnv, google: ProviderReply<ArticleCandidate>, bing: ProviderReply<ArticleCandidate>,
                   serper: ProviderReply<ArticleCandidate>, keywords: seq<string>)
    returns (r: seq<ArticleCandidate>)
    ensures RunChain(ArticleChain(env, google, bing, serper)).Found? ==>
      r == RunChain(ArticleChain(env, google, bing, serper)).items
    ensures !RunChain(ArticleChain(env, google, bing, serper)).Found? ==> r == MockWebSearch(keywords)
  {
    RunChainThree(Attempt(env.googleKey && env.googleEngineId, google), Attempt(env.bingKey, bing), Attempt(env.serperKey, serper));
    var found := Exhausted;
    if env.googleKey && env.googleEngineId && !google.NotOk? {
      found := if google.Returned? then Found(google.items) else Aborted;
    } else if env.bingKey && !bing.NotOk? {
      found := if bing.Returned? then Found(bing.items) else Aborted;
    } else if env.serperKey && !serper.NotOk? {
      found := if serper.Returned? then Found(serper.items) else Aborted;
    }
    assert found == RunChain(ArticleChain(env, google, bing, serper));
    r := if found.Found? then found.items else MockWebSearch(keywords);
  }

  /** What `webSearch` resolves to. */
  function WebResults(env: SearchEnv, google: ProviderReply<ArticleCandidate>, bing: ProviderReply<ArticleCandidate>,
                      serper: ProviderReply<ArticleCandidate>, keywords: seq<string>): seq<ArticleCandidate>
  {
    match RunChain(ArticleChain(env, google, bing, serper))
    case Found(items) => items
    case _ => MockWebSearch(keywords)
  }

  /** An exception in a configured provider ends the chain: the providers
      after it are never asked. */
  lemma ThrowStopsChain(env: SearchEnv, google: ProviderReply<ArticleCandidate>,
                        bing1: ProviderReply<ArticleCandidate>, serper1: ProviderReply<ArticleCandidate>,
                        bing2: ProviderReply<ArticleCandidate>, serper2: ProviderReply<ArticleCandidate>)
    requires env.googleKey && env.googleEngineId && (google.Threw? || google.OkWithoutList?)
    ensures RunChain(ArticleChain(env, google, bing1, serper1)) == Aborted
    ensures RunChain(ArticleChain(env, google, bing1, serper1)) == RunChain(ArticleChain(env, google, bing2, serper2))
  {
    RunChainThree(Attempt(true, google), Attempt(env.bingKey, bing1), Attempt(env.serperKey, serper1));
    RunChainThree(Attempt(true, google), Attempt(env.bingKey, bing2), Attempt(env.serperKey, serper2));
  }

  /** With no search credentials, the synthetic set is all there is. */
  lemma NoKeysNoProviders(env: SearchEnv, google: ProviderReply<ArticleCandidate>,
                          bing: ProviderReply<ArticleCandidate>, serper: ProviderReply<ArticleCandidate>)
    requires !(env.googleKey && env.googleEngineId) && !env.bingKey && !env.serperKey
    ensures RunChain(ArticleChain(env, google, bing, serper)) == Exhausted
  {
    RunChainThree(Attempt(env.googleKey && env.googleEngineId, google), Attempt(env.bingKey, bing), Attempt(env.serperKey, serper));
  }

  // ---------------------------------------------------------------------
  // Selection

  /** A selected video or article, as the model's selection lists it. */
  datatype VideoPick = VideoPick(videoId: string, title: string, aiJustification: string)
  datatype ArticlePick = ArticlePick(url: string, title: string, aiJustification: string)

  /** The model's selection: a parsed list, a parsed value that is not a
      list (a reply without `[` parsed whole, such as `null`), or a failure
      of the call or of the parse. */
  datatype Selection<T> = Selected(picks: seq<T>) | NotAnArray | SelectionFailed

  function Take<T>(s: seq<T>, n: nat): (r: seq<T>)
    ensures |r| <= n && r <= s
    ensures |s| >= n ==> |r| == n
    ensures |s| <= n ==> r == s
  {
    if |s| <= n then s else s[..n]
  }

  const DefaultVideoId := "dQw4w9WgXcQ"
  const VideoFallbackJustification := "This video appears to be relevant to your learning module."
  const ArticleFallbackJustification := "This article appears to be relevant to your learning module."

  /** The videos kept when the model's selection fails: the first two
      candidates, with a placeholder id and title where they lack one. */
  function FallbackVideos(candidates: seq<VideoCandidate>): (r: seq<VideoPick>)
    ensures |r| == if |candidates| < 2 then |candidates| else 2
    ensures forall i :: 0 <= i < |r| ==>
      && r[i].videoId == Or(candidates[i].videoId, DefaultVideoId)
      && r[i].title == Or(candidates[i].title, "Mock Video Title")
      && r[i].aiJustification == VideoFallbackJustification
  {
    var first := Take(candidates, 2);
    seq(|first|, i requires 0 <= i < |first| =>
      VideoPick(Or(first[i].videoId, DefaultVideoId), Or(first[i].title, "Mock Video Title"), VideoFallbackJustification))
  }

  /** The articles kept when the model's selection fails: the first two
      candidates. The url is read from a `link` field that no candidate
      has, so it is always the placeholder. */
  function FallbackArticles(candidates: seq<ArticleCandidate>): (r: seq<ArticlePick>)
    ensures |r| == if |candidates| < 2 then |candidates| else 2
    ensures forall i :: 0 <= i < |r| ==>
      && r[i].url == "https://example.com"
      && r[i].title == Or(candidates[i].title, "Mock Article Title")
      && r[i].aiJustification == ArticleFallbackJustification
  {
    var first := Take(candidates, 2);
    seq(|first|, i requires 0 <= i < |first| =>
      ArticlePick("https://example.com", Or(first[i].title, "Mock Article Title"), ArticleFallbackJustification))
  }

  // ---------------------------------------------------------------------
  // Typed resources

  /** The random part of a resource id, by kind and position; a parameter
      of the model. */
  type Suffixes = (ResourceType, nat) -> string

  function ResourceId(prefix: string, moduleId: string, now: nat, suffix: string): string
  {
    prefix + "-" + moduleId + "-" + NatToString(now) + "-" + suffix
  }

  function FormatVideos(picks: seq<VideoPick>, moduleId: string, now: nat, rand: Suffixes): (r: seq<Resource>)
    ensures |r| == |picks|
    ensures forall i :: 0 <= i < |r| ==>
      r[i] == Resource(ResourceId("video", moduleId, now, rand(YouTube, i)), YouTube, picks[i].title, None,
                       Some(picks[i].videoId), picks[i].aiJustification, Some(false), None, None, None)
  {
    seq(|picks|, i requires 0 <= i < |picks| =>
      Resource(ResourceId("video", moduleId, now, rand(YouTube, i)), YouTube, picks[i].title, None,
               Some(picks[i].videoId), picks[i].aiJustification, Some(false), None, None, None))
  }

  function FormatArticles(picks: seq<ArticlePick>, moduleId: string, now: nat, rand: Suffixes): (r: seq<Resource>)
    ensures |r| == |picks|
    ensures forall i :: 0 <= i < |r| ==>
      r[i] == Resource(ResourceId("article", moduleId, now, rand(Article, i)), Article, picks[i].title,
                       Some(picks[i].url), None, picks[i].aiJustification, None, Some(false), None, None)
  {
    seq(|picks|, i requires 0 <= i < |picks| =>
      Resource(ResourceId("article", moduleId, now, rand(Article, i)), Article, picks[i].title,
               Some(picks[i].url), None, picks[i].aiJustification, None, Some(false), None, None))
  }

  /** The two resources served when nothing else was found. */
  function MockResources(moduleId: string, moduleTitle: string, now: nat): (r: seq<Resource>)
    ensures |r| == 2 && r[0].kind == YouTube && r[1].kind == Article
  {
    [Resource(ResourceId("video", moduleId, now, "mock1"), YouTube, "Introduction to " + moduleTitle, None,
              Some(DefaultVideoId), MockVideoJustification,
              Some(false), None, None, None),
     Resource(ResourceId("article", moduleId, now, "mock1"), Article, "Getting Started with " + moduleTitle,
              Some(MockArticleUrl), None,
              MockArticleJustification,
              None, Some(false), None, None)]
  }

  /** A served list: videos first, then articles; every video carries a
      video id and `watched = false`, every article a url and `read =
      false`; nothing consumed, summarised or quizzed yet. */
  ghost predicate WellTyped(rs: seq<Resource>)
  {
    && (forall i, j :: 0 <= i < j < |rs| && rs[j].kind == YouTube ==> rs[i].kind == YouTube)
    && (forall i :: 0 <= i < |rs| && rs[i].kind == YouTube ==>
          rs[i].videoId.Some? && rs[i].watched == Some(false) && rs[i].read.None? && rs[i].url.None?)
    && (forall i :: 0 <= i < |rs| && rs[i].kind == Article ==>
          rs[i].url.Some? && rs[i].read == Some(false) && rs[i].watched.None? && rs[i].videoId.None?)
    && (forall i :: 0 <= i < |rs| ==> rs[i].summary.None? && rs[i].quizQuestions.None?)
  }

  // ---------------------------------------------------------------------
  // The route

  /** The request body; `searchKeywords` is absent or a list. */
  datatype ResourceRequest = ResourceRequest(
    httpMethod: string,
    moduleId: string,
    moduleTitle: string,
    moduleDescription: string,
    searchKeywords: Option<seq<string>>)

  /** The route's required-field check. Any list counts as present, even an
      empty one. */
  predicate HasRequiredFields(req: ResourceRequest)
  {
    req.moduleId != "" && req.moduleTitle != "" && req.moduleDescription != "" && req.searchKeywords.Some?
  }

  /** Everything the route would learn from outside: credentials, provider
      answers, the model's two selections, and the message of the
      `TypeError` the JavaScript runtime raises on a missing list. */
  datatype World = World(
    env: SearchEnv,
    youtube: ProviderReply<VideoCandidate>,
    google: ProviderReply<ArticleCandidate>,
    bing: ProviderReply<ArticleCandidate>,
    serper: ProviderReply<ArticleCandidate>,
    videoSelection: Selection<VideoPick>,
    articleSelection: Selection<ArticlePick>,
    errorMessage: string)

  /** The videos the route keeps: the model's picks, or the first two
      candidates when the selection fails. `None` where the route raises a
      `TypeError`: a selection that is not a list (its `map`), or a failed
      selection over `undefined` candidates (their `slice`). */
  function KeptVideos(selection: Selection<VideoPick>, candidates: Option<seq<VideoCandidate>>): Option<seq<VideoPick>>
  {
    match selection
    case Selected(picks) => Some(picks)
    case NotAnArray => None
    case SelectionFailed => if candidates.Some? then Some(FallbackVideos(candidates.value)) else None
  }

  function KeptArticles(selection: Selection<ArticlePick>, candidates: seq<ArticleCandidate>): Option<seq<ArticlePick>>
  {
    match selection
    case Selected(picks) => Some(picks)
    case NotAnArray => None
    case SelectionFailed => Some(FallbackArticles(candidates))
  }

  /** The formatted videos followed by the formatted articles, before the
      empty-list replacement; `None` when building them raises. */
  function Combined(req: ResourceRequest, w: World, now: nat, rand: Suffixes): Option<seq<Resource>>
    requires req.searchKeywords.Some?
  {
    var keywords := req.searchKeywords.value;
    var videos := KeptVideos(w.videoSelection, YouTubeSearch(w.env.youtubeKey, w.youtube, keywords));
    var articles := KeptArticles(w.articleSelection, WebResults(w.env, w.google, w.bing, w.serper, keywords));
    if videos.None? || articles.None? then None
    else Some(FormatVideos(videos.value, req.moduleId, now, rand) + FormatArticles(articles.value, req.moduleId, now, rand))
  }

  /** The inputs on which the handler raises a `TypeError` and answers 500. */
  predicate RaisesTypeError(w: World)
  {
    || w.videoSelection.NotAnArray?
    || w.articleSelection.NotAnArray?
    || (w.videoSelection.SelectionFailed? && w.env.youtubeKey && w.youtube.OkWithoutList?)
  }

  /** Building the list fails exactly on those inputs. */
  lemma CombinedFailsIff(req: ResourceRequest, w: World, now: nat, rand: Suffixes)
    requires req.searchKeywords.Some?
    ensures Combined(req, w, now, rand).None? <==> RaisesTypeError(w)
  {
  }

  /** The handler. */
  method FetchResources(req: ResourceRequest, w: World, now: nat, rand: Suffixes) returns (r: Http<seq<Resource>>)
    ensures req.httpMethod != "POST" ==> r == Fail(405, "Method not allowed")
    ensures req.httpMethod == "POST" && !HasRequiredFields(req) ==> r == Fail(400, MissingParameters)
    ensures req.httpMethod == "POST" && HasRequiredFields(req) && RaisesTypeError(w) ==>
      r == Fail(500, Or(w.errorMessage, FetchFailed))
    ensures r.Ok? <==> req.httpMethod == "POST" && HasRequiredFields(req) && !RaisesTypeError(w)
    ensures r.Ok? ==> HasRequiredFields(req) && Combined(req, w, now, rand).Some? && r.body == Served(req, w, now, rand)
  {
    if req.httpMethod != "POST" {
      return Fail(405, "Method not allowed");
    }
    if !HasRequiredFields(req) {
      return Fail(400, MissingParameters);
    }
    var keywords := req.searchKeywords.value;
    var youtubeResults := YouTubeSearch(w.env.youtubeKey, w.youtube, keywords);
    var articleResults := WebSearch(w.env, w.google, w.bing, w.serper, keywords);
    assert articleResults == WebResults(w.env, w.google, w.bing, w.serper, keywords);
    var filteredVideos := KeptVideos(w.videoSelection, youtubeResults);
    var filteredArticles := KeptArticles(w.articleSelection, articleResults);
    PicksFailIff(w, keywords);
    if filteredVideos.None? || filteredArticles.None? {
      return Fail(500, Or(w.errorMessage, FetchFailed));
    }
    var all := FormatVideos(filteredVideos.value, req.moduleId, now, rand)
             + FormatArticles(filteredArticles.value, req.moduleId, now, rand);
    CombinedOfPicks(req, w, now, rand, filteredVideos.value, filteredArticles.value);
    if |all| == 0 {
      all := MockResources(req.moduleId, req.moduleTitle, now);
    }
    return Ok(all);
  }

  /** A stage fails exactly on the inputs that raise. */
  lemma PicksFailIff(w: World, keywords: seq<string>)
    ensures || KeptVideos(w.videoSelection, YouTubeSearch(w.env.youtubeKey, w.youtube, keywords)).None?
            || KeptArticles(w.articleSelection, WebResults(w.env, w.google, w.bing, w.serper, keywords)).None?
      <==> RaisesTypeError(w)
  {
  }

  /** The combined list is built from the picks the two stages keep. */
  lemma CombinedOfPicks(req: ResourceRequest, w: World, now: nat, rand: Suffixes,
                        videos: seq<VideoPick>, articles: seq<ArticlePick>)
    requires req.searchKeywords.Some?
    requires KeptVideos(w.videoSelection, YouTubeSearch(w.env.youtubeKey, w.youtube, req.searchKeywords.value)) == Some(videos)
    requires KeptArticles(w.articleSelection, WebResults(w.env, w.google, w.bing, w.serper, req.searchKeywords.value)) == Some(articles)
    ensures Combined(req, w, now, rand) == Some(FormatVideos(videos, req.moduleId, now, rand) + FormatArticles(articles, req.moduleId, now, rand))
  {
  }

  /** The list an accepted request is served: the combined list, or the
      two mock resources when it is empty. */
  function Served(req: ResourceRequest, w: World, now: nat, rand: Suffixes): seq<Resource>
    requires req.searchKeywords.Some? && Combined(req, w, now, rand).Some?
  {
    var all := Combined(req, w, now, rand).value;
    if |all| == 0 then MockResources(req.moduleId, req.moduleTitle, now) else all
  }

  /** What an accepted request is served is a non-empty, well-formed list,
      and at most two videos and two articles when both selections fail. */
  lemma ServedWellTyped(req: ResourceRequest, w: World, now: nat, rand: Suffixes)
    requires req.searchKeywords.Some? && Combined(req, w, now, rand).Some?
    ensures var body := Served(req, w, now, rand);
      && |body| > 0 && WellTyped(body)
      && (w.videoSelection.SelectionFailed? && w.articleSelection.SelectionFailed? ==> |body| <= 4)
  {
    var keywords := req.searchKeywords.value;
    CombinedFailsIff(req, w, now, rand);
    PicksFailIff(w, keywords);
    var videos := KeptVideos(w.videoSelection, YouTubeSearch(w.env.youtubeKey, w.youtube, keywords)).value;
    var articles := KeptArticles(w.articleSelection, WebResults(w.env, w.google, w.bing, w.serper, keywords)).value;
    var all := FormatVideos(videos, req.moduleId, now, rand) + FormatArticles(articles, req.moduleId, now, rand);
    CombinedOfPicks(req, w, now, rand, videos, articles);
    if |all| == 0 {
      MockResourcesWellTyped(req.moduleId, req.moduleTitle, now);
    } else {
      ServedOrder(videos, articles, req.moduleId, now, rand);
    }
  }

  lemma MockResourcesWellTyped(moduleId: string, moduleTitle: string, now: nat)
    ensures WellTyped(MockResources(moduleId, moduleTitle, now))
  {
  }

  /** The list is served in the order videos then articles, as selected. */
  lemma {:induction false} ServedOrder(vs: seq<VideoPick>, as_: seq<ArticlePick>, moduleId: string, now: nat, rand: Suffixes)
    requires |vs| + |as_| > 0
    ensures var all := FormatVideos(vs, moduleId, now, rand) + FormatArticles(as_, moduleId, now, rand);
      && |all| == |vs| + |as_|
      && (forall i :: 0 <= i < |vs| ==> all[i].kind == YouTube && all[i].videoId == Some(vs[i].videoId))
      && (forall i :: 0 <= i < |as_| ==> all[|vs| + i].kind == Article && all[|vs| + i].url == Some(as_[i].url))
      && WellTyped(all)
  {
  }
}

=== FILE: full_plan.dfy ===
/** The route pages/api/generate-full-plan.ts: it checks the request, fills
    in the generation parameters, asks lib/gemini.ts for an exam plan and
    makes sure every module has an id and search keywords. The model's
    reply is a function of the parameters it is asked with. */
module FullPlan {
  import opened Base
  import opened Domain
  import Gemini

  /** The request: its method and the body fields, the empty string standing
      for an absent field. */
  datatype PlanRequest = PlanRequest(
    httpMethod: string,
    examGoal: string,
    priorKnowledge: string,
    timeConstraint: string,
    syllabusContent: string)

  /** What the plan generator is asked with. */
  datatype GenerationParams = GenerationParams(
    examGoal: string,
    priorKnowledge: string,
    timeConstraint: string,
    syllabusContent: string)

  /** The generation parameters with their defaults: no prior knowledge and
      no syllabus become the empty string, no time constraint 24 hours. */
  function ParamsOf(req: PlanRequest): (p: GenerationParams)
    ensures p.examGoal == req.examGoal
    ensures p.priorKnowledge == req.priorKnowledge && p.syllabusContent == req.syllabusContent
    ensures req.timeConstraint == "" ==> p.timeConstraint == "24 hours"
    ensures req.timeConstraint != "" ==> p.timeConstraint == req.timeConstraint
  {
    GenerationParams(req.examGoal, Or(req.priorKnowledge, ""), Or(req.timeConstraint, "24 hours"),
                     Or(req.syllabusContent, ""))
  }

  /** One module after the route's own pass: a missing id and missing
      keywords are filled in, everything else is kept. */
  function ValidateModule(m: Module, index: nat, now: nat): (r: Module)
    ensures r.id == Or(m.id, DefaultModuleId(index, now)) && r.id != ""
    ensures m.keywords.Missing? ==> r.keywords == Items(LearnKeywords(m.title))
    ensures !m.keywords.Missing? ==> r.keywords == m.keywords
    ensures r.(id := m.id, keywords := m.keywords) == m
  {
    m.(id := Or(m.id, DefaultModuleId(index, now)),
       keywords := if m.keywords.Missing? then Items(LearnKeywords(m.title)) else m.keywords)
  }

  function ValidateModules(ms: seq<Module>, now: nat): (r: seq<Module>)
    ensures |r| == |ms|
    ensures forall i :: 0 <= i < |ms| ==> r[i] == ValidateModule(ms[i], i, now)
  {
    seq(|ms|, i requires 0 <= i < |ms| => ValidateModule(ms[i], i, now))
  }

  /** Validation only fills absent fields, so a second pass changes nothing. */
  lemma ValidateModulesIdempotent(ms: seq<Module>, now: nat, later: nat)
    ensures ValidateModules(ValidateModules(ms, now), later) == ValidateModules(ms, now)
  {
  }

  /** The modules of an exam plan repaired by the generator already have ids
      and keywords, so the route's pass keeps them as they are. */
  lemma {:induction false} ValidateAfterExamRepair(ms: seq<Module>, now: nat, later: nat)
    ensures ValidateModules(Gemini.RepairExamModules(ms, now), later) == Gemini.RepairExamModules(ms, now)
  {
    var r := Gemini.RepairExamModules(ms, now);
    forall i | 0 <= i < |r| ensures ValidateModule(r[i], i, later) == r[i] {
      assert r[i] == Gemini.RepairExamModule(ms[i], i, now);
    }
  }

  const TypeErrorNoModules := "Cannot read properties of undefined (reading 'length')"
  const TypeErrorNotArray := "learningPlan.modules.map is not a function"

  /** The route: 405 for anything but POST, 400 without an exam goal, 500
      when generation fails (with the generator's message) or yields no
      module array, else 200 with the validated plan. */
  function GenerateFullPlan(req: PlanRequest, model: GenerationParams -> Result<string>,
                            parse: string -> Option<PlanDraft>, now: nat): (r: Http<PlanDraft>)
    ensures req.httpMethod != "POST" ==> r == Fail(405, "Method not allowed")
    ensures req.httpMethod == "POST" && req.examGoal == "" ==> r == Fail(400, "Exam goal is required")
    ensures r.Ok? ==> req.httpMethod == "POST" && req.examGoal != ""
    ensures r.Fail? ==> r.code in {400, 405, 500}
    ensures req.httpMethod == "POST" && req.examGoal != "" ==>
      var g := Gemini.ExamPrepPlan(model(ParamsOf(req)), parse, now);
      && (r.Ok? <==> g.Success? && g.value.modules.Items?)
      && (r.Ok? ==> r.body == g.value.(modules := Items(ValidateModules(g.value.modules.items, now))))
      && (r.Fail? ==> r.code == 500)
      && (g.Failure? ==> r.message == Or(g.error, "Failed to generate learning plan"))
      && (g.Success? && g.value.modules.Missing? ==> r.message == TypeErrorNoModules)
      && (g.Success? && g.value.modules.NonArray? ==> r.message == TypeErrorNotArray)
  {
    if req.httpMethod != "POST" then Fail(405, "Method not allowed")
    else if req.examGoal == "" then Fail(400, "Exam goal is required")
    else
      match Gemini.ExamPrepPlan(model(ParamsOf(req)), parse, now)
      case Failure(e) => Fail(500, Or(e, "Failed to generate learning plan"))
      case Success(plan) =>
        match plan.modules
        case Missing => Fail(500, TypeErrorNoModules)
        case NonArray => Fail(500, TypeErrorNotArray)
        case Items(ms) => Ok(plan.(modules := Items(ValidateModules(ms, now))))
  }

  /** A refused request is refused whatever the generator would say. */
  lemma RejectsBeforeGeneration(req: PlanRequest, model1: GenerationParams -> Result<string>,
                                model2: GenerationParams -> Result<string>,
                                parse1: string -> Option<PlanDraft>, parse2: string -> Option<PlanDraft>,
                                now1: nat, now2: nat)
    requires req.httpMethod != "POST" || req.examGoal == ""
    ensures GenerateFullPlan(req, model1, parse1, now1) == GenerateFullPlan(req, model2, parse2, now2)
    ensures GenerateFullPlan(req, model1, parse1, now1).Fail?
  {
  }

  /** A served plan is the generator's plan with its modules in the same
      number and order, the first one active and the others pending, every
      module with an id, a priority, an estimated time and keywords. */
  lemma {:induction false} ServedPlanShape(req: PlanRequest, model: GenerationParams -> Result<string>,
                                           parse: string -> Option<PlanDraft>, now: nat)
    requires GenerateFullPlan(req, model, parse, now).Ok?
    ensures var reply := model(ParamsOf(req));
      var plan := GenerateFullPlan(req, model, parse, now).body;
      && reply.Success?
      && parse(Gemini.ExtractFencedJson(reply.value)).Some?
      && var d := parse(Gemini.ExtractFencedJson(reply.value)).value;
      && d.modules.Items?
      && plan.planTitle == d.planTitle
      && plan.modules.Items? && |plan.modules.items| == |d.modules.items|
      && (forall i :: 0 <= i < |plan.modules.items| ==>
            var m := plan.modules.items[i];
            && m.title == d.modules.items[i].title
            && (m.status == Active <==> i == 0) && m.status != Completed
            && m.id != "" && m.priority.Some? && m.estimatedTime != "" && !m.keywords.Missing?)
  {
    var reply := model(ParamsOf(req));
    var d := parse(Gemini.ExtractFencedJson(reply.value)).value;
    Gemini.ExamRepairShape(d.modules.items, now);
    ValidateAfterExamRepair(d.modules.items, now, now);
  }
}

=== FILE: gemini.dfy ===
/** The deterministic part of lib/gemini.ts: picking the JSON out of a model
    reply, repairing the modules of an exam plan, normalising a learning
    plan, choosing the tutor's system prompt and formatting the chat history
    sent with it. The model reply and `JSON.parse` are inputs. */
module Gemini {
  import opened Base
  import opened Domain

  // ---------------------------------------------------------------------
  // Locating the JSON in a reply

  const JsonFence := "```json\n"
  const BareFence := "```\n"
  const FenceClose := "\n```"

  /** The capture of `<opener>([\s\S]*?)\n```` at its leftmost match: the
      text from the first opener up to the first closing fence after it. */
  function FenceCapture(text: string, opener: string): (r: Option<string>)
  {
    match IndexOf(text, opener, 0)
    case None => None
    case Some(p) => CaptureFrom(text, p + |opener|)
  }

  /** The text from `start` up to the first closing fence after it. */
  function CaptureFrom(text: string, start: nat): Option<string>
    requires start <= |text|
  {
    match IndexOf(text, FenceClose, start)
    case None => None
    case Some(q) => Some(text[start..q])
  }

  /** The string handed to `JSON.parse` by the exam-plan generator: the body
      of the first ```` ```json ```` block, else of the first bare fenced
      block, else the whole reply; an empty body also falls back to the
      whole reply. */
  function ExtractFencedJson(text: string): string
  {
    var m := match FenceCapture(text, JsonFence)
      case Some(c) => Some(c)
      case None => FenceCapture(text, BareFence);
    match m
    case None => text
    case Some(c) => Or(c, text)
  }

  /** A reply without a backtick is parsed as it stands. */
  lemma {:induction false} ExtractFencedJsonNoFence(text: string)
    requires forall i :: 0 <= i < |text| ==> text[i] != '`'
    ensures ExtractFencedJson(text) == text
  {
    NotContainsFirstCharAbsent(text, JsonFence);
    NotContainsFirstCharAbsent(text, BareFence);
  }

  /** The leftmost fenced block is found exactly: when nothing before it has
      a backtick and its body has no closing fence, the capture is the body. */
  lemma {:induction false} FenceCaptureOfBlock(pre: string, opener: string, body: string, post: string)
    requires |opener| > 0 && opener[0] == '`'
    requires forall i :: 0 <= i < |pre| ==> pre[i] != '`'
    requires !Contains(body, FenceClose)
    ensures FenceCapture(pre + opener + body + FenceClose + post, opener) == Some(body)
  {
    var text := pre + opener + body + FenceClose + post;
    var start := |pre| + |opener|;
    assert pre + opener <= text;
    assert text[start..start + |body|] == body;
    assert text[start + |body|..start + |body| + |FenceClose|] == FenceClose;
    CaptureOfLayout(text, pre, opener, body);
  }

  /** The same, stated on the positions of the pieces in the text. */
  lemma CaptureOfLayout(text: string, pre: string, opener: string, body: string)
    requires |opener| > 0 && opener[0] == '`'
    requires forall i :: 0 <= i < |pre| ==> pre[i] != '`'
    requires !Contains(body, FenceClose)
    requires pre + opener <= text
    requires |pre| + |opener| + |body| + |FenceClose| <= |text|
    requires text[|pre| + |opener|..|pre| + |opener| + |body|] == body
    requires text[|pre| + |opener| + |body|..|pre| + |opener| + |body| + |FenceClose|] == FenceClose
    ensures FenceCapture(text, opener) == Some(body)
  {
    var start := |pre| + |opener|;
    OpenerFirstAt(text, pre, opener);
    CloseFirstAt(text, start, body);
    FenceCaptureAt(text, opener, |pre|);
    CaptureFromAt(text, start, start + |body|);
  }

  /** Once the opener is located, the capture starts right after it. */
  lemma FenceCaptureAt(text: string, opener: string, p: nat)
    requires IndexOf(text, opener, 0) == Some(p)
    ensures p + |opener| <= |text|
    ensures FenceCapture(text, opener) == CaptureFrom(text, p + |opener|)
  {
  }

  /** Once the closing fence is located, the capture ends right before it. */
  lemma CaptureFromAt(text: string, start: nat, q: nat)
    requires start <= |text|
    requires IndexOf(text, FenceClose, start) == Some(q)
    ensures start <= q <= |text|
    ensures CaptureFrom(text, start) == Some(text[start..q])
  {
  }

  /** An opener preceded by text without a backtick is found where it is. */
  lemma OpenerFirstAt(text: string, pre: string, opener: string)
    requires |opener| > 0 && opener[0] == '`'
    requires forall i :: 0 <= i < |pre| ==> pre[i] != '`'
    requires pre + opener <= text
    ensures IndexOf(text, opener, 0) == Some(|pre|)
  {
    assert text[|pre|..|pre| + |opener|] == (pre + opener)[|pre|..] == opener;
    forall k: nat | k < |pre| ensures !OccursAt(text, opener, k) {
      assert text[k] == pre[k];
      if k + |opener| <= |text| {
        assert text[k..k + |opener|][0] == text[k];
      }
    }
    IndexOfIs(text, opener, 0, |pre|);
  }

  /** The first closing fence after `start` is the one right after a body
      that holds none. */
  lemma CloseFirstAt(text: string, start: nat, body: string)
    requires start + |body| + |FenceClose| <= |text|
    requires text[start..start + |body|] == body
    requires text[start + |body|..start + |body| + |FenceClose|] == FenceClose
    requires !Contains(body, FenceClose)
    ensures IndexOf(text, FenceClose, start) == Some(start + |body|)
  {
    var end := start + |body|;
    ContainsIff(body, FenceClose);
    forall i | start <= i < end ensures text[i] == body[i - start] {
      assert text[i] == text[start..end][i - start];
    }
    forall k: nat | start <= k < end ensures !OccursAt(text, FenceClose, k) {
      if k + 4 <= end {
        assert text[k..k + 4] == body[k - start..k - start + 4];
        assert !OccursAt(body, FenceClose, k - start);
      } else if k + 4 <= |text| {
        // The closing fence's newline would sit at a backtick of the pattern.
        assert text[end] == FenceClose[0] == '\n';
        assert text[k..k + 4][end - k] == text[end];
        assert FenceClose[end - k] == '`';
      }
    }
    IndexOfIs(text, FenceClose, start, end);
  }

  /** A reply whose first fenced block is ```` ```json ```` yields that
      block's body. */
  lemma {:induction false} ExtractFencedJsonOfJsonBlock(pre: string, body: string, post: string)
    requires forall i :: 0 <= i < |pre| ==> pre[i] != '`'
    requires body != "" && !Contains(body, FenceClose)
    ensures ExtractFencedJson(pre + JsonFence + body + FenceClose + post) == body
  {
    FenceCaptureOfBlock(pre, JsonFence, body, post);
  }

  /** Without a ```` ```json ```` block, the body of a bare fenced block is
      used. */
  lemma {:induction false} ExtractFencedJsonOfBareBlock(pre: string, body: string, post: string)
    requires forall i :: 0 <= i < |pre| ==> pre[i] != '`'
    requires body != "" && !Contains(body, FenceClose)
    requires !Contains(pre + BareFence + body + FenceClose + post, JsonFence)
    ensures ExtractFencedJson(pre + BareFence + body + FenceClose + post) == body
  {
    var text := pre + BareFence + body + FenceClose + post;
    assert FenceCapture(text, JsonFence) == None;
    FenceCaptureOfBlock(pre, BareFence, body, post);
  }

  /** The string the learning-plan generator parses: the leftmost match of
      `\{[\s\S]*\}`, which runs from the first `{` to the last `}` after it,
      or the whole reply when there is no such match. */
  function ExtractBraced(text: string): (r: string)
    ensures r == text || (|r| >= 2 && r[0] == '{' && r[|r| - 1] == '}')
  {
    match IndexOf(text, "{", 0)
    case None => text
    case Some(p) =>
      match LastIndexOfChar(text, '}')
      case None => text
      case Some(q) => if p < q then text[p..q + 1] else text
  }

  /** An object surrounded by text without braces is cut out exactly. */
  lemma {:induction false} ExtractBracedOfObject(pre: string, body: string, post: string)
    requires forall i :: 0 <= i < |pre| ==> pre[i] != '{'
    requires forall i :: 0 <= i < |post| ==> post[i] != '}'
    ensures ExtractBraced(pre + "{" + body + "}" + post) == "{" + body + "}"
  {
    var text := pre + "{" + body + "}" + post;
    var q := |pre| + 1 + |body|;
    assert text[|pre|..|pre| + 1] == "{";
    forall k: nat | k < |pre| ensures !OccursAt(text, "{", k) {
      assert text[k..k + 1][0] == text[k] == pre[k];
    }
    IndexOfIs(text, "{", 0, |pre|);
    assert text[q] == '}';
    forall k | q < k < |text| ensures text[k] != '}' {
      assert text[k] == post[k - q - 1];
    }
    assert LastIndexOfChar(text, '}') == Some(q);
    var obj := "{" + body + "}";
    assert text == pre + obj + post;
    assert text[|pre|..q + 1] == obj by {
      forall k | 0 <= k < |obj| ensures text[|pre| + k] == obj[k] { }
    }
  }

  // ---------------------------------------------------------------------
  // Exam preparation plan

  /** The keywords an exam-plan module without any gets. */
  function ExamKeywords(title: string): (r: seq<string>)
    ensures |r| == 4 && r[0] == title
  {
    [title, title + " exam questions", title + " practice problems", title + " quick tutorial"]
  }

  /** The priority an exam-plan module without one gets by position. */
  function ExamPriority(index: nat): Priority
  {
    if index < 2 then Critical else if index < 4 then Important else Helpful
  }

  /** One module of an exam plan after repair. An empty keyword array is
      truthy in JavaScript and is kept; only an absent one is replaced. */
  function RepairExamModule(m: Module, index: nat, now: nat): (r: Module)
    ensures r.title == m.title && r.description == m.description
    ensures r.id == Or(m.id, DefaultModuleId(index, now)) && r.id != ""
    ensures r.status == (if index == 0 then Active else Pending)
    ensures m.priority.Some? ==> r.priority == m.priority
    ensures m.priority.None? ==> r.priority == Some(ExamPriority(index))
    ensures r.estimatedTime == Or(m.estimatedTime, "30-45 minutes") && r.estimatedTime != ""
    ensures r.keyConceptsPreview == m.keyConceptsPreview
    ensures r.keywords == (if m.keywords.Missing? then Items(ExamKeywords(m.title)) else m.keywords)
  {
    m.(id := Or(m.id, DefaultModuleId(index, now)),
       status := if index == 0 then Active else Pending,
       priority := if m.priority.Some? then m.priority else Some(ExamPriority(index)),
       estimatedTime := Or(m.estimatedTime, "30-45 minutes"),
       keywords := if m.keywords.Missing? then Items(ExamKeywords(m.title)) else m.keywords)
  }

  /** The exam-plan repair of a module array, position by position. */
  function RepairExamModules(ms: seq<Module>, now: nat): (r: seq<Module>)
    ensures |r| == |ms|
    ensures forall i :: 0 <= i < |ms| ==> r[i] == RepairExamModule(ms[i], i, now)
  {
    seq(|ms|, i requires 0 <= i < |ms| => RepairExamModule(ms[i], i, now))
  }

  /** Repair keeps the modules' number and order, makes exactly the first
      one active, and leaves no id, priority, time or keyword list absent. */
  lemma ExamRepairShape(ms: seq<Module>, now: nat)
    ensures var r := RepairExamModules(ms, now);
      && |r| == |ms|
      && (forall i :: 0 <= i < |r| ==> r[i].title == ms[i].title && r[i].description == ms[i].description)
      && (forall i :: 0 <= i < |r| ==> (r[i].status == Active <==> i == 0))
      && (forall i :: 0 <= i < |r| ==> r[i].status != Completed)
      && (forall i :: 0 <= i < |r| ==> r[i].id != "" && r[i].priority.Some? && r[i].estimatedTime != "" && !r[i].keywords.Missing?)
  {
  }

  /** Repairing a repaired plan again, at any time, changes nothing. */
  lemma ExamRepairIdempotent(ms: seq<Module>, now: nat, later: nat)
    ensures RepairExamModules(RepairExamModules(ms, now), later) == RepairExamModules(ms, now)
  {
  }

  /** `generateExamPrepPlan` after the model has replied: a failed model
      call is passed on; a reply that does not parse fails with a fixed
      message; a parsed plan has its modules repaired when they form an
      array and is returned untouched otherwise. */
  function ExamPrepPlan(reply: Result<string>, parse: string -> Option<PlanDraft>, now: nat): (r: Result<PlanDraft>)
    ensures reply.Failure? ==> r == Failure(reply.error)
    ensures reply.Success? && parse(ExtractFencedJson(reply.value)).None? ==>
      r == Failure("Failed to generate a valid exam preparation plan")
    ensures reply.Success? && parse(ExtractFencedJson(reply.value)).Some? ==>
      var d := parse(ExtractFencedJson(reply.value)).value;
      && r.Success?
      && r.value.planTitle == d.planTitle && r.value.description == d.description
      && (d.modules.Items? ==> r.value.modules == Items(RepairExamModules(d.modules.items, now)))
      && (!d.modules.Items? ==> r.value == d)
  {
    match reply
    case Failure(e) => Failure(e)
    case Success(text) =>
      match parse(ExtractFencedJson(text))
      case None => Failure("Failed to generate a valid exam preparation plan")
      case Some(d) =>
        if d.modules.Items? then Success(d.(modules := Items(RepairExamModules(d.modules.items, now))))
        else Success(d)
  }

  // ---------------------------------------------------------------------
  // Learning plan

  /** The fields `generateLearningPlan` reads from the parsed reply. */
  datatype RawPlan = RawPlan(title: string, planTitle: string, description: string, modules: JsonList<Module>)

  /** A module of a learning plan after normalisation: only id, title,
      description, keywords and status survive. */
  function NormalizeLearningModule(m: Module, index: nat, now: nat): (r: Module)
    ensures r.id == Or(m.id, DefaultModuleId(index, now)) && r.id != ""
    ensures r.title == Or(m.title, "Module " + NatToString(index + 1)) && r.title != ""
    ensures r.description == m.description
    ensures r.status == Pending
    ensures r.priority.None? && r.estimatedTime == "" && r.keyConceptsPreview == ""
    ensures m.keywords.Items? && |m.keywords.items| > 0 ==> r.keywords == m.keywords
    ensures !(m.keywords.Items? && |m.keywords.items| > 0) ==> r.keywords == Items(LearnKeywords(m.title))
  {
    var keywords := if m.keywords.Items? && |m.keywords.items| > 0 then m.keywords else Items(LearnKeywords(m.title));
    Module(Or(m.id, DefaultModuleId(index, now)), Or(m.title, "Module " + NatToString(index + 1)),
           m.description, Pending, None, "", "", keywords)
  }

  function NormalizeLearningModules(ms: seq<Module>, now: nat): (r: seq<Module>)
    ensures |r| == |ms|
    ensures forall i :: 0 <= i < |ms| ==> r[i] == NormalizeLearningModule(ms[i], i, now)
  {
    seq(|ms|, i requires 0 <= i < |ms| => NormalizeLearningModule(ms[i], i, now))
  }

  /** `generateLearningPlan` after the model has replied: a reply that does
      not parse fails with a fixed message; otherwise the title falls back
      from `title` to `planTitle` to the goal, and the modules are
      normalised (none when the reply has no module array). */
  function LearningPlanOf(reply: Result<string>, parse: string -> Option<RawPlan>, goal: string, now: nat): (r: Result<LearningPlan>)
    ensures reply.Failure? ==> r == Failure(reply.error)
    ensures reply.Success? && parse(ExtractBraced(reply.value)).None? ==>
      r == Failure("Failed to parse learning plan response")
    ensures reply.Success? && parse(ExtractBraced(reply.value)).Some? ==>
      var p := parse(ExtractBraced(reply.value)).value;
      && r.Success?
      && r.value.planTitle == Or(Or(p.title, p.planTitle), goal)
      && r.value.description == p.description
      && r.value.modules == (if p.modules.Items? then NormalizeLearningModules(p.modules.items, now) else [])
  {
    match reply
    case Failure(e) => Failure(e)
    case Success(text) =>
      match parse(ExtractBraced(text))
      case None => Failure("Failed to parse learning plan response")
      case Some(p) =>
        var modules := if p.modules.Items? then NormalizeLearningModules(p.modules.items, now) else [];
        Success(LearningPlan(Or(Or(p.title, p.planTitle), goal), p.description, modules))
  }

  /** A normalised learning plan: every module pending, with an id, a title
      and a non-empty keyword array; as many modules as the reply's array;
      no modules when the reply has none; a title taken from the reply's
      `title`, else its `planTitle`, else the goal. */
  lemma LearningPlanShape(text: string, parse: string -> Option<RawPlan>, goal: string, now: nat)
    requires parse(ExtractBraced(text)).Some?
    ensures var p := parse(ExtractBraced(text)).value;
      var plan := LearningPlanOf(Success(text), parse, goal, now).value;
      && (p.modules.Items? ==> |plan.modules| == |p.modules.items|)
      && (!p.modules.Items? ==> plan.modules == [])
      && (forall i :: 0 <= i < |plan.modules| ==>
            && plan.modules[i].status == Pending
            && plan.modules[i].id != "" && plan.modules[i].title != ""
            && plan.modules[i].keywords.Items? && |plan.modules[i].keywords.items| > 0)
      && plan.planTitle == (if p.title != "" then p.title else if p.planTitle != "" then p.planTitle else goal)
  {
  }

  /** Normalising normalised modules again changes nothing. */
  lemma LearningNormalizationIdempotent(ms: seq<Module>, now: nat, later: nat)
    ensures NormalizeLearningModules(NormalizeLearningModules(ms, now), later) == NormalizeLearningModules(ms, now)
  {
  }

  // ---------------------------------------------------------------------
  // Tutor context

  /** What the tutor is told about the resource being studied. */
  datatype ResourceInfo = ResourceInfo(title: string, kind: ResourceType, watched: Option<bool>, read: Option<bool>)

  /** The three system prompts, by what they are built from. */
  datatype SystemPrompt =
    | DocumentPrompt(documentContent: string)
    | ModulePrompt(moduleTitle: string, moduleDescription: string, resource: Option<ResourceInfo>)
    | GenericPrompt

  /** The system prompt `getChatTutorResponse` chooses: document mode wins,
      then an active module, then the generic companion. */
  function SelectPrompt(isDocumentMode: bool, documentContent: string, activeModule: Option<Module>,
                        activeResource: Option<ResourceInfo>): (r: SystemPrompt)
    ensures isDocumentMode ==> r == DocumentPrompt(documentContent)
    ensures !isDocumentMode && activeModule.Some? ==>
      r == ModulePrompt(activeModule.value.title, activeModule.value.description, activeResource)
    ensures !isDocumentMode && activeModule.None? ==> r == GenericPrompt
  {
    if isDocumentMode then DocumentPrompt(documentContent)
    else if activeModule.Some? then ModulePrompt(activeModule.value.title, activeModule.value.description, activeResource)
    else GenericPrompt
  }

  /** The status line of the resource block: watched or not for a video,
      read or not for anything else. */
  function ResourceStatus(r: ResourceInfo): (s: string)
    ensures r.kind == YouTube ==> s == (if r.watched == Some(true) then "Watched" else "Not watched yet")
    ensures r.kind != YouTube ==> s == (if r.read == Some(true) then "Read" else "Not read yet")
  {
    match r.kind
    case YouTube => if r.watched == Some(true) then "Watched" else "Not watched yet"
    case Article => if r.read == Some(true) then "Read" else "Not read yet"
  }

  function KindName(k: ResourceType): string
  {
    match k
    case YouTube => "youtube"
    case Article => "article"
  }

  const Marker := "learning companion AI"
  const DocumentIntro := "You are an expert " + Marker + " that helps users understand documents and study materials."
  const ModuleIntro := "You are LearnSpark AI, a friendly and concise learning companion helping with the module: \""
  const GenericIntro := "You are an expert " + Marker + " that helps users achieve their learning goals."

  /** The resource block of the module prompt, empty without a resource. */
  function ResourceBlock(resource: Option<ResourceInfo>): string
  {
    match resource
    case None => ""
    case Some(r) => "\nACTIVE RESOURCE: " + r.title + " (" + KindName(r.kind) + ")\nRESOURCE STATUS: " + ResourceStatus(r)
  }

  /** The identifying lines of each system prompt: its opening sentence and
      the text it embeds. */
  function PromptText(p: SystemPrompt): string
  {
    match p
    case DocumentPrompt(content) => DocumentIntro + "\nDOCUMENT CONTENT:\n" + content
    case ModulePrompt(title, description, resource) =>
      ModuleIntro + title + "\"\nCURRENT MODULE: " + title + "\nMODULE DESCRIPTION: " + description + ResourceBlock(resource)
    case GenericPrompt => GenericIntro
  }

  /** The document and generic prompts carry the marker that stops the
      prompt from being sent twice. */
  lemma {:induction false} PromptMarked(p: SystemPrompt)
    requires !p.ModulePrompt?
    ensures Contains(PromptText(p), Marker)
  {
    var tail := if p.DocumentPrompt? then " that helps users understand documents and study materials." + "\nDOCUMENT CONTENT:\n" + p.documentContent
                else " that helps users achieve their learning goals.";
    PrefixContained(Marker, Marker);
    ContainsInside("You are an expert ", Marker, tail, Marker);
    assert PromptText(p) == "You are an expert " + Marker + tail;
  }

  /** A message of the chat history as the client sends it. */
  datatype HistoryEntry = HistoryEntry(role: string, content: string)

  datatype TurnRole = UserTurn | ModelTurn

  /** A turn of the history handed to the model. */
  datatype Turn = Turn(role: TurnRole, text: string)

  /** The history re-tagged for the model: `user` stays the user, every
      other role becomes the model. */
  function MapHistory(history: seq<HistoryEntry>): (r: seq<Turn>)
    ensures |r| == |history|
    ensures forall i :: 0 <= i < |history| ==>
      r[i].text == history[i].content && (r[i].role == UserTurn <==> history[i].role == "user")
  {
    seq(|history|, i requires 0 <= i < |history| =>
      Turn(if history[i].role == "user" then UserTurn else ModelTurn, history[i].content))
  }

  /** Whether the system prompt goes in front: when the history is empty or
      does not open with a model turn carrying the marker. */
  predicate NeedsSystemPrompt(history: seq<HistoryEntry>)
  {
    |history| == 0 || history[0].role == "user" || !Contains(history[0].content, Marker)
  }

  /** The history `getChatTutorResponse` starts the chat with. */
  method FormatHistory(history: seq<HistoryEntry>, systemPrompt: string) returns (formatted: seq<Turn>)
    ensures NeedsSystemPrompt(history) ==> formatted == [Turn(ModelTurn, systemPrompt)] + MapHistory(history)
    ensures !NeedsSystemPrompt(history) ==> formatted == MapHistory(history)
    ensures |formatted| == |history| || |formatted| == |history| + 1
    ensures |formatted| > 0 && formatted[0].role == ModelTurn
  {
    formatted := MapHistory(history);
    if |formatted| == 0 || formatted[0].role != ModelTurn || !Contains(formatted[0].text, Marker) {
      formatted := [Turn(ModelTurn, systemPrompt)] + formatted;
    }
  }

  /** A history that already opens with a document or generic prompt, sent
      back by the model, does not get a second one. */
  lemma {:induction false} MarkedPromptNotRepeated(p: SystemPrompt, rest: seq<HistoryEntry>, role: string)
    requires !p.ModulePrompt? && role != "user"
    ensures !NeedsSystemPrompt([HistoryEntry(role, PromptText(p))] + rest)
  {
    PromptMarked(p);
  }
}

=== FILE: goal_input.dfy ===
/** The three-step goal form of components/GoalInput.tsx: goal, time
    available, prior knowledge. Submitting the last step asks the
    generate-full-plan route for a plan, falls back to a fixed three-module
    plan when the answer has none, repairs the modules and stores the plan in
    the session. The route's answer is an input. */
module GoalInput {
  import opened Base
  import opened Domain
  import opened AppContext
  import Gemini
  import FullPlan

  // ---------------------------------------------------------------------
  // The plan the form stores

  /** The description given to a plan without one. */
  function FallbackDescription(goal: string, timeConstraint: string): string
  {
    "Focused study plan for " + goal + " with " + Or(timeConstraint, "limited") + " time available."
  }

  const CoreConcepts := "Core Concepts"
  const CommonProblems := "Common Problems"
  const AdvancedTopics := "Advanced Topics"
  const CoreDescription := "Essential concepts for "
  const CoreDescriptionEnd := " that you must master"
  const ProblemsDescription := "Typical problems and their solutions"
  const AdvancedDescription := "More complex aspects if time permits"
  const CoreContent := "Fundamental principles and key definitions"
  const ProblemsContent := "Problem-solving techniques and common challenges"
  const AdvancedContent := "Advanced applications and edge cases"

  /** The plan used when the answer carries no plan or no modules. */
  function FallbackPlan(goal: string, timeConstraint: string, now: nat): (p: PlanDraft)
    ensures p.modules.Items? && |p.modules.items| == 3
  {
    PlanDraft(goal + " Rapid Revision Plan", FallbackDescription(goal, timeConstraint), Items([
      Module(DefaultModuleId(0, now), CoreConcepts, CoreDescription + goal + CoreDescriptionEnd,
             Active, Some(Critical), "60 minutes", CoreContent,
             Items([goal, goal + " basics", goal + " core concepts"])),
      Module(DefaultModuleId(1, now), CommonProblems, ProblemsDescription,
             Pending, Some(Important), "45 minutes", ProblemsContent,
             Items([goal + " problems", goal + " examples", goal + " practice"])),
      Module(DefaultModuleId(2, now), AdvancedTopics, AdvancedDescription,
             Pending, Some(Helpful), "30 minutes", AdvancedContent,
             Items([goal + " advanced", goal + " expert level", goal + " deep dive"]))]))
  }

  /** The priority the form gives a module without one, by position. */
  function GoalPriority(index: nat): Priority
  {
    if index == 0 then Critical else if index < 3 then Important else Helpful
  }

  function Max(a: int, b: int): int
  {
    if a < b then b else a
  }

  /** The time estimate the form gives a module without one:
      `max(30, 60 - 10 * index)` minutes. */
  function DefaultMinutes(index: nat): (r: nat)
    ensures r == Max(30, 60 - 10 * index)
  {
    Max(30, 60 - 10 * index)
  }

  /** One module after the form's repair. */
  function ProcessModule(m: Module, index: nat, goal: string, now: nat): (r: Module)
    ensures r.title == m.title && r.description == m.description && r.keyConceptsPreview == m.keyConceptsPreview
    ensures r.id == Or(m.id, DefaultModuleId(index, now)) && r.id != ""
    ensures r.status == (if index == 0 then Active else Pending)
    ensures m.priority.Some? ==> r.priority == m.priority
    ensures m.priority.None? ==> r.priority == Some(GoalPriority(index))
    ensures r.estimatedTime == Or(m.estimatedTime, NatToString(DefaultMinutes(index)) + " minutes") && r.estimatedTime != ""
    ensures r.keywords == (if m.keywords.Missing? then Items([m.title, goal, "exam prep"]) else m.keywords)
  {
    m.(id := Or(m.id, DefaultModuleId(index, now)),
       status := if index == 0 then Active else Pending,
       priority := if m.priority.Some? then m.priority else Some(GoalPriority(index)),
       estimatedTime := Or(m.estimatedTime, NatToString(DefaultMinutes(index)) + " minutes"),
       keywords := if m.keywords.Missing? then Items([m.title, goal, "exam prep"]) else m.keywords)
  }

  /** `processedModules`. */
  function ProcessModules(ms: seq<Module>, goal: string, now: nat): (r: seq<Module>)
    ensures |r| == |ms|
    ensures forall i :: 0 <= i < |ms| ==> r[i] == ProcessModule(ms[i], i, goal, now)
  {
    seq(|ms|, i requires 0 <= i < |ms| => ProcessModule(ms[i], i, goal, now))
  }

  /** Repair keeps the modules' number and order and makes exactly the
      first one active, whatever status the modules arrived with. */
  lemma ProcessModulesShape(ms: seq<Module>, goal: string, now: nat)
    ensures var r := ProcessModules(ms, goal, now);
      && |r| == |ms|
      && (forall i :: 0 <= i < |r| ==> r[i].title == ms[i].title)
      && (forall i :: 0 <= i < |r| ==> (r[i].status == Active <==> i == 0))
      && (forall i :: 0 <= i < |r| ==> r[i].status != Completed)
      && (forall i :: 0 <= i < |r| ==> r[i].id != "" && r[i].priority.Some? && r[i].estimatedTime != "" && !r[i].keywords.Missing?)
  {
  }

  /** Repairing repaired modules again changes nothing. */
  lemma ProcessModulesIdempotent(ms: seq<Module>, goal: string, now: nat, later: nat)
    ensures ProcessModules(ProcessModules(ms, goal, now), goal, later) == ProcessModules(ms, goal, now)
  {
  }

  /** The generator and the form default a missing priority differently:
      they disagree exactly at positions 1 and 3. */
  lemma PriorityDefaultsDiffer(index: nat)
    ensures Gemini.ExamPriority(index) != GoalPriority(index) <==> index == 1 || index == 3
  {
  }

  /** Modules repaired by the exam-plan generator pass the form's repair
      unchanged: it only fills what the generator already filled. */
  lemma {:induction false} ProcessAfterExamRepair(ms: seq<Module>, now: nat, goal: string, later: nat)
    ensures ProcessModules(Gemini.RepairExamModules(ms, now), goal, later) == Gemini.RepairExamModules(ms, now)
  {
    var r := Gemini.RepairExamModules(ms, now);
    forall i | 0 <= i < |r| ensures ProcessModule(r[i], i, goal, later) == r[i] {
      assert r[i] == Gemini.RepairExamModule(ms[i], i, now);
    }
  }

  /** So a plan the route serves is stored with its modules as served. */
  lemma {:induction false} ServedPlanKept(req: FullPlan.PlanRequest, model: FullPlan.GenerationParams -> Result<string>,
                                          parse: string -> Option<PlanDraft>, now: nat, goal: string, later: nat)
    requires FullPlan.GenerateFullPlan(req, model, parse, now).Ok?
    ensures var plan := FullPlan.GenerateFullPlan(req, model, parse, now).body;
      plan.modules.Items? && ProcessModules(plan.modules.items, goal, later) == plan.modules.items
  {
    var reply := model(FullPlan.ParamsOf(req));
    var d := parse(Gemini.ExtractFencedJson(reply.value)).value;
    var repaired := Gemini.RepairExamModules(d.modules.items, now);
    FullPlan.ValidateAfterExamRepair(d.modules.items, now, now);
    ProcessAfterExamRepair(d.modules.items, now, goal, later);
  }

  /** `updatedPlan`: the title and description fall back to goal-based
      texts. */
  function UpdatedPlan(d: PlanDraft, goal: string, timeConstraint: string, modules: seq<Module>): (p: LearningPlan)
    ensures p.planTitle == Or(d.planTitle, goal + " Rapid Revision Plan")
    ensures p.description == Or(d.description, FallbackDescription(goal, timeConstraint))
    ensures p.modules == modules
  {
    LearningPlan(Or(d.planTitle, goal + " Rapid Revision Plan"), Or(d.description, FallbackDescription(goal, timeConstraint)), modules)
  }

  /** What the route answered, as the form sees it. */
  datatype PlanReply =
    | NotOk(status: nat, statusText: string)
    | Threw(message: string)
    | Body(learningPlan: Option<PlanDraft>)

  const TypeErrorNotArray := "data.learningPlan.modules.map is not a function"

  /** The plan the form stores for an answer, or the error it shows. */
  function KnowledgeOutcome(reply: PlanReply, goal: string, timeConstraint: string, now: nat): (r: Result<LearningPlan>)
    ensures reply.NotOk? ==>
      r == Failure("Failed to generate plan: " + NatToString(reply.status) + " " + reply.statusText)
    ensures reply.Threw? ==> r == Failure(Or(reply.message, "Failed to generate learning plan"))
    ensures r.Failure? ==> r.error != ""
    ensures r.Success? ==> reply.Body?
    ensures reply.Body? && reply.learningPlan.Some? && reply.learningPlan.value.modules.Items? ==>
      var d := reply.learningPlan.value;
      r == Success(UpdatedPlan(d, goal, timeConstraint, ProcessModules(d.modules.items, goal, now)))
    ensures reply.Body? && reply.learningPlan.Some? && reply.learningPlan.value.modules.NonArray? ==>
      r == Failure(TypeErrorNotArray)
  {
    match reply
    case NotOk(status, text) => Failure("Failed to generate plan: " + NatToString(status) + " " + text)
    case Threw(message) => Failure(Or(message, "Failed to generate learning plan"))
    case Body(p) =>
      var d := if p.None? || p.value.modules.Missing? then FallbackPlan(goal, timeConstraint, now) else p.value;
      match d.modules
      case Items(ms) => Success(UpdatedPlan(d, goal, timeConstraint, ProcessModules(ms, goal, now)))
      case Missing => Failure(TypeErrorNotArray)
      case NonArray => Failure(TypeErrorNotArray)
  }

  /** An answer without a plan, or with a plan without modules, yields the
      fallback plan: Core Concepts (critical, active), Common Problems
      (important, pending), Advanced Topics (helpful, pending). */
  lemma {:induction false} FallbackOutcome(reply: PlanReply, goal: string, timeConstraint: string, now: nat)
    requires reply.Body? && (reply.learningPlan.None? || reply.learningPlan.value.modules.Missing?)
    ensures var r := KnowledgeOutcome(reply, goal, timeConstraint, now);
      && r.Success?
      && r.value.planTitle == goal + " Rapid Revision Plan"
      && |r.value.modules| == 3
      && [r.value.modules[0].title, r.value.modules[1].title, r.value.modules[2].title]
         == [CoreConcepts, CommonProblems, AdvancedTopics]
      && [r.value.modules[0].priority, r.value.modules[1].priority, r.value.modules[2].priority]
         == [Some(Critical), Some(Important), Some(Helpful)]
      && [r.value.modules[0].status, r.value.modules[1].status, r.value.modules[2].status]
         == [Active, Pending, Pending]
      && r.value.modules == FallbackPlan(goal, timeConstraint, now).modules.items
  {
    var fb := FallbackPlan(goal, timeConstraint, now).modules.items;
    var r := ProcessModules(fb, goal, now);
    assert r[0] == fb[0] && r[1] == fb[1] && r[2] == fb[2];
  }

  // ---------------------------------------------------------------------
  // The form

  datatype FormState = FormState(
    examGoal: string,
    priorKnowledge: string,
    timeConstraint: string,
    step: nat,
    error: string,
    submitting: bool)

  const GoalRequired := "Please enter what exam or interview you're preparing for"
  const DemoGoal := "Data Structures and Algorithms final exam"

  /** The request body the last step sends; no syllabus is ever attached. */
  function RequestOf(f: FormState): (req: FullPlan.PlanRequest)
    ensures req.timeConstraint == Or(f.timeConstraint, "24 hours")
  {
    FullPlan.PlanRequest("POST", f.examGoal, f.priorKnowledge, Or(f.timeConstraint, "24 hours"), "")
  }

  /** The form's request reaches the generator with the time constraint the
      user typed, or 24 hours, and passes the route's checks whenever a goal
      was given. */
  lemma RequestAccepted(f: FormState)
    ensures FullPlan.ParamsOf(RequestOf(f)).timeConstraint == Or(f.timeConstraint, "24 hours")
    ensures f.examGoal != "" ==> RequestOf(f).httpMethod == "POST" && RequestOf(f).examGoal != ""
  {
  }

  /** The session after the last step: the goal and knowledge are stored,
      the plan and its first module too when there is a plan, and plan
      generation is over. */
  function AfterKnowledge(st: SessionState, goal: string, knowledge: string, out: Result<LearningPlan>): SessionState
  {
    var st' := st.(userKnowledge := knowledge, userGoal := goal, generatingPlan := false);
    match out
    case Failure(_) => st'
    case Success(plan) =>
      if |plan.modules| > 0 then st'.(plan := Some(plan), activeModule := Some(plan.modules[0]))
      else st'.(plan := Some(plan))
  }

  /** The form stores a plan exactly when the route answered with a body
      whose plan, if any, does not carry a non-array module list; the
      stored modules are the answer's (or the fallback's) in the same
      number and order, exactly the first one active, each with an id and
      a priority. */
  lemma {:induction false} KnowledgeOutcomeShape(reply: PlanReply, goal: string, timeConstraint: string, now: nat)
    ensures var r := KnowledgeOutcome(reply, goal, timeConstraint, now);
      && (r.Success? <==> reply.Body? && !(reply.learningPlan.Some? && reply.learningPlan.value.modules.NonArray?))
      && (r.Success? ==> forall i :: 0 <= i < |r.value.modules| ==> (r.value.modules[i].status == Active <==> i == 0))
      && (r.Success? ==> forall i :: 0 <= i < |r.value.modules| ==>
            r.value.modules[i].id != "" && r.value.modules[i].priority.Some?)
      && (r.Success? && reply.learningPlan.Some? && reply.learningPlan.value.modules.Items? ==>
            var ms := reply.learningPlan.value.modules.items;
            |r.value.modules| == |ms| && forall i :: 0 <= i < |ms| ==> r.value.modules[i].title == ms[i].title)
  {
    if reply.Body? {
      var p := reply.learningPlan;
      var d := if p.None? || p.value.modules.Missing? then FallbackPlan(goal, timeConstraint, now) else p.value;
      if d.modules.Items? {
        ProcessModulesShape(d.modules.items, goal, now);
      }
    }
  }

  /** A plan the route serves, handed back to the form, is stored with its
      modules exactly as served. */
  lemma {:induction false} ServedPlanStored(req: FullPlan.PlanRequest, model: FullPlan.GenerationParams -> Result<string>,
                                            parse: string -> Option<PlanDraft>, now: nat, goal: string,
                                            timeConstraint: string, later: nat)
    requires FullPlan.GenerateFullPlan(req, model, parse, now).Ok?
    ensures var plan := FullPlan.GenerateFullPlan(req, model, parse, now).body;
      && plan.modules.Items?
      && KnowledgeOutcome(Body(Some(plan)), goal, timeConstraint, later)
         == Success(UpdatedPlan(plan, goal, timeConstraint, plan.modules.items))
  {
    ServedPlanKept(req, model, parse, now, goal, later);
  }

  /** A stored plan makes its first module the active one, and that module
      is active. */
  lemma StoredPlanActivatesFirst(st: SessionState, goal: string, knowledge: string, reply: PlanReply, tc: string, now: nat)
    requires KnowledgeOutcome(reply, goal, tc, now).Success?
    requires |KnowledgeOutcome(reply, goal, tc, now).value.modules| > 0
    ensures var st' := AfterKnowledge(st, goal, knowledge, KnowledgeOutcome(reply, goal, tc, now));
      && st'.plan == Some(KnowledgeOutcome(reply, goal, tc, now).value)
      && st'.activeModule.Some? && st'.activeModule.value.status == Active
      && st'.activeModule.value == st'.plan.value.modules[0]
      && !st'.generatingPlan
  {
  }

  class GoalForm {
    var examGoal: string
    var priorKnowledge: string
    var timeConstraint: string
    var step: nat
    var error: string
    var submitting: bool
    const session: Session

    function Form(): FormState
      reads this
    {
      FormState(examGoal, priorKnowledge, timeConstraint, step, error, submitting)
    }

    constructor (session: Session)
      ensures Form() == FormState("", "", "", 1, "", false)
      ensures this.session == session
    {
      examGoal, priorKnowledge, timeConstraint := "", "", "";
      step, error, submitting := 1, "", false;
      this.session := session;
    }

    method EditGoal(s: string)
      modifies this
      ensures Form() == old(Form()).(examGoal := s)
    {
      examGoal := s;
    }

    method EditTimeConstraint(s: string)
      modifies this
      ensures Form() == old(Form()).(timeConstraint := s)
    {
      timeConstraint := s;
    }

    method EditKnowledge(s: string)
      modifies this
      ensures Form() == old(Form()).(priorKnowledge := s)
    {
      priorKnowledge := s;
    }

    /** `handleGoalSubmit`: a blank goal shows an error and stays put;
        otherwise the goal is stored and the form moves to step 2. */
    method SubmitGoal()
      modifies this, session
      ensures IsBlank(old(examGoal)) ==>
        Form() == old(Form()).(error := GoalRequired) && session.State() == old(session.State())
      ensures !IsBlank(old(examGoal)) ==>
        Form() == old(Form()).(step := 2, error := "")
        && session.State() == old(session.State()).(userGoal := examGoal)
    {
      if IsBlank(examGoal) {
        error := GoalRequired;
        return;
      }
      session.SetUserGoal(examGoal);
      step := 2;
      error := "";
    }

    /** `handleTimeConstraintSubmit`. */
    method SubmitTimeConstraint()
      modifies this
      ensures Form() == old(Form()).(step := 3, error := "")
    {
      step := 3;
      error := "";
    }

    /** The back button of the time step. */
    method BackToGoal()
      modifies this
      ensures Form() == old(Form()).(step := 1)
    {
      step := 1;
    }

    /** The back button of the knowledge step. */
    method BackToTimeConstraint()
      modifies this
      ensures Form() == old(Form()).(step := 2)
    {
      step := 2;
    }

    /** `handleTryDemo`: a fixed goal with 48 hours, on step 2. */
    method TryDemo()
      modifies this, session
      ensures Form() == old(Form()).(examGoal := DemoGoal, timeConstraint := "48 hours", step := 2)
      ensures session.State() == old(session.State()).(userGoal := DemoGoal)
    {
      examGoal := DemoGoal;
      session.SetUserGoal(DemoGoal);
      timeConstraint := "48 hours";
      step := 2;
    }

    /** `handleKnowledgeSubmit`: sends the request and stores the plan made
        from the answer, or shows the error. The chat messages it posts are
        not part of this model. */
    method SubmitKnowledge(reply: PlanReply, now: nat) returns (request: FullPlan.PlanRequest)
      modifies this, session
      ensures request == RequestOf(old(Form()))
      ensures var out := KnowledgeOutcome(reply, old(examGoal), old(timeConstraint), now);
        && Form() == old(Form()).(submitting := true, error := if out.Failure? then out.error else "")
        && session.State() == AfterKnowledge(old(session.State()), old(examGoal), old(priorKnowledge), out)
    {
      session.SetUserKnowledge(priorKnowledge);
      session.SetUserGoal(examGoal);
      session.SetGeneratingPlan(true);
      submitting := true;
      error := "";
      request := FullPlan.PlanRequest("POST", examGoal, priorKnowledge, Or(timeConstraint, "24 hours"), "");
      var out := KnowledgeOutcome(reply, examGoal, timeConstraint, now);
      match out {
        case Failure(message) =>
          error := message;
        case Success(plan) =>
          session.SetLearningPlan(plan);
          if |plan.modules| > 0 {
            session.SetActiveModule(Some(plan.modules[0]));
          }
      }
      session.SetGeneratingPlan(false);
    }
  }
}

=== FILE: module_item.dfy ===
/** One entry of the plan's module list, components/ModuleItem.tsx. A click
    expands or collapses it. Expanding it makes its module the active one,
    moves a pending module to active and asks the resource route for
    material. The entry's own state (expanded, practice questions shown) is
    a class; everything else is the shared `Session`. */
module ModuleItem {
  import opened Base
  import opened Domain
  import opened AppContext
  import FetchModuleResources
  import ModuleResources

  /** The module has a non-empty keyword list. */
  predicate HasKeywords(m: Module)
  {
    m.keywords.Items? && |m.keywords.items| > 0
  }

  /** The request this entry sends: the keywords go under `keywords` and
      no description is sent, so the route sees neither a description nor
      `searchKeywords`. */
  function ItemRequest(m: Module): FetchModuleResources.ResourceRequest
  {
    FetchModuleResources.ResourceRequest("POST", m.id, m.title, "", None)
  }

  /** The route refuses that request whatever the module. */
  lemma ItemRequestRejected(m: Module)
    ensures !FetchModuleResources.HasRequiredFields(ItemRequest(m))
  {
  }

  /** The session once the module is made active: a pending module is also
      set to active in the plan (which makes the updated copy the active
      module); any other status is left alone. */
  function Activate(st: SessionState, m: Module): (r: SessionState)
    ensures r.resources == st.resources && r.loadingResources == st.loadingResources
    ensures r.histories == st.histories && r.legacy == st.legacy
  {
    var st1 := st.(activeModule := Some(m));
    if m.status == Pending then ApplyModuleStatus(st1, m.id, Active) else st1
  }

  /** A module that is not pending is made active as it is, and the plan
      is not touched. */
  lemma ActivateKeepsStatus(st: SessionState, m: Module)
    requires m.status != Pending
    ensures Activate(st, m) == st.(activeModule := Some(m))
  {
  }

  /** A pending module of the plan becomes the active module with status
      active, and so does its entry in the plan. */
  lemma {:induction false} ActivatePending(st: SessionState, m: Module, j: nat)
    requires m.status == Pending
    requires st.plan.Some? && j < |st.plan.value.modules| && st.plan.value.modules[j].id == m.id
    ensures var r := Activate(st, m);
      && r.activeModule.Some? && r.activeModule.value.id == m.id && r.activeModule.value.status == Active
      && r.plan.Some? && r.plan.value.modules[j].status == Active
  {
    var st1 := st.(activeModule := Some(m));
    ApplyModuleStatusActivates(st1, m.id, Active, j);
    ApplyModuleStatusKeepsPlan(st1, m.id, Active);
  }

  /** The session after this entry's fetch: without keywords the resource
      list is emptied and nothing is sent; with keywords the list is
      replaced only by an ok reply carrying resources, and loading ends. */
  function AfterItemFetch(st: SessionState, m: Module, reply: ModuleResources.Reply<seq<Resource>>): (r: SessionState)
    ensures !HasKeywords(m) ==> r == st.(resources := [])
    ensures HasKeywords(m) ==> !r.loadingResources
    ensures HasKeywords(m) && !(reply.Some? && reply.value.Ok? && reply.value.body.Some?) ==>
      r == st.(loadingResources := false)
    ensures HasKeywords(m) && reply.Some? && reply.value.Ok? && reply.value.body.Some? ==>
      r == st.(loadingResources := false, resources := reply.value.body.value)
  {
    if !HasKeywords(m) then st.(resources := [])
    else
      match reply
      case Some(Ok(Some(rs))) => st.(loadingResources := false, resources := rs)
      case _ => st.(loadingResources := false)
  }

  /** The priority shown: a missing one is shown as helpful. */
  function DisplayedPriority(m: Module): (p: Priority)
    ensures m.priority.Some? ==> p == m.priority.value
    ensures m.priority.None? ==> p == Helpful
  {
    if m.priority.Some? then m.priority.value else Helpful
  }

  function PriorityLabel(p: Priority): string
  {
    match p
    case Critical => "Critical"
    case Important => "Important"
    case Helpful => "Helpful"
  }

  /** The estimated time shown, with its default. */
  function DisplayedTime(m: Module): (r: string)
    ensures r != ""
    ensures m.estimatedTime != "" ==> r == m.estimatedTime
  {
    Or(m.estimatedTime, "30-45 minutes")
  }

  /** "Mark as Complete" is offered only on a module not yet completed. */
  predicate CompleteOffered(m: Module)
  {
    m.status != Completed
  }

  /** The plan's current entry for `id`, if the session has a plan holding
      one. */
  function CurrentModule(st: SessionState, id: string): Option<Module>
  {
    if st.plan.Some? then FindById(st.plan.value.modules, id) else None
  }

  /** Once a module is marked complete, it stays completed when it is
      expanded again: the entry reads the plan's current module, which is
      no longer pending, so activation leaves the plan alone. */
  lemma {:induction false} ReexpandKeepsCompleted(st: SessionState, id: string,
                                                  reply: ModuleResources.Reply<seq<Resource>>)
    requires CurrentModule(st, id).Some?
    ensures var st1 := ApplyModuleStatus(st, id, Completed);
      && CurrentModule(st1, id).Some?
      && CurrentModule(st1, id).value.status == Completed
      && var m := CurrentModule(st1, id).value;
         var st2 := AfterItemFetch(Activate(st1, m), m, reply);
         st2.plan == st1.plan && st2.activeModule == Some(m)
  {
    var ms := st.plan.value.modules;
    var ms1 := SetStatus(ms, id, Completed);
    var found := FindById(ms, id);
    var j :| 0 <= j < |ms| && ms[j] == found.value;
    assert ms1[j].(status := ms[j].status) == ms[j];
    assert ms1[j].id == id;
    var found1 := FindById(ms1, id);
    assert found1.Some?;
    var k :| 0 <= k < |ms1| && ms1[k] == found1.value;
    assert ms1[k].(status := ms[k].status) == ms[k];
  }

  /** One entry of the module list. React keys the entry by the module's
      id, and every render hands it the plan's current module with that id;
      the entry's own state survives renders. */
  class ModuleItemView {
    const id: string
    const session: Session
    var expanded: bool
    var showPracticeQuestions: bool

    constructor (item: Module, session: Session)
      ensures this.id == item.id && this.session == session
      ensures !expanded && !showPracticeQuestions
    {
      this.id := item.id;
      this.session := session;
      expanded := false;
      showPracticeQuestions := false;
    }

    /** The entry is on screen: the plan holds a module with its id. */
    predicate Rendered()
      reads session
    {
      CurrentModule(session.State(), id).Some?
    }

    /** The module this render of the entry shows. */
    function Item(): Module
      reads session
      requires Rendered()
    {
      CurrentModule(session.State(), id).value
    }

    /** `fetchModuleResources` over the module `m` of the render that
        handled the click. `reply` is the route's answer to the request,
        which is `sent` when there is one. */
    method FetchResources(m: Module, reply: ModuleResources.Reply<seq<Resource>>)
      returns (sent: Option<FetchModuleResources.ResourceRequest>)
      modifies session
      ensures sent == (if HasKeywords(m) then Some(ItemRequest(m)) else None)
      ensures session.State() == AfterItemFetch(old(session.State()), m, reply)
    {
      if HasKeywords(m) {
        sent := Some(ItemRequest(m));
        session.SetLoadingResources(true);
        if reply.Some? && reply.value.Ok? && reply.value.body.Some? {
          session.SetModuleResources(reply.value.body.value);
        }
        session.SetLoadingResources(false);
      } else {
        sent := None;
        session.SetModuleResources([]);
      }
    }

    /** `handleModuleClick`: the entry always toggles; only a click on a
        collapsed entry activates the plan's current module and fetches.
        A module that is not pending keeps its status. */
    method HandleModuleClick(reply: ModuleResources.Reply<seq<Resource>>)
      returns (sent: Option<FetchModuleResources.ResourceRequest>)
      requires Rendered()
      modifies this, session
      ensures expanded == !old(expanded) && showPracticeQuestions == old(showPracticeQuestions)
      ensures old(expanded) ==> sent.None? && session.State() == old(session.State())
      ensures !old(expanded) ==>
        && sent == (if HasKeywords(old(Item())) then Some(ItemRequest(old(Item()))) else None)
        && session.State() == AfterItemFetch(Activate(old(session.State()), old(Item())), old(Item()), reply)
      ensures old(Item()).status != Pending ==> session.plan == old(session.plan)
    {
      var m := Item();
      var wasExpanded := expanded;
      expanded := !expanded;
      sent := None;
      if !wasExpanded {
        session.SetActiveModule(Some(m));
        if m.status == Pending {
          session.UpdateModuleStatus(m.id, Active);
        }
        sent := FetchResources(m, reply);
      }
    }

    /** The click wired to the route itself: since the route refuses this
        entry's request, the resource list is only ever emptied (for a
        module without keywords), never filled. */
    method HandleModuleClickServed(w: FetchModuleResources.World, now: nat, rand: FetchModuleResources.Suffixes)
      requires Rendered()
      modifies this, session
      ensures expanded == !old(expanded)
      ensures session.resources == (if !old(expanded) && !HasKeywords(old(Item())) then [] else old(session.resources))
    {
      var m := Item();
      var served := FetchModuleResources.FetchResources(ItemRequest(m), w, now, rand);
      ItemRequestRejected(m);
      var reply: ModuleResources.Reply<seq<Resource>> := match served
        case Ok(rs) => Some(Ok(Some(rs)))
        case Fail(code, message) => Some(Fail(code, message));
      var _ := HandleModuleClick(reply);
    }

    /** The practice-questions button shows or hides them. */
    method TogglePracticeQuestions()
      modifies this
      ensures showPracticeQuestions == !old(showPracticeQuestions) && expanded == old(expanded)
    {
      showPracticeQuestions := !showPracticeQuestions;
    }

    /** "Mark as Complete": the module's status becomes completed, and the
        entry's module is completed from then on. */
    method MarkComplete()
      modifies session
      ensures session.State() == ApplyModuleStatus(old(session.State()), id, Completed)
      ensures old(Rendered()) ==> Rendered() && Item().status == Completed
    {
      ghost var st := session.State();
      session.UpdateModuleStatus(id, Completed);
      if CurrentModule(st, id).Some? {
        ReexpandKeepsCompleted(st, id, None);
      }
    }
  }
}

=== FILE: module_resources.dfy ===
/** The resources panel, components/ModuleResources.tsx. When the active
    module changes it asks the fetch-module-resources route for videos and
    articles. It lets the learner open one, mark it as watched or read (with
    a summary when one can be had), and ask for a quiz on it. Everything
    lives in the shared `Session`. Replies of the outside services are
    parameters, and so are the clock and the random id suffixes of the chat
    messages. */
module ModuleResources {
  import opened Base
  import opened Domain
  import opened AppContext
  import FetchModuleResources

  /** A reply as the panel sees it: `None` when the request throws,
      otherwise the status and, when ok, the field it reads (absent or
      present). */
  type Reply<T> = Option<Http<Option<T>>>

  // ---------------------------------------------------------------------
  // Loading the resources of the active module

  /** The keywords searched with. A module's own list is kept when it is a
      non-empty array. Otherwise the four derived from the title are used. */
  function EffectiveKeywords(m: Module): (r: seq<string>)
    ensures |r| > 0
    ensures m.keywords.Items? && |m.keywords.items| > 0 ==> r == m.keywords.items
    ensures !(m.keywords.Items? && |m.keywords.items| > 0) ==> r == LearnKeywords(m.title)
  {
    if m.keywords.Items? && |m.keywords.items| > 0 then m.keywords.items else LearnKeywords(m.title)
  }

  /** The request the panel sends for a module. */
  function RequestFor(m: Module): FetchModuleResources.ResourceRequest
  {
    FetchModuleResources.ResourceRequest("POST", m.id, m.title, m.description, Some(EffectiveKeywords(m)))
  }

  /** The route accepts the panel's request exactly when the module has an
      id, a title and a description: the keywords are always there. */
  lemma RequestForAccepted(m: Module)
    ensures FetchModuleResources.HasRequiredFields(RequestFor(m)) <==> m.id != "" && m.title != "" && m.description != ""
  {
  }

  /** `data.resources || []` on an ok reply, nothing otherwise. */
  function KeptResources(reply: Reply<seq<Resource>>): seq<Resource>
  {
    match reply
    case Some(Ok(Some(rs))) => rs
    case _ => []
  }

  /** The session after the effect has run: unchanged without an active
      module, else no open resource, loading over, and the kept list. */
  function AfterLoad(st: SessionState, reply: Reply<seq<Resource>>): (r: SessionState)
    ensures st.activeModule.None? ==> r == st
    ensures st.activeModule.Some? ==>
      r == st.(resources := KeptResources(reply), loadingResources := false, activeResource := None)
  {
    if st.activeModule.None? then st
    else st.(resources := KeptResources(reply), loadingResources := false, activeResource := None)
  }

  /** The effect run when the active module changes. `sent` is the request
      it makes, if any; `reply` is what that request comes back with. */
  method LoadResources(session: Session, reply: Reply<seq<Resource>>)
    returns (sent: Option<FetchModuleResources.ResourceRequest>)
    modifies session
    ensures old(session.activeModule).None? ==> sent.None?
    ensures old(session.activeModule).Some? ==> sent == Some(RequestFor(old(session.activeModule).value))
    ensures session.State() == AfterLoad(old(session.State()), reply)
  {
    if session.activeModule.None? {
      return None;
    }
    var m := session.activeModule.value;
    sent := Some(RequestFor(m));
    session.SetLoadingResources(true);
    session.SetActiveResource(None);
    session.SetModuleResources(KeptResources(reply));
    session.SetLoadingResources(false);
  }

  /** The effect wired to the route itself. With an active module the panel
      ends up showing a non-empty list of well-formed resources exactly when
      the module has an id, a title and a description and the route does
      not raise; otherwise the list is emptied. */
  method LoadFromRoute(session: Session, w: FetchModuleResources.World, now: nat, rand: FetchModuleResources.Suffixes)
    modifies session
    ensures old(session.activeModule).None? ==> session.State() == old(session.State())
    ensures old(session.activeModule).Some? ==>
      var m := old(session.activeModule).value;
      && !session.loadingResources && session.activeResource.None?
      && (|session.resources| > 0 <==>
            m.id != "" && m.title != "" && m.description != "" && !FetchModuleResources.RaisesTypeError(w))
      && FetchModuleResources.WellTyped(session.resources)
  {
    if session.activeModule.None? {
      return;
    }
    var m := session.activeModule.value;
    var served := FetchModuleResources.FetchResources(RequestFor(m), w, now, rand);
    RequestForAccepted(m);
    if served.Ok? {
      FetchModuleResources.ServedWellTyped(RequestFor(m), w, now, rand);
    }
    var reply: Reply<seq<Resource>> := match served
      case Ok(rs) => Some(Ok(Some(rs)))
      case Fail(code, message) => Some(Fail(code, message));
    var _ := LoadResources(session, reply);
  }

  // ---------------------------------------------------------------------
  // What the panel shows

  datatype View = Hidden | Spinner | NoResources | Detail(resource: Resource) | List(resources: seq<Resource>)

  /** Nothing without an active module; then the spinner while loading, the
      empty notice, the open resource, or the list, in that precedence. */
  function ViewOf(st: SessionState): (v: View)
    ensures v.Hidden? <==> st.activeModule.None?
    ensures v.Spinner? <==> st.activeModule.Some? && st.loadingResources
    ensures v.NoResources? <==> st.activeModule.Some? && !st.loadingResources && |st.resources| == 0
    ensures v.Detail? <==>
      st.activeModule.Some? && !st.loadingResources && |st.resources| > 0 && st.activeResource.Some?
    ensures v.Detail? ==> v.resource == st.activeResource.value
    ensures v.List? <==>
      st.activeModule.Some? && !st.loadingResources && |st.resources| > 0 && st.activeResource.None?
    ensures v.List? ==> v.resources == st.resources
  {
    if st.activeModule.None? then Hidden
    else if st.loadingResources then Spinner
    else if |st.resources| == 0 then NoResources
    else if st.activeResource.Some? then Detail(st.activeResource.value)
    else List(st.resources)
  }

  /** After loading, the panel shows the list or the empty notice, never the
      spinner or a resource left open from the previous module. */
  lemma ViewAfterLoad(st: SessionState, reply: Reply<seq<Resource>>)
    requires st.activeModule.Some?
    ensures var v := ViewOf(AfterLoad(st, reply));
      && (v.NoResources? <==> KeptResources(reply) == [])
      && (v.List? <==> KeptResources(reply) != [])
  {
  }

  /** The title of the active module as a template prints it. */
  function ModuleTitle(st: SessionState): string
  {
    if st.activeModule.Some? then st.activeModule.value.title else "undefined"
  }

  // ---------------------------------------------------------------------
  // Opening a resource

  function SelectMessage(kind: ResourceType, moduleTitle: string, title: string): string
  {
    if kind == YouTube then
      "I've found a helpful video about " + moduleTitle + ": \"" + title
      + "\". Watch it to learn more about this topic, and I can answer any questions you have afterward or quiz you on the content."
    else
      "I've found a useful article about " + moduleTitle + ": \"" + title
      + "\". Read it to deepen your understanding, and I can answer any questions you have afterward or quiz you on the content."
  }

  /** `handleResourceSelect`: the resource is opened and introduced in the
      chat of the active module. */
  method SelectResource(session: Session, resource: Resource, timestamp: nat, suffix: string)
    modifies session
    ensures session.State() ==
      AppendMessage(old(session.State()).(activeResource := Some(resource)),
                    NewMessage(Ai, SelectMessage(resource.kind, ModuleTitle(old(session.State())), resource.title), timestamp, suffix))
  {
    session.SetActiveResource(Some(resource));
    session.AddChatMessage(Ai, SelectMessage(resource.kind, ModuleTitle(session.State()), resource.title), timestamp, suffix);
  }

  // ---------------------------------------------------------------------
  // Marking a resource as consumed

  /** Whether the "mark" button is disabled: the video was watched or the
      article read. */
  predicate CompleteDisabled(r: Resource)
  {
    (r.kind == YouTube && r.watched == Some(true)) || (r.kind == Article && r.read == Some(true))
  }

  /** The label of that button. */
  function CompleteLabel(r: Resource): string
  {
    if r.kind == YouTube then (if r.watched == Some(true) then "Watched ✓" else "Mark as watched")
    else (if r.read == Some(true) then "Read ✓" else "Mark as read")
  }

  /** The label carries a check mark exactly when the button is disabled. */
  lemma LabelCheckedIffDisabled(r: Resource)
    ensures var text := CompleteLabel(r); text[|text| - 1] == '✓' <==> CompleteDisabled(r)
  {
  }

  /** How the summary request ended: it failed (`NoSummary`) or it answered,
      with the `summary` field absent or present. */
  datatype SummaryOutcome = NoSummary | Summarised(summary: Option<string>)

  /** One resource marked as consumed: a video is watched and anything else
      read. The summary field is set from the answer when there is one. */
  function MarkConsumed(r: Resource, outcome: SummaryOutcome): (x: Resource)
    ensures CompleteDisabled(x)
    ensures r.kind == YouTube ==> x.watched == Some(true) && x.read == r.read
    ensures r.kind == Article ==> x.read == Some(true) && x.watched == r.watched
    ensures outcome.NoSummary? ==> x.summary == r.summary
    ensures outcome.Summarised? ==> x.summary == outcome.summary
    ensures x.(watched := r.watched, read := r.read, summary := r.summary) == r
  {
    var x := if r.kind == YouTube then r.(watched := Some(true)) else r.(read := Some(true));
    if outcome.Summarised? then x.(summary := outcome.summary) else x
  }

  /** Every resource of the list with the given id marked as consumed. */
  function MarkCompleted(rs: seq<Resource>, id: string, outcome: SummaryOutcome): (r: seq<Resource>)
    ensures |r| == |rs|
    ensures forall i :: 0 <= i < |rs| ==> r[i] == (if rs[i].id == id then MarkConsumed(rs[i], outcome) else rs[i])
  {
    seq(|rs|, i requires 0 <= i < |rs| => if rs[i].id == id then MarkConsumed(rs[i], outcome) else rs[i])
  }

  /** After marking, every entry with that id has its button disabled and
      every other entry is as it was. */
  lemma MarkCompletedDisables(rs: seq<Resource>, id: string, outcome: SummaryOutcome)
    ensures var r := MarkCompleted(rs, id, outcome);
      forall i :: 0 <= i < |r| ==> (r[i].id == id ==> CompleteDisabled(r[i])) && (r[i].id != id ==> r[i] == rs[i])
  {
  }

  /** Marking twice is marking once, when the second pass has no summary. */
  lemma {:induction false} MarkCompletedIdempotent(rs: seq<Resource>, id: string, outcome: SummaryOutcome)
    ensures MarkCompleted(MarkCompleted(rs, id, outcome), id, NoSummary) == MarkCompleted(rs, id, outcome)
  {
    var once := MarkCompleted(rs, id, outcome);
    var twice := MarkCompleted(once, id, NoSummary);
    forall i | 0 <= i < |rs| ensures twice[i] == once[i] {
      if rs[i].id == id {
        var x := MarkConsumed(rs[i], outcome);
        assert once[i] == x;
        assert MarkConsumed(x, NoSummary) == x;
      }
    }
  }

  function ActivityPhrase(kind: ResourceType): string
  {
    if kind == YouTube then "watching the video" else "reading the article"
  }

  function CompletionMessage(kind: ResourceType, moduleTitle: string, outcome: SummaryOutcome): string
  {
    match outcome
    case Summarised(summary) =>
      "Great! Now that you've finished " + ActivityPhrase(kind) + " about " + moduleTitle
      + ", let me summarize the key points:\n\n" + (if summary.Some? then summary.value else "undefined")
      + "\n\nWould you like me to quiz you on the content to reinforce your learning?"
    case NoSummary =>
      "Great! Now that you've finished " + ActivityPhrase(kind) + " about " + moduleTitle
      + ", would you like me to quiz you on the content to reinforce your learning?"
  }

  /** `handleResourceCompleted`: the list entry is marked and the chat told.
      The open resource in the session is a separate copy and keeps its old
      flags, so its button is not disabled by this. */
  method CompleteResource(session: Session, resource: Resource, outcome: SummaryOutcome, timestamp: nat, suffix: string)
    modifies session
    ensures session.State() ==
      AppendMessage(old(session.State()).(resources := MarkCompleted(old(session.resources), resource.id, outcome)),
                    NewMessage(Ai, CompletionMessage(resource.kind, ModuleTitle(old(session.State())), outcome), timestamp, suffix))
    ensures session.activeResource == old(session.activeResource)
  {
    ghost var st := session.State();
    var marked := MarkCompleted(session.resources, resource.id, outcome);
    session.SetModuleResources(marked);
    assert session.State() == st.(resources := marked);
    var text := CompletionMessage(resource.kind, ModuleTitle(session.State()), outcome);
    session.AddChatMessage(Ai, text, timestamp, suffix);
  }

  // ---------------------------------------------------------------------
  // Quizzes

  /** `String.fromCharCode(65 + i)`: A, B, C, … */
  function Letter(i: nat): char
  {
    if i < 0xD800 - 65 then (65 + i) as char else '?'
  }

  /** Distinct options get distinct letters. */
  lemma LetterInjective(i: nat, j: nat)
    requires i < 0xD800 - 65 && j < 0xD800 - 65 && Letter(i) == Letter(j)
    ensures i == j
  {
  }

  const Check := " ✓"

  /** The line for option `i`, marked when it is the correct answer. */
  function OptionLine(i: nat, option: string, correctAnswer: int): (r: string)
    ensures |r| > 0 && r[0] == Letter(i)
  {
    [Letter(i)] + ". " + option + (if i == correctAnswer then Check else "")
  }

  function OptionLines(q: QuizQuestion): (r: seq<string>)
    ensures |r| == |q.options|
    ensures forall i :: 0 <= i < |q.options| ==> r[i] == OptionLine(i, q.options[i], q.correctAnswer)
  {
    seq(|q.options|, i requires 0 <= i < |q.options| => OptionLine(i, q.options[i], q.correctAnswer))
  }

  /** Exactly the correct option carries the mark; when the correct answer
      is not one of the options, none does. */
  lemma {:induction false} OnlyCorrectMarked(q: QuizQuestion, i: nat)
    requires i < |q.options|
    ensures var head := [Letter(i)] + ". " + q.options[i];
      && (i == q.correctAnswer ==> OptionLines(q)[i] == head + Check)
      && (i != q.correctAnswer ==> OptionLines(q)[i] == head)
  {
    var head := [Letter(i)] + ". " + q.options[i];
    assert OptionLines(q)[i] == OptionLine(i, q.options[i], q.correctAnswer);
    if i != q.correctAnswer {
      assert head + "" == head;
    }
  }

  function QuestionText(index: nat, q: QuizQuestion): string
  {
    "**Question " + NatToString(index + 1) + QuestionBody(q)
  }

  /** What follows the question's number. */
  function QuestionBody(q: QuizQuestion): (r: string)
    ensures |r| > 0 && r[0] == '*'
  {
    "**: " + q.question + "\n" + Join(OptionLines(q), "\n")
  }

  function QuizContent(qs: seq<QuizQuestion>): (r: string)
  {
    Join(seq(|qs|, i requires 0 <= i < |qs| => QuestionText(i, qs[i])), "\n\n")
  }

  /** Each question is introduced by its own number, so no two coincide. */
  lemma {:induction false} QuestionNumbersDistinct(qs: seq<QuizQuestion>, i: nat, j: nat)
    requires i < |qs| && j < |qs| && QuestionText(i, qs[i]) == QuestionText(j, qs[j])
    ensures i == j
  {
    PrefixedNumberInjective("**Question ", i + 1, QuestionBody(qs[i]), j + 1, QuestionBody(qs[j]));
  }


  function QuizIntro(title: string): string
  {
    "Let's test your understanding of " + title + ". I'll create a short quiz based on the content. Please respond with your answers."
  }

  function QuizMessage(title: string, qs: seq<QuizQuestion>): string
  {
    "Here's your quiz on " + title + ":\n\n" + QuizContent(qs)
    + "\n\nTake your time to answer these questions. The correct answers are marked with ✓ so you can check your understanding."
  }

  const QuizError := "Sorry, I encountered an error while creating your quiz. Let's try a different approach. What specific aspects of this resource would you like me to help you understand better?"

  /** The questions saved on every resource of the list with the given id. */
  function AttachQuiz(rs: seq<Resource>, id: string, qs: seq<QuizQuestion>): (r: seq<Resource>)
    ensures |r| == |rs|
    ensures forall i :: 0 <= i < |rs| && rs[i].id == id ==> r[i] == rs[i].(quizQuestions := Some(qs))
    ensures forall i :: 0 <= i < |rs| && rs[i].id != id ==> r[i] == rs[i]
  {
    seq(|rs|, i requires 0 <= i < |rs| => if rs[i].id == id then rs[i].(quizQuestions := Some(qs)) else rs[i])
  }

  /** Attaching a quiz does not change whether a resource counts as
      consumed, and marking one keeps its quiz. */
  lemma {:induction false} QuizAndCompletionIndependent(rs: seq<Resource>, id: string, qs: seq<QuizQuestion>, outcome: SummaryOutcome)
    ensures MarkCompleted(AttachQuiz(rs, id, qs), id, outcome) == AttachQuiz(MarkCompleted(rs, id, outcome), id, qs)
  {
    var a := MarkCompleted(AttachQuiz(rs, id, qs), id, outcome);
    var b := AttachQuiz(MarkCompleted(rs, id, outcome), id, qs);
    forall i | 0 <= i < |rs| ensures a[i] == b[i] {
      if rs[i].id == id {
        assert AttachQuiz(rs, id, qs)[i] == rs[i].(quizQuestions := Some(qs));
        assert MarkCompleted(rs, id, outcome)[i] == MarkConsumed(rs[i], outcome);
      }
    }
  }

  /** The session after `handleGenerateQuiz`: the quiz is announced; then,
      when the quiz service answers with questions, they are listed in the
      chat and saved on the resource, and otherwise an apology is posted. */
  function AfterQuiz(st: SessionState, resource: Resource, reply: Reply<seq<QuizQuestion>>,
                     t1: nat, s1: string, t2: nat, s2: string): (r: SessionState)
    ensures reply.Some? && reply.value.Ok? && reply.value.body.Some? ==>
      r.resources == AttachQuiz(st.resources, resource.id, reply.value.body.value)
    ensures !(reply.Some? && reply.value.Ok? && reply.value.body.Some?) ==> r.resources == st.resources
  {
    var announced := AppendMessage(st, NewMessage(Ai, QuizIntro(resource.title), t1, s1));
    if reply.Some? && reply.value.Ok? && reply.value.body.Some? then
      var qs := reply.value.body.value;
      AppendMessage(announced, NewMessage(Ai, QuizMessage(resource.title, qs), t2, s2))
        .(resources := AttachQuiz(st.resources, resource.id, qs))
    else AppendMessage(announced, NewMessage(Ai, QuizError, t2, s2))
  }

  /** The quiz listed in the chat and saved on the resource. */
  method PostQuiz(session: Session, resource: Resource, qs: seq<QuizQuestion>, timestamp: nat, suffix: string)
    modifies session
    ensures session.State() ==
      AppendMessage(old(session.State()), NewMessage(Ai, QuizMessage(resource.title, qs), timestamp, suffix))
        .(resources := AttachQuiz(old(session.resources), resource.id, qs))
  {
    session.AddChatMessage(Ai, QuizMessage(resource.title, qs), timestamp, suffix);
    session.SetModuleResources(AttachQuiz(session.resources, resource.id, qs));
  }

  /** `handleGenerateQuiz`. `reply` is the quiz service's answer. */
  method GenerateQuiz(session: Session, resource: Resource, reply: Reply<seq<QuizQuestion>>,
                      t1: nat, s1: string, t2: nat, s2: string)
    modifies session
    ensures session.State() == AfterQuiz(old(session.State()), resource, reply, t1, s1, t2, s2)
  {
    session.AddChatMessage(Ai, QuizIntro(resource.title), t1, s1);
    if reply.Some? && reply.value.Ok? && reply.value.body.Some? {
      PostQuiz(session, resource, reply.value.body.value, t2, s2);
    } else {
      session.AddChatMessage(Ai, QuizError, t2, s2);
    }
  }
}

=== FILE: patterns.dfy ===
/** The two regular-expression shapes the progress panel and the countdown
    timer use to read durations: `(\d+)\s*<unit>s?`, and
    `(\d+)(?:-(\d+))?\s*<unit>s?`, which also accepts a range such as
    "1-2 hours". `String.prototype.match` reports the match that starts
    leftmost. The trailing `s?` never decides whether a match exists, so it
    is left out.

    The matchers read maximal runs of digits and spaces. For a unit that
    starts with a letter this is what the backtracking engine finds: a
    shorter run would leave a digit or a space where the pattern needs `-`
    or the unit's first letter. */
module Patterns {
  import opened Base

  /** `unit` is written in `s` at position `k`. */
  predicate WordAt(s: string, unit: string, k: nat)
  {
    k + |unit| <= |s| && s[k..k + |unit|] == unit
  }

  /** The length of the run of digits (`\d`) that starts at `p`. */
  function DigitRun(s: string, p: nat): (n: nat)
    requires p <= |s|
    decreases |s| - p
    ensures p + n <= |s|
    ensures forall k :: p <= k < p + n ==> IsDigit(s[k])
    ensures p + n < |s| ==> !IsDigit(s[p + n])
  {
    if p < |s| && IsDigit(s[p]) then 1 + DigitRun(s, p + 1) else 0
  }

  /** The length of the run of white space (`\s`) that starts at `p`. */
  function SpaceRun(s: string, p: nat): (n: nat)
    requires p <= |s|
    decreases |s| - p
    ensures p + n <= |s|
    ensures forall k :: p <= k < p + n ==> IsSpace(s[k])
    ensures p + n < |s| ==> !IsSpace(s[p + n])
  {
    if p < |s| && IsSpace(s[p]) then 1 + SpaceRun(s, p + 1) else 0
  }

  /** `parseInt` of the digit run at `p`. */
  function NumberAt(s: string, p: nat): nat
    requires p <= |s|
  {
    var n := DigitRun(s, p);
    assert AllDigits(s[p..p + n]);
    DigitsValue(s[p..p + n])
  }

  /** What a duration pattern captures: one number, or the two ends of a
      range. */
  datatype Amount = Single(n: nat) | Range(lo: nat, hi: nat)

  /** `Count(unit)` is `(\d+)\s*<unit>s?`; `CountOrRange(unit)` is
      `(\d+)(?:-(\d+))?\s*<unit>s?`. */
  datatype Pattern = Count(unit: string) | CountOrRange(unit: string)

  /** `\s*<unit>` at `q`. */
  predicate UnitAfter(s: string, q: nat, unit: string)
    requires q <= |s|
  {
    WordAt(s, unit, q + SpaceRun(s, q))
  }

  /** `-(\d+)\s*<unit>` at `q`: the second number when it matches. */
  function RangeTail(s: string, q: nat, unit: string): Option<nat>
    requires q <= |s|
  {
    if q < |s| && s[q] == '-' && DigitRun(s, q + 1) > 0 && UnitAfter(s, q + 1 + DigitRun(s, q + 1), unit)
    then Some(NumberAt(s, q + 1))
    else None
  }

  /** The pattern tried at position `p` alone. The optional range part is
      tried first, as the greedy `?` does. */
  function MatchAt(pat: Pattern, s: string, p: nat): (r: Option<Amount>)
    requires p <= |s|
    ensures r.Some? ==> DigitRun(s, p) > 0
    ensures r.Some? && r.value.Single? ==> r.value.n == NumberAt(s, p)
    ensures r.Some? && r.value.Range? ==> pat.CountOrRange? && r.value.lo == NumberAt(s, p)
  {
    var q := p + DigitRun(s, p);
    if q == p then None
    else if pat.CountOrRange? && RangeTail(s, q, pat.unit).Some? then
      Some(Range(NumberAt(s, p), RangeTail(s, q, pat.unit).value))
    else if UnitAfter(s, q, pat.unit) then Some(Single(NumberAt(s, p)))
    else None
  }

  /** A match and where it starts. */
  datatype Found = Found(at: nat, amount: Amount)

  /** `s.match(re)` searching from `from`: the match that starts leftmost. */
  function FirstMatch(pat: Pattern, s: string, from: nat): (r: Option<Found>)
    requires from <= |s|
    decreases |s| - from
    ensures r.Some? ==> from <= r.value.at <= |s| && MatchAt(pat, s, r.value.at) == Some(r.value.amount)
    ensures forall k :: from <= k <= |s| && (r.None? || k < r.value.at) ==> MatchAt(pat, s, k).None?
  {
    match MatchAt(pat, s, from)
    case Some(a) => Some(Found(from, a))
    case None => if from == |s| then None else FirstMatch(pat, s, from + 1)
  }

  /** A unit for which the matchers above are exact: it starts with a
      character that is neither a digit nor white space nor `-`. */
  predicate IsUnit(unit: string)
  {
    |unit| > 0 && !IsDigit(unit[0]) && !IsSpace(unit[0]) && unit[0] != '-'
  }

  // ---------------------------------------------------------------------
  // Reading back what was written

  /** A word whose first character is not a digit and does not occur in
      `tail` is not written anywhere in a printed number followed by
      `tail`. */
  lemma {:induction false} WordAbsentAfterNumber(n: nat, tail: string, word: string)
    requires |word| > 0 && !IsDigit(word[0])
    requires forall i :: 0 <= i < |tail| ==> tail[i] != word[0]
    ensures !Contains(NatToString(n) + tail, word)
  {
    var w := NatToString(n);
    var s := w + tail;
    forall i | 0 <= i < |s| ensures s[i] != word[0] {
      if i < |w| {
        assert IsDigit(w[i]);
      } else {
        assert s[i] == tail[i - |w|];
      }
    }
    NotContainsFirstCharAbsent(s, word);
  }

  /** A run of digits that ends at `e` has length `e - p`. */
  lemma {:induction false} DigitRunUpTo(s: string, p: nat, e: nat)
    requires p <= e <= |s|
    requires forall k :: p <= k < e ==> IsDigit(s[k])
    requires e == |s| || !IsDigit(s[e])
    ensures DigitRun(s, p) == e - p
    decreases e - p
  {
    if p < e {
      DigitRunUpTo(s, p + 1, e);
    }
  }

  /** A run of spaces that ends at `e` has length `e - p`. */
  lemma {:induction false} SpaceRunUpTo(s: string, p: nat, e: nat)
    requires p <= e <= |s|
    requires forall k :: p <= k < e ==> IsSpace(s[k])
    requires e == |s| || !IsSpace(s[e])
    ensures SpaceRun(s, p) == e - p
    decreases e - p
  {
    if p < e {
      SpaceRunUpTo(s, p + 1, e);
    }
  }

  /** A printed number at `p`, followed by a non-digit, reads back as that
      number. */
  lemma {:induction false} NumberAtPrinted(s: string, p: nat, n: nat)
    requires p + |NatToString(n)| <= |s| && s[p..p + |NatToString(n)|] == NatToString(n)
    requires p + |NatToString(n)| == |s| || !IsDigit(s[p + |NatToString(n)|])
    ensures DigitRun(s, p) == |NatToString(n)| && NumberAt(s, p) == n
  {
    var w := NatToString(n);
    forall k | p <= k < p + |w| ensures IsDigit(s[k]) {
      assert s[k] == s[p..p + |w|][k - p] == w[k - p];
    }
    DigitRunUpTo(s, p, p + |w|);
    DigitsValueOfNatToString(n);
  }

  /** "<n> <unit>…" read by either pattern gives `n`. */
  lemma {:induction false} ReadCount(pat: Pattern, n: nat, rest: string)
    requires IsUnit(pat.unit)
    ensures var s := NatToString(n) + " " + pat.unit + rest;
      FirstMatch(pat, s, 0) == Some(Found(0, Single(n)))
  {
    var w := NatToString(n);
    var s := w + " " + pat.unit + rest;
    assert s[0..|w|] == w;
    assert s[|w|] == ' ' && s[|w| + 1] == pat.unit[0];
    NumberAtPrinted(s, 0, n);
    SpaceRunUpTo(s, |w|, |w| + 1);
    assert s[|w| + 1..|w| + 1 + |pat.unit|] == pat.unit;
    SingleAtStart(pat, s, |w|);
    FirstMatchAtStart(pat, s);
  }

  /** Spaces then the unit. */
  lemma UnitAfterSpace(s: string, e: nat, unit: string)
    requires e < |s| && SpaceRun(s, e) == 1 && WordAt(s, unit, e + 1)
    ensures UnitAfter(s, e, unit)
  {
  }

  /** `-<digits>` then the unit. */
  lemma RangeTailAt(s: string, q: nat, e: nat, unit: string)
    requires q < |s| && s[q] == '-' && q + 1 < e <= |s| && DigitRun(s, q + 1) == e - q - 1 && UnitAfter(s, e, unit)
    ensures RangeTail(s, q, unit) == Some(NumberAt(s, q + 1))
  {
  }

  /** The range pattern matches at the start of `s` when a range tail
      follows the first number. */
  lemma RangeAtStart(s: string, unit: string, q: nat)
    requires 0 < q <= |s| && DigitRun(s, 0) == q && RangeTail(s, q, unit).Some?
    ensures MatchAt(CountOrRange(unit), s, 0) == Some(Range(NumberAt(s, 0), RangeTail(s, q, unit).value))
  {
  }

  /** A lone number matches at the start of `s` when spaces and the unit
      follow it. */
  lemma SingleAtStart(pat: Pattern, s: string, q: nat)
    requires 0 < q < |s| && DigitRun(s, 0) == q && s[q] != '-'
    requires SpaceRun(s, q) == 1 && WordAt(s, pat.unit, q + 1)
    ensures MatchAt(pat, s, 0) == Some(Single(NumberAt(s, 0)))
  {
    assert UnitAfter(s, q, pat.unit);
    assert RangeTail(s, q, pat.unit).None?;
  }

  /** A match at the start is the leftmost one. */
  lemma FirstMatchAtStart(pat: Pattern, s: string)
    requires MatchAt(pat, s, 0).Some?
    ensures FirstMatch(pat, s, 0) == Some(Found(0, MatchAt(pat, s, 0).value))
  {
  }

  /** "<a>-<b> <unit>…" read by the range pattern gives the range a..b. */
  lemma {:induction false} ReadRange(unit: string, a: nat, b: nat, rest: string)
    requires IsUnit(unit)
    ensures var s := NatToString(a) + "-" + NatToString(b) + " " + unit + rest;
      FirstMatch(CountOrRange(unit), s, 0) == Some(Found(0, Range(a, b)))
  {
    var x, y := NatToString(a), NatToString(b);
    var s := x + "-" + y + " " + unit + rest;
    var q := |x|;
    var e := q + 1 + |y|;
    assert s[0..q] == x;
    assert s[q] == '-';
    NumberAtPrinted(s, 0, a);
    assert s[q + 1..e] == y;
    assert s[e] == ' ' && s[e + 1] == unit[0];
    NumberAtPrinted(s, q + 1, b);
    SpaceRunUpTo(s, e, e + 1);
    assert s[e + 1..e + 1 + |unit|] == unit;
    UnitAfterSpace(s, e, unit);
    RangeTailAt(s, q, e, unit);
    RangeAtStart(s, unit, q);
    FirstMatchAtStart(CountOrRange(unit), s);
  }
}

=== FILE: practice.dfy ===
/** components/PracticeQuestions.tsx: the practice-question panel of one
    module. It fetches questions from the practice route (falling back to a
    local sample set when that fails), lets the learner pick an answer per
    question, scores the answered ones, and can be reset. The panel's state
    is a class; the route's answer is a parameter. */
module Practice {
  import opened Base
  import opened Domain
  import PracticeApi

  /** A question as the panel keeps it; `userAnswer` is absent until the
      learner picks an option. */
  datatype Question = Question(
    id: string,
    text: string,
    options: seq<string>,
    correctAnswer: int,
    explanation: string,
    userAnswer: Option<int>)

  /** `question-<moduleId>-<index>`. */
  function QuestionId(moduleId: string, index: nat): string
  {
    "question-" + moduleId + "-" + NatToString(index)
  }

  /** Different indices give different ids. */
  lemma {:induction false} QuestionIdInjective(moduleId: string, i: nat, j: nat)
    requires QuestionId(moduleId, i) == QuestionId(moduleId, j)
    ensures i == j
  {
    var pre := "question-" + moduleId + "-";
    assert QuestionId(moduleId, i)[|pre|..] == NatToString(i);
    assert QuestionId(moduleId, j)[|pre|..] == NatToString(j);
    NatToStringInjective(i, j);
  }

  /** A returned question, unanswered, under the given id. */
  function FromItem(item: PracticeApi.Item, id: string): Question
  {
    Question(id, item.text, item.options, item.correctAnswer, item.explanation, None)
  }

  /** The fetched questions, each given the id of its position. */
  function Received(moduleId: string, items: seq<PracticeApi.Item>): (r: seq<Question>)
    ensures |r| == |items|
    ensures forall i :: 0 <= i < |items| ==> r[i] == FromItem(items[i], QuestionId(moduleId, i))
  {
    seq(|items|, i requires 0 <= i < |items| => FromItem(items[i], QuestionId(moduleId, i)))
  }

  /** Fetched questions have pairwise different ids, so a selection by id
      reaches one question only. */
  lemma {:induction false} ReceivedIdsDistinct(moduleId: string, items: seq<PracticeApi.Item>, i: nat, j: nat)
    requires i < j < |items|
    ensures Received(moduleId, items)[i].id != Received(moduleId, items)[j].id
  {
    if QuestionId(moduleId, i) == QuestionId(moduleId, j) {
      QuestionIdInjective(moduleId, i, j);
    }
  }

  /** `getSampleQuestions`: the route's fallback questions, numbered from
      1. */
  function SampleQuestions(m: Module): (r: seq<Question>)
    ensures |r| == 3
    ensures forall i :: 0 <= i < 3 ==>
      && r[i].id == QuestionId(m.id, i + 1) && r[i].userAnswer.None?
      && |r[i].options| == 4 && r[i].correctAnswer == i
  {
    var items := PracticeApi.FallbackQuestions(m.title);
    seq(3, i requires 0 <= i < 3 => FromItem(items[i], QuestionId(m.id, i + 1)))
  }

  /** The route's fallback, once received, and the local sample set hold
      the same questions; only the numbering of the ids differs (from 0 and
      from 1). */
  lemma ServedFallbackIsSampleRenumbered(m: Module, i: nat)
    requires i < 3
    ensures Received(m.id, PracticeApi.FallbackQuestions(m.title))[i] == SampleQuestions(m)[i].(id := QuestionId(m.id, i))
  {
  }

  // ---------------------------------------------------------------------
  // Scoring

  predicate IsAnswered(q: Question)
  {
    q.userAnswer.Some?
  }

  predicate IsCorrect(q: Question)
  {
    q.userAnswer == Some(q.correctAnswer)
  }

  /** The number of answered questions. */
  function Answered(qs: seq<Question>): (n: nat)
    ensures n <= |qs|
  {
    if qs == [] then 0 else (if IsAnswered(qs[0]) then 1 else 0) + Answered(qs[1..])
  }

  /** The number of correctly answered questions; a correct one is an
      answered one. */
  function CorrectCount(qs: seq<Question>): (n: nat)
    ensures n <= Answered(qs)
  {
    if qs == [] then 0 else (if IsCorrect(qs[0]) then 1 else 0) + CorrectCount(qs[1..])
  }

  /** `calculateScore`: 0 when nothing is answered, else the share of
      correct answers among the answered ones as a percentage rounded to the
      nearest integer; unanswered questions do not count. */
  function Score(qs: seq<Question>): (s: nat)
    ensures s <= 100
    ensures Answered(qs) == 0 ==> s == 0
    ensures Answered(qs) > 0 ==> (2 * s - 1) * Answered(qs) <= 200 * CorrectCount(qs) < (2 * s + 1) * Answered(qs)
    ensures Answered(qs) > 0 && CorrectCount(qs) == Answered(qs) ==> s == 100
    ensures Answered(qs) > 0 ==> (s >= 70 <==> 200 * CorrectCount(qs) >= 139 * Answered(qs))
  {
    if Answered(qs) == 0 then 0
    else
      var a, c := Answered(qs), CorrectCount(qs);
      var s := Percent(c, a);
      RoundedShare(s, a, c);
      s
  }

  lemma {:induction false} AnsweredAppend(a: seq<Question>, b: seq<Question>)
    ensures Answered(a + b) == Answered(a) + Answered(b)
    ensures CorrectCount(a + b) == CorrectCount(a) + CorrectCount(b)
    decreases |a|
  {
    if a != [] {
      assert (a + b)[1..] == a[1..] + b;
      AnsweredAppend(a[1..], b);
    } else {
      assert a + b == b;
    }
  }

  /** An unanswered question, wherever it stands, leaves the score as it
      is. */
  lemma {:induction false} ScoreIgnoresUnanswered(a: seq<Question>, q: Question, b: seq<Question>)
    requires !IsAnswered(q)
    ensures Score(a + [q] + b) == Score(a + b)
  {
    AnsweredAppend(a, [q]);
    AnsweredAppend(a + [q], b);
    AnsweredAppend(a, b);
    assert Answered([q]) == 0 by { assert [q][1..] == []; }
    assert CorrectCount([q]) == 0 by { assert [q][1..] == []; }
  }

  const PassMessage := "Great job! You're well prepared."
  const StudyMessage := "Keep studying! Review the explanations below."

  /** The message under the score. */
  function ResultMessage(score: nat): string
  {
    if score >= 70 then PassMessage else StudyMessage
  }

  /** The two messages differ, so the pass message shows exactly when the
      score reaches 70. */
  lemma PassMessageIffSeventy(score: nat)
    ensures ResultMessage(score) == PassMessage <==> score >= 70
  {
    assert |PassMessage| == 32;
  }

  /** The nearest integer to `100 * c / a` reaches 70 exactly when
      `200 * c >= 139 * a`. */
  lemma RoundedShare(s: int, a: int, c: int)
    requires a > 0 && (2 * s - 1) * a <= 200 * c < (2 * s + 1) * a
    ensures s >= 70 <==> 200 * c >= 139 * a
  {
    if s >= 70 {
      MulMono(139, 2 * s - 1, a);
    } else {
      MulMono(2 * s + 1, 139, a);
    }
  }

  lemma MulMono(x: int, y: int, w: nat)
    requires x <= y
    ensures x * w <= y * w
  {
    assert y * w - x * w == (y - x) * w;
  }

  /** Three answered questions pass only when all three are right. */
  lemma ThreeAnsweredPassOnlyAllRight(qs: seq<Question>)
    requires Answered(qs) == 3
    ensures ResultMessage(Score(qs)) == PassMessage <==> CorrectCount(qs) == 3
  {
    PassMessageIffSeventy(Score(qs));
  }

  // ---------------------------------------------------------------------
  // Answering and resetting

  /** The questions after option `option` is picked on the question with
      id `id`: that question (or each one with that id) gets the answer,
      the others stay as they were. */
  function Select(qs: seq<Question>, id: string, option: int): (r: seq<Question>)
    ensures |r| == |qs|
    ensures forall i :: 0 <= i < |qs| && qs[i].id == id ==> r[i] == qs[i].(userAnswer := Some(option))
    ensures forall i :: 0 <= i < |qs| && qs[i].id != id ==> r[i] == qs[i]
  {
    seq(|qs|, i requires 0 <= i < |qs| => if qs[i].id == id then qs[i].(userAnswer := Some(option)) else qs[i])
  }

  /** Every answer removed; order and everything else kept. */
  function Cleared(qs: seq<Question>): (r: seq<Question>)
    ensures |r| == |qs|
    ensures forall i :: 0 <= i < |qs| ==> r[i] == qs[i].(userAnswer := None)
  {
    seq(|qs|, i requires 0 <= i < |qs| => qs[i].(userAnswer := None))
  }

  /** After a reset nothing is answered, so the score is 0. */
  lemma {:induction false} ClearedUnanswered(qs: seq<Question>)
    ensures Answered(Cleared(qs)) == 0 && Score(Cleared(qs)) == 0
    decreases |qs|
  {
    if qs != [] {
      assert Cleared(qs)[1..] == Cleared(qs[1..]);
      ClearedUnanswered(qs[1..]);
    }
  }

  /** A reset undoes any selection. */
  lemma SelectThenClear(qs: seq<Question>, id: string, option: int)
    ensures Cleared(Select(qs, id, option)) == Cleared(qs)
  {
  }

  /** On fetched questions, picking by the id of position `k` answers that
      question alone. */
  lemma {:induction false} SelectReceived(moduleId: string, items: seq<PracticeApi.Item>, k: nat, option: int)
    requires k < |items|
    ensures var qs := Received(moduleId, items);
      var r := Select(qs, QuestionId(moduleId, k), option);
      && r[k] == qs[k].(userAnswer := Some(option))
      && forall i :: 0 <= i < |qs| && i != k ==> r[i] == qs[i]
  {
    var qs := Received(moduleId, items);
    forall i | 0 <= i < |qs| && i != k ensures qs[i].id != QuestionId(moduleId, k) {
      if i < k {
        ReceivedIdsDistinct(moduleId, items, i, k);
      } else {
        ReceivedIdsDistinct(moduleId, items, k, i);
      }
    }
  }

  // ---------------------------------------------------------------------
  // The panel

  /** What the panel gets back from the route: nothing usable (a status
      other than ok, a network error or a body that is not JSON), or a body
      whose `questions` field is absent, an array, or something else. */
  datatype PracticeReply = Unavailable | Delivered(questions: JsonList<PracticeApi.Item>)

  const GenerateError := "Failed to generate practice questions. Please try again."

  /** The request the panel sends: always five questions. */
  function PanelRequest(m: Module): PracticeApi.PracticeRequest
  {
    PracticeApi.PracticeRequest("POST", m.id, m.title, m.description, m.keyConceptsPreview, Some(5))
  }

  /** The route accepts the panel's request for a module with an id and a
      title, and asks the model for five questions. */
  lemma PanelRequestAccepted(m: Module)
    requires m.id != "" && m.title != ""
    ensures PracticeApi.Accepted(PanelRequest(m)) && PracticeApi.CallFor(PanelRequest(m)).count == 5
  {
  }

  class PracticePanel {
    const item: Module
    var questions: seq<Question>
    var isLoading: bool
    var showResults: bool
    var error: Option<string>

    constructor (item: Module)
      ensures this.item == item
      ensures questions == [] && !isLoading && !showResults && error.None?
    {
      this.item := item;
      questions := [];
      isLoading := false;
      showResults := false;
      error := None;
    }

    /** `generateQuestions`: an array of questions replaces the list, each
        with the id of its position; anything else shows the error and the
        local sample set. Results stay shown or hidden as they were. */
    method GenerateQuestions(reply: PracticeReply) returns (sent: PracticeApi.PracticeRequest)
      modifies this
      ensures sent == PanelRequest(item)
      ensures reply.Delivered? && reply.questions.Items? ==>
        questions == Received(item.id, reply.questions.items) && error.None?
      ensures !(reply.Delivered? && reply.questions.Items?) ==>
        questions == SampleQuestions(item) && error == Some(GenerateError)
      ensures !isLoading && showResults == old(showResults)
    {
      isLoading := true;
      error := None;
      sent := PanelRequest(item);
      if reply.Delivered? && reply.questions.Items? {
        questions := Received(item.id, reply.questions.items);
      } else {
        error := Some(GenerateError);
        questions := SampleQuestions(item);
      }
      isLoading := false;
    }

    /** `handleAnswerSelect`: nothing changes once results are shown. */
    method SelectAnswer(questionId: string, optionIndex: int)
      modifies this
      ensures old(showResults) ==> questions == old(questions)
      ensures !old(showResults) ==> questions == Select(old(questions), questionId, optionIndex)
      ensures showResults == old(showResults) && isLoading == old(isLoading) && error == old(error)
    {
      if showResults {
        return;
      }
      questions := Select(questions, questionId, optionIndex);
    }

    /** `handleSubmit`: the results are shown. */
    method Submit()
      modifies this
      ensures showResults && questions == old(questions)
      ensures isLoading == old(isLoading) && error == old(error)
    {
      showResults := true;
    }

    /** `handleReset`: results hidden and every answer cleared. */
    method Reset()
      modifies this
      ensures !showResults && questions == Cleared(old(questions))
      ensures isLoading == old(isLoading) && error == old(error)
    {
      showResults := false;
      questions := Cleared(questions);
    }

    /** The score banner: shown with results only, and only on the panel
        that lists questions (an empty panel shows the generate button
        instead); it shows the questions' score and the message that score
        earns, the pass message exactly from 70 up. */
    function Banner(): (b: Option<(nat, string)>)
      reads this
      ensures b.Some? <==> showResults && |questions| > 0
      ensures b.Some? ==> b.value.0 == Score(questions) && b.value.0 <= 100
      ensures b.Some? ==> b.value.1 == ResultMessage(b.value.0)
      ensures b.Some? ==> (b.value.1 == PassMessage <==> b.value.0 >= 70)
    {
      if showResults && |questions| > 0 then
        PassMessageIffSeventy(Score(questions));
        Some((Score(questions), ResultMessage(Score(questions))))
      else None
    }
  }
}

=== FILE: practice_api.dfy ===
/** pages/api/generate-practice-questions.ts: the route that asks the model
    for multiple-choice practice questions on one module. It never fails
    once the request is valid: a model error, a reply without a JSON array
    of objects, or an array that does not parse all give the same three
    fallback questions. The model itself is a parameter: `reply` is what it
    answered to the call the route makes, and `parse` stands for
    `JSON.parse`. */
module PracticeApi {
  import opened Base
  import opened Patterns

  /** One question as the route returns it. */
  datatype Item = Item(text: string, options: seq<string>, correctAnswer: int, explanation: string)

  /** The request body fields the route reads; an absent string field is
      the empty string and an absent `count` is `None`. */
  datatype PracticeRequest = PracticeRequest(
    httpMethod: string,
    moduleId: string,
    moduleTitle: string,
    moduleDescription: string,
    keyConceptsPreview: string,
    count: Option<int>)

  /** What the prompt is built from. */
  datatype PracticeCall = PracticeCall(moduleTitle: string, moduleDescription: string, keyConcepts: string, count: int)

  /** The call made for a valid request: `count` defaults to 5 and missing
      key concepts are written as "Not specified". */
  function CallFor(req: PracticeRequest): (c: PracticeCall)
    ensures req.count.None? ==> c.count == 5
    ensures req.count.Some? ==> c.count == req.count.value
    ensures c.keyConcepts != "" && (req.keyConceptsPreview != "" ==> c.keyConcepts == req.keyConceptsPreview)
    ensures c.moduleTitle == req.moduleTitle && c.moduleDescription == req.moduleDescription
  {
    var count := if req.count.Some? then req.count.value else 5;
    PracticeCall(req.moduleTitle, req.moduleDescription, Or(req.keyConceptsPreview, "Not specified"), count)
  }

  // ---------------------------------------------------------------------
  // The fallback questions

  const FocusPrefix := "What is the main focus of \""
  const OutcomeQuestion := "Which of the following best describes a key learning outcome from this module?"
  const ExamQuestion := "In a typical exam question on this topic, what would you be asked to do?"
  const FocusOptions: seq<string> :=
    ["Understanding core concepts", "Memorizing definitions", "Practical applications", "Historical context"]
  const OutcomeOptions: seq<string> :=
    ["Ability to recite facts", "Critical thinking and problem solving", "Memorization of formulas", "Speed of calculation"]
  const ExamOptions: seq<string> :=
    ["Compare and contrast concepts", "List definitions in order", "Solve a practical problem", "Describe historical development"]
  const FocusExplanation := "The main focus is understanding core concepts as they form the foundation for more advanced topics."
  const OutcomeExplanation := "Critical thinking and problem solving are essential skills developed in this module."
  const ExamExplanation := "Exam questions typically focus on applying knowledge to solve practical problems."

  /** `getFallbackQuestions`: three generic questions, the first naming the
      module. */
  function FallbackQuestions(moduleTitle: string): (r: seq<Item>)
    ensures |r| == 3
    ensures forall i :: 0 <= i < 3 ==> |r[i].options| == 4 && r[i].correctAnswer == i
  {
    [ Item(FocusPrefix + moduleTitle + "\"?", FocusOptions, 0, FocusExplanation),
      Item(OutcomeQuestion, OutcomeOptions, 1, OutcomeExplanation),
      Item(ExamQuestion, ExamOptions, 2, ExamExplanation) ]
  }

  /** The first fallback question names the module. */
  lemma FallbackNamesModule(moduleTitle: string)
    ensures Contains(FallbackQuestions(moduleTitle)[0].text, moduleTitle)
  {
    PrefixContained(moduleTitle, moduleTitle);
    ContainsInside(FocusPrefix, moduleTitle, "\"?", moduleTitle);
  }

  // ---------------------------------------------------------------------
  // Finding the array in the reply: `/\[\s*\{[\s\S]*\}\s*\]/`

  /** Where the `{` after a `[` at `p` and its white space would be. */
  function BraceAfter(text: string, p: nat): nat
    requires p < |text|
  {
    p + 1 + SpaceRun(text, p + 1)
  }

  /** `\[\s*\{` matches at `p`. */
  predicate OpensAt(text: string, p: nat)
  {
    p < |text| && text[p] == '[' && BraceAfter(text, p) < |text| && text[BraceAfter(text, p)] == '{'
  }

  /** The first `p >= from` where `\[\s*\{` matches. */
  function FirstOpen(text: string, from: nat): (r: Option<nat>)
    requires from <= |text|
    decreases |text| - from
    ensures r.Some? ==> from <= r.value && OpensAt(text, r.value)
    ensures forall k :: from <= k < |text| && (r.None? || k < r.value) ==> !OpensAt(text, k)
  {
    if from == |text| then None
    else if OpensAt(text, from) then Some(from)
    else FirstOpen(text, from + 1)
  }

  /** The number of white-space characters right before `e`. */
  function SpacesBefore(text: string, e: nat): (n: nat)
    requires e <= |text|
    ensures n <= e
  {
    if e > 0 && IsSpace(text[e - 1]) then 1 + SpacesBefore(text, e - 1) else 0
  }

  /** `\}\s*\]` ends at `e`, with its `}` after position `b`. */
  predicate ClosesAt(text: string, b: nat, e: nat)
  {
    e < |text| && text[e] == ']' && e > b + 1 + SpacesBefore(text, e) && text[e - 1 - SpacesBefore(text, e)] == '}'
  }

  /** The last `e` below `upTo` where `\}\s*\]` ends after `b`. */
  function LastClose(text: string, b: nat, upTo: nat): (r: Option<nat>)
    requires upTo <= |text|
    ensures r.Some? ==> r.value < upTo && ClosesAt(text, b, r.value)
    ensures forall k: nat :: k < upTo && (r.None? || r.value < k) ==> !ClosesAt(text, b, k)
  {
    if upTo == 0 then None
    else if ClosesAt(text, b, upTo - 1) then Some(upTo - 1)
    else LastClose(text, b, upTo - 1)
  }

  /** `text.match(/\[\s*\{[\s\S]*\}\s*\]/)`: from the leftmost `[` that is
      followed by white space and a `{`, to the last `]` that closes a `}`
      after that `{` (the greedy middle). When that first opening has no
      closing, no later one has either, since its `{` comes earlier. */
  function ArrayMatch(text: string): (r: Option<string>)
    ensures r.Some? ==> |r.value| >= 2 && r.value[0] == '[' && r.value[|r.value| - 1] == ']'
  {
    match FirstOpen(text, 0)
    case None => None
    case Some(p) =>
      match LastClose(text, BraceAfter(text, p), |text|)
      case None => None
      case Some(e) => Some(text[p..e + 1])
  }

  /** Prose without brackets around an array of objects: the array is cut
      out exactly. */
  lemma {:induction false} ArrayMatchOfArray(pre: string, body: string, post: string)
    requires forall i :: 0 <= i < |pre| ==> pre[i] != '['
    requires |body| >= 2 && body[0] == '{' && body[|body| - 1] == '}'
    requires forall i :: 0 <= i < |post| ==> post[i] != ']'
    ensures ArrayMatch(pre + "[" + body + "]" + post) == Some("[" + body + "]")
  {
    var text := pre + "[" + body + "]" + post;
    var p := |pre|;
    var e := p + 1 + |body|;
    assert text[p] == '[' && text[p + 1] == body[0];
    assert SpaceRun(text, p + 1) == 0;
    assert OpensAt(text, p);
    forall k | 0 <= k < p ensures !OpensAt(text, k) {
      assert text[k] == pre[k];
    }
    assert FirstOpen(text, 0) == Some(p);
    assert text[e] == ']' && text[e - 1] == body[|body| - 1];
    assert SpacesBefore(text, e) == 0;
    var b := p + 1;
    assert ClosesAt(text, b, e);
    forall k: nat | e < k < |text| ensures !ClosesAt(text, b, k) {
      assert text[k] == post[k - e - 1];
    }
    assert LastClose(text, b, |text|) == Some(e);
    var arr := "[" + body + "]";
    assert text == pre + arr + post;
    assert text[p..e + 1] == arr by {
      forall k | 0 <= k < |arr| ensures text[p + k] == arr[k] { }
    }
  }

  /** A reply without any `[` has no array. */
  lemma NoBracketNoArray(text: string)
    requires forall i :: 0 <= i < |text| ==> text[i] != '['
    ensures ArrayMatch(text) == None
  {
    assert FirstOpen(text, 0) == None;
  }

  // ---------------------------------------------------------------------
  // The route

  /** `generatePracticeQuestions` once the model has answered (or thrown):
      what `JSON.parse` makes of the array in the reply, and the fallback
      questions whenever there is no reply, no array or no parse. */
  function GeneratedQuestions(reply: Result<string>, parse: string -> Option<seq<Item>>, moduleTitle: string): (r: seq<Item>)
    ensures reply.Failure? ==> r == FallbackQuestions(moduleTitle)
    ensures reply.Success? && ArrayMatch(reply.value).None? ==> r == FallbackQuestions(moduleTitle)
    ensures r != FallbackQuestions(moduleTitle) ==>
      reply.Success? && ArrayMatch(reply.value).Some? && parse(ArrayMatch(reply.value).value) == Some(r)
    ensures reply.Success? && ArrayMatch(reply.value).Some? ==>
      r == match parse(ArrayMatch(reply.value).value)
           case Some(questions) => questions
           case None => FallbackQuestions(moduleTitle)
  {
    match reply
    case Failure(_) => FallbackQuestions(moduleTitle)
    case Success(text) =>
      match ArrayMatch(text)
      case None => FallbackQuestions(moduleTitle)
      case Some(json) =>
        match parse(json)
        case None => FallbackQuestions(moduleTitle)
        case Some(questions) => questions
  }

  /** A reply that wraps an array of objects in bracket-free prose is
      parsed on exactly that array. */
  lemma {:induction false} ArrayInProseParsed(pre: string, body: string, post: string,
                                              parse: string -> Option<seq<Item>>, moduleTitle: string)
    requires forall i :: 0 <= i < |pre| ==> pre[i] != '['
    requires |body| >= 2 && body[0] == '{' && body[|body| - 1] == '}'
    requires forall i :: 0 <= i < |post| ==> post[i] != ']'
    requires parse("[" + body + "]").Some?
    ensures GeneratedQuestions(Success(pre + "[" + body + "]" + post), parse, moduleTitle) == parse("[" + body + "]").value
  {
    ArrayMatchOfArray(pre, body, post);
  }

  /** A reply in prose alone gives the fallback questions. */
  lemma {:induction false} ProseFallsBack(text: string, parse: string -> Option<seq<Item>>, moduleTitle: string)
    requires forall i :: 0 <= i < |text| ==> text[i] != '['
    ensures GeneratedQuestions(Success(text), parse, moduleTitle) == FallbackQuestions(moduleTitle)
  {
    NoBracketNoArray(text);
  }

  /** The request has what the route needs. */
  predicate Accepted(req: PracticeRequest)
  {
    req.httpMethod == "POST" && req.moduleId != "" && req.moduleTitle != ""
  }

  /** The handler: 405 for a method other than POST, 400 without a module
      id or title, and otherwise status 200 with the generated questions;
      `reply` is the model's answer to `CallFor(req)`. It never answers
      500. */
  function HandlePractice(req: PracticeRequest, reply: Result<string>, parse: string -> Option<seq<Item>>): (r: Http<seq<Item>>)
    ensures req.httpMethod != "POST" ==> r == Fail(405, "Method not allowed")
    ensures req.httpMethod == "POST" && !Accepted(req) ==> r == Fail(400, "Missing required parameters")
    ensures Accepted(req) ==> r == Ok(GeneratedQuestions(reply, parse, req.moduleTitle))
    ensures r.Fail? ==> r.code == 405 || r.code == 400
  {
    if req.httpMethod != "POST" then Fail(405, "Method not allowed")
    else if req.moduleId == "" || req.moduleTitle == "" then Fail(400, "Missing required parameters")
    else Ok(GeneratedQuestions(reply, parse, req.moduleTitle))
  }
}

=== FILE: study_progress.dfy ===
/** The progress panel, components/StudyProgress.tsx: how many modules are
    completed, the completion percentage overall and over the critical
    modules, and the study time spent and remaining, read from each
    module's free-text time estimate. Times are counted in half-minutes so
    that the average of a minute range such as "30-45 minutes" stays exact. */
module StudyProgress {
  import opened Base
  import opened Domain
  import opened Patterns

  // ---------------------------------------------------------------------
  // One module's time

  /** A range or a single figure read by the `hour` pattern, in
      half-minutes: `(a + b) / 2 * 60` or `n * 60` minutes. */
  function HourHalves(a: Amount): nat
  {
    match a
    case Single(n) => 120 * n
    case Range(lo, hi) => 60 * (lo + hi)
  }

  /** The same read by the `minute` pattern: `(a + b) / 2` or `n` minutes. */
  function MinuteHalves(a: Amount): nat
  {
    match a
    case Single(n) => 2 * n
    case Range(lo, hi) => lo + hi
  }

  /** What a module without an estimate is read as. */
  const DefaultEstimate := "30 minutes"

  /** The time an estimate text stands for, in half-minutes. A text that
      mentions hours is read with the hour pattern only, otherwise one that
      mentions minutes with the minute pattern; anything unread counts as
      30 minutes. */
  function TextHalves(text: string): nat
  {
    if Contains(text, "hour") then
      match FirstMatch(CountOrRange("hour"), text, 0)
      case Some(found) => HourHalves(found.amount)
      case None => 60
    else if Contains(text, "minute") then
      match FirstMatch(CountOrRange("minute"), text, 0)
      case Some(found) => MinuteHalves(found.amount)
      case None => 60
    else 60
  }

  /** The time of one module in half-minutes; a missing estimate is read as
      "30 minutes". */
  function ModuleHalves(estimatedTime: string): nat
  {
    TextHalves(Or(estimatedTime, DefaultEstimate))
  }

  /** A text that mentions hours counts in whole half-hours, never in loose
      minutes. */
  lemma HourTextsInHalfHours(text: string)
    requires Contains(text, "hour")
    ensures TextHalves(text) % 60 == 0
  {
    var found := FirstMatch(CountOrRange("hour"), text, 0);
    var k: nat := if found.None? then 1
      else if found.value.amount.Single? then 2 * found.value.amount.n
      else found.value.amount.lo + found.value.amount.hi;
    assert TextHalves(text) == 60 * k;
  }

  /** "<n> minutes" counts n minutes. */
  lemma {:induction false} MinutesRead(n: nat)
    ensures TextHalves(NatToString(n) + " minutes") == 2 * n
  {
    var text := NatToString(n) + " minutes";
    WordAbsentAfterNumber(n, " minutes", "hour");
    assert text == NatToString(n) + " " + "minutes";
    PrefixContained("minutes", "minute");
    ContainsInside(NatToString(n) + " ", "minutes", "", "minute");
    assert NatToString(n) + " " + "minutes" + "" == text;
    assert text == NatToString(n) + " " + "minute" + "s";
    ReadCount(CountOrRange("minute"), n, "s");
  }

  /** A module without an estimate counts 30 minutes. */
  lemma MissingEstimateIsHalfHour()
    ensures ModuleHalves("") == 60
  {
    assert NatToString(30) + " minutes" == DefaultEstimate;
    MinutesRead(30);
  }

  /** "<n> hours" counts n hours. */
  lemma {:induction false} HoursRead(n: nat)
    ensures TextHalves(NatToString(n) + " hours") == 2 * 60 * n
  {
    var text := NatToString(n) + " hours";
    assert text == NatToString(n) + " " + "hour" + "s";
    PrefixContained("hours", "hour");
    ContainsInside(NatToString(n) + " ", "hours", "", "hour");
    assert NatToString(n) + " " + "hours" + "" == text;
    ReadCount(CountOrRange("hour"), n, "s");
  }

  /** A text that mentions hours and starts with a range of hours counts
      the range's average. */
  lemma HoursRangeAtStart(text: string, a: nat, b: nat)
    requires Contains(text, "hour")
    requires FirstMatch(CountOrRange("hour"), text, 0) == Some(Found(0, Range(a, b)))
    ensures TextHalves(text) == 60 * (a + b)
  {
  }

  /** "<a>-<b> hours" counts the average of a and b hours. */
  lemma {:induction false} HourRangeRead(a: nat, b: nat)
    ensures TextHalves(NatToString(a) + "-" + NatToString(b) + " hours") == 60 * (a + b)
  {
    var head := NatToString(a) + "-" + NatToString(b) + " ";
    var text := head + "hours";
    assert text == NatToString(a) + "-" + NatToString(b) + " hours";
    PrefixContained("hours", "hour");
    ContainsInside(head, "hours", "", "hour");
    assert head + "hours" + "" == text;
    assert text == NatToString(a) + "-" + NatToString(b) + " " + "hour" + "s";
    ReadRange("hour", a, b, "s");
    HoursRangeAtStart(text, a, b);
  }

  /** A text without hours that starts with a range of minutes counts the
      range's average. */
  lemma MinuteRangeAtStart(text: string, a: nat, b: nat)
    requires !Contains(text, "hour") && Contains(text, "minute")
    requires FirstMatch(CountOrRange("minute"), text, 0) == Some(Found(0, Range(a, b)))
    ensures TextHalves(text) == a + b
  {
  }

  /** A character that is neither a digit nor `-` and is missing from
      `unit` is missing from `-<digits><unit>`. */
  lemma RangeTailAvoids(w: string, unit: string, c: char)
    requires AllDigits(w) && !IsDigit(c) && c != '-'
    requires forall i :: 0 <= i < |unit| ==> unit[i] != c
    ensures forall i :: 0 <= i < |"-" + w + unit| ==> ("-" + w + unit)[i] != c
  {
    var tail := "-" + w + unit;
    forall i | 0 <= i < |tail| ensures tail[i] != c {
      if 0 < i <= |w| {
        assert tail[i] == w[i - 1];
      } else if i > |w| {
        assert tail[i] == unit[i - 1 - |w|];
      }
    }
  }

  /** "<a>-<b> minutes" counts the average of a and b minutes, which may
      end in half a minute. */
  lemma {:induction false} MinuteRangeRead(a: nat, b: nat)
    ensures TextHalves(NatToString(a) + "-" + NatToString(b) + " minutes") == a + b
  {
    var x, w := NatToString(a), NatToString(b);
    var tail := "-" + w + " minutes";
    var text := x + "-" + w + " minutes";
    assert text == x + tail;
    RangeTailAvoids(w, " minutes", 'h');
    WordAbsentAfterNumber(a, tail, "hour");
    assert !Contains(text, "hour");
    PrefixContained("minutes", "minute");
    ContainsInside(x + "-" + w + " ", "minutes", "", "minute");
    assert x + "-" + w + " " + "minutes" + "" == text;
    assert Contains(text, "minute");
    assert text == x + "-" + w + " " + "minute" + "s";
    ReadRange("minute", a, b, "s");
    assert FirstMatch(CountOrRange("minute"), text, 0) == Some(Found(0, Range(a, b)));
    MinuteRangeAtStart(text, a, b);
  }

  // ---------------------------------------------------------------------
  // Sums and counts over the plan

  /** The estimated time of all modules. */
  function TotalHalves(ms: seq<Module>): nat
  {
    if |ms| == 0 then 0 else TotalHalves(ms[..|ms| - 1]) + ModuleHalves(ms[|ms| - 1].estimatedTime)
  }

  /** The estimated time of the modules not completed. */
  function OpenHalves(ms: seq<Module>): nat
  {
    if |ms| == 0 then 0
    else OpenHalves(ms[..|ms| - 1]) + (if ms[|ms| - 1].status != Completed then ModuleHalves(ms[|ms| - 1].estimatedTime) else 0)
  }

  /** The estimated time of the completed modules. */
  function DoneHalves(ms: seq<Module>): nat
  {
    if |ms| == 0 then 0
    else DoneHalves(ms[..|ms| - 1]) + (if ms[|ms| - 1].status == Completed then ModuleHalves(ms[|ms| - 1].estimatedTime) else 0)
  }

  /** The whole plan's time is the time spent plus the time remaining. */
  lemma {:induction false} TotalIsDonePlusOpen(ms: seq<Module>)
    ensures TotalHalves(ms) == DoneHalves(ms) + OpenHalves(ms)
  {
    if |ms| > 0 {
      TotalIsDonePlusOpen(ms[..|ms| - 1]);
    }
  }

  function CountCompleted(ms: seq<Module>): (n: nat)
    ensures n <= |ms|
  {
    if |ms| == 0 then 0 else CountCompleted(ms[..|ms| - 1]) + (if ms[|ms| - 1].status == Completed then 1 else 0)
  }

  function CountCritical(ms: seq<Module>): (n: nat)
    ensures n <= |ms|
  {
    if |ms| == 0 then 0 else CountCritical(ms[..|ms| - 1]) + (if ms[|ms| - 1].priority == Some(Critical) then 1 else 0)
  }

  function CountCompletedCritical(ms: seq<Module>): (n: nat)
    ensures n <= CountCritical(ms) && n <= CountCompleted(ms)
  {
    if |ms| == 0 then 0
    else CountCompletedCritical(ms[..|ms| - 1])
         + (if ms[|ms| - 1].status == Completed && ms[|ms| - 1].priority == Some(Critical) then 1 else 0)
  }

  /** All modules completed means every count reaches the whole. */
  lemma {:induction false} AllCompletedCounts(ms: seq<Module>)
    requires forall i :: 0 <= i < |ms| ==> ms[i].status == Completed
    ensures CountCompleted(ms) == |ms|
    ensures CountCompletedCritical(ms) == CountCritical(ms)
    ensures OpenHalves(ms) == 0
  {
    if |ms| > 0 {
      AllCompletedCounts(ms[..|ms| - 1]);
    }
  }

  // ---------------------------------------------------------------------
  // The figures shown

  /** The completion percentage over the critical modules; 100 when the
      plan has none. */
  function CriticalPercentage(ms: seq<Module>): (r: nat)
    ensures r <= 100
    ensures CountCritical(ms) == 0 ==> r == 100
    ensures CountCritical(ms) > 0 ==> r == Percent(CountCompletedCritical(ms), CountCritical(ms))
  {
    if CountCritical(ms) > 0 then Percent(CountCompletedCritical(ms), CountCritical(ms)) else 100
  }

  /** `Math.round(minutes / 60 * 10)`: the time in tenths of an hour,
      halves rounded up. */
  function Tenths(halves: nat): (t: nat)
    ensures 12 * t <= halves + 6 < 12 * t + 12
  {
    (halves + 6) / 12
  }

  /** Spent and remaining time are rounded separately, so the two shown
      figures add up to the shown total give or take a tenth of an hour. */
  lemma SpentPlusRemainingNearTotal(done: nat, open: nat)
    ensures Tenths(done + open) - 1 <= Tenths(done) + Tenths(open) <= Tenths(done + open) + 1
  {
  }

  /** A number of tenths printed as JavaScript prints `tenths / 10`. */
  function HoursText(tenths: nat): string
  {
    NatToString(tenths / 10) + (if tenths % 10 == 0 then "" else "." + [DigitChar(tenths % 10)]) + " hours"
  }

  datatype Progress = Progress(
    completedCount: nat,
    totalCount: nat,
    completionPercentage: nat,
    criticalCompletionPercentage: nat,
    timeSpent: string,
    timeRemaining: string)

  const NoProgress := Progress(0, 0, 0, 0, "0 hours", "0 hours")

  /** The figures for an empty plan agree with the general formula. */
  lemma NoProgressIsZeroTime()
    ensures NoProgress.timeSpent == HoursText(Tenths(0)) && NoProgress.timeRemaining == HoursText(Tenths(0))
  {
    assert NatToString(0) == "0";
  }

  /** `calculateProgress`, with its loop over the modules accumulating the
      total and the remaining time. */
  method CalculateProgress(plan: Option<LearningPlan>) returns (p: Progress)
    ensures plan.None? || |plan.value.modules| == 0 ==> p == NoProgress
    ensures plan.Some? && |plan.value.modules| > 0 ==>
      var ms := plan.value.modules;
      && p.completedCount == CountCompleted(ms) && p.totalCount == |ms|
      && p.completionPercentage == Percent(CountCompleted(ms), |ms|)
      && p.criticalCompletionPercentage == CriticalPercentage(ms)
      && p.timeSpent == HoursText(Tenths(DoneHalves(ms)))
      && p.timeRemaining == HoursText(Tenths(OpenHalves(ms)))
    ensures p.completionPercentage <= 100 && p.criticalCompletionPercentage <= 100
  {
    if plan.None? || |plan.value.modules| == 0 {
      return NoProgress;
    }
    var ms := plan.value.modules;
    var total, remaining := 0, 0;
    var i := 0;
    while i < |ms|
      invariant 0 <= i <= |ms|
      invariant total == TotalHalves(ms[..i]) && remaining == OpenHalves(ms[..i])
    {
      assert ms[..i + 1][..i] == ms[..i];
      var minutes := ModuleHalves(ms[i].estimatedTime);
      total := total + minutes;
      if ms[i].status != Completed {
        remaining := remaining + minutes;
      }
      i := i + 1;
    }
    assert ms[..i] == ms;
    TotalIsDonePlusOpen(ms);
    p := Progress(
      CountCompleted(ms), |ms|,
      Percent(CountCompleted(ms), |ms|),
      CriticalPercentage(ms),
      HoursText(Tenths(total - remaining)),
      HoursText(Tenths(remaining)));
  }

  /** A plan whose modules are all completed shows 100% on both bars and no
      time remaining. */
  lemma {:induction false} FinishedPlanShowsFull(ms: seq<Module>)
    requires |ms| > 0
    requires forall i :: 0 <= i < |ms| ==> ms[i].status == Completed
    ensures Percent(CountCompleted(ms), |ms|) == 100
    ensures CriticalPercentage(ms) == 100
    ensures Tenths(OpenHalves(ms)) == 0
  {
    AllCompletedCounts(ms);
  }
}
